=== FILE: README.md ===
# Presidential Service Apartment — a Dafny model of the booking core

This project models the server-side core of a serviced-apartment website built on
Next.js and Firestore:

- the reservation engine: the half-open overlap test, `checkAvailability`, the filtered,
  sorted and paginated `list`, and `create`, `getById`, `update` and `delete`;
- the reservation HTTP routes: the availability check, the list with its defaults, tag
  parsing and `totalPages`, the create endpoint with its night count and admin
  notification, and `PUT /api/reservation/[id]`;
- the decision logic of the confirm/cancel page that an admin reaches from the
  notification e-mail;
- the blog list and create endpoints, the blog category list and create endpoints, and
  the apartment create endpoint, each with its slug normalisation, its 400/409/500 rules
  and its field defaults;
- the store-or-mock fallbacks of `ApartmentService` and `createApartment`;
- `ContentService.getContent` (per-part fallback to demo content) and `deleteContent`
  (soft delete);
- the Redux blog slice: reducers and the fulfilled/pending/rejected cases of its thunks;
- `fixFirebaseStorageUrl`.

A Firestore collection is a `DocStore.Collection<T>`: a map from document id to document,
plus the order in which `getDocs` lists the documents. A store that throws is `Down(reason)`
in `Db<T>`, and each route's `catch` becomes an explicit 500 branch. A request body is
`Parsed(value)` or `Malformed(reason)`, the latter standing for a `req.json()` that throws.
Dates and timestamps are integers (epoch milliseconds). JavaScript truthiness of optional
strings (`x || default`), `Array.prototype.slice` with negative indices, `Math.ceil` of a
division that may be `NaN` or `Infinity`, `String.prototype.split`, `trim` and the stable
`Array.prototype.sort` are written out in `Wrappers`, `Seqs` and `Strings`.

`ReservationService.checkAvailability` accepts a `roomId` and lets it take precedence over
the apartment (src/services/reservation.service.ts:121-138), but `POST /api/reservation/check`
takes only `apartmentId`, `checkIn` and `checkOut` from the body and forwards those
(src/app/api/reservation/check/route.ts:7-11). So room scoping exists in
`Reservations.CheckAvailability` (`RoomScopeWins`), and `ReservationRoutes.CheckIgnoresRoom`
shows that the route never reaches it.

Document ids, `now`, the insert position of a new document and the success of the second
write of a create are parameters, because Firestore and the clock choose them.

## Model

| member | source | states |
|---|---|---|
| Reservations.OverlapsIffSharedInstant | src/services/reservation.service.ts:26-32 | for proper ranges, the strict-comparison overlap test holds exactly when some instant lies in both half-open ranges |
| Reservations.OverlapsFacts | src/services/reservation.service.ts:26-32 | overlap is symmetric, a non-empty range overlaps itself, and back-to-back stays (one checkOut equals the other's checkIn) do not overlap |
| Reservations.Overlaps | src/services/reservation.service.ts:26-32 | ranges where one ends at or before the other begins never overlap; proper ranges overlap iff the later start lies inside both |
| Reservations.ImproperRangesOverlap | src/services/reservation.service.ts:26-32 | for every reversed or empty range `[checkIn, checkOut)` and every stay with `start < checkOut` and `checkIn < end`, the range holds no instant yet overlaps the stay, because the test only compares endpoints |
| Reservations.CheckAvailability | src/services/reservation.service.ts:121-141 | `available` is true iff there are no conflicts; a reservation is a conflict iff it is stored, in the requested scope and overlapping; conflicts keep store order |
| Reservations.RoomScopeWins | src/services/reservation.service.ts:132-138 | when a room id is given, every conflict belongs to that room, whatever apartment id is also given |
| Reservations.OtherApartmentNeverConflicts | src/services/reservation.service.ts:132-138 | without a room id, a reservation of another apartment is never a conflict |
| Reservations.CancelledStillBlocks | src/services/reservation.service.ts:132-140 | the status is never consulted: a cancelled reservation in scope and overlapping makes the range unavailable |
| Reservations.EmptyScopeAvailable | src/services/reservation.service.ts:121-141 | when nothing is in scope the answer is available with no conflicts |
| Reservations.List | src/services/reservation.service.ts:41-83 | `total` counts every matching reservation before slicing, and the page is the `(page-1)*limit` window of the sorted, filtered list |
| Reservations.StagedIsSelected | src/services/reservation.service.ts:62-76 | applying the apartment, room, keyword and tag filters one after another keeps exactly the reservations that pass all four |
| Reservations.SelectedMembers | src/services/reservation.service.ts:56-76 | a reservation is listed iff it is in the store and matches every given filter |
| Reservations.SelectedOrdered | src/services/reservation.service.ts:50-60 | the listing is ordered by `createdAt` (missing counts as 0), descending unless `order` is `asc` |
| Reservations.SelectedStable | src/services/reservation.service.ts:56-60 | reservations with equal `createdAt` keep their store order |
| Reservations.ListPageBound | src/services/reservation.service.ts:78-82 | a page holds at most `limit` reservations and never more than `total` |
| Reservations.ListPagesComplete | src/services/reservation.service.ts:78-82 | once n pages cover `total`, pages 1..n concatenated give the whole filtered list exactly once |
| Reservations.ListPagesArePages | src/services/reservation.service.ts:78-82 | the first n pages of `list` are the first n windows of the filtered list |
| Reservations.GetById | src/services/reservation.service.ts:85-90 | a reservation is returned iff its id is stored, and it carries that id |
| Reservations.Create | src/services/reservation.service.ts:92-103 | the new reservation gets the fresh id, keeps every payload field, has status `pending` unless one is given, has `createdAt == updatedAt == now`, and is the only document added |
| Reservations.CreateThenGet | src/services/reservation.service.ts:85-103 | a created reservation is found again by its id |
| Reservations.CreateBlocksRange | src/services/reservation.service.ts:92-141 | after a booking, a check of the same range in a scope that covers it reports the booking as a conflict |
| Reservations.Merge | src/services/reservation.service.ts:105-113 | the merged reservation keeps its id, takes `updatedAt` from now, and takes each of the twelve other fields from the patch when the patch gives it and from the stored reservation otherwise |
| Reservations.MergeLaws | src/services/reservation.service.ts:105-113 | applying a patch twice equals applying it once, an empty patch only stamps `updatedAt`, and two patches compose |
| Reservations.StatusPatchOnlyStatus | src/services/reservation.service.ts:105-113 | a status-only patch changes the status and `updatedAt` and nothing else |
| Reservations.Update | src/services/reservation.service.ts:105-113 | an unknown id gives null and leaves the store alone; otherwise only that document changes, to the merge of the patch |
| Reservations.AnyTransition | src/services/reservation.service.ts:105-113 | every status change is accepted, including cancelled to confirmed, and `getById` sees it |
| Reservations.Delete | src/services/reservation.service.ts:115-119 | delete always answers true, afterwards `getById` finds nothing for that id, and other ids read as before |
| Reservations.DeleteIdempotent | src/services/reservation.service.ts:115-119 | deleting twice leaves the same documents as deleting once |
| ReservationRoutes.PostCheck | src/app/api/reservation/check/route.ts:4-16 | 400 iff a date is missing; a malformed body or a failing store gives 500; otherwise 200 with the service's answer for the apartment and dates only |
| ReservationRoutes.CheckIgnoresRoom | src/app/api/reservation/check/route.ts:7-11 | a `roomId` in the body never changes the answer |
| ReservationRoutes.CheckMissingDate | src/app/api/reservation/check/route.ts:8-10 | with a missing date the answer is 400 whatever the store holds, so the service is not consulted |
| ReservationRoutes.CheckAcceptsReversedRange | src/app/api/reservation/check/route.ts:7-11 | for any stored stay and any range with check-out at or before check-in inside it, the check answers 200, not available, with that stay among the conflicts |
| ReservationRoutes.ParseTags | src/app/api/reservation/route.ts:15 | parsed tags are non-empty and contain no comma |
| ReservationRoutes.ParseTagsJoin | src/app/api/reservation/route.ts:15 | tags joined by commas parse back to the same tags |
| ReservationRoutes.ParseTagsSplit | src/app/api/reservation/route.ts:15 | a parameter without empty segments is rebuilt by joining its parsed tags |
| ReservationRoutes.GetList | src/app/api/reservation/route.ts:6-37 | 200 iff the store answers, carrying the service's page and total with `totalPages` as `ceil(total/limit)`, replaced by 1 when that is 0 or NaN, and echoing the keyword and the parsed tags as filters; 500 otherwise |
| ReservationRoutes.GetListDefaults | src/app/api/reservation/route.ts:9-15 | without parameters the page is 1, the limit 10, the order newest first, the first ten matches are returned, and no tag filter applies |
| ReservationRoutes.TotalPagesCover | src/app/api/reservation/route.ts:17-25 | with a positive limit, `totalPages` is at least 1 and that many pages list every match |
| ReservationRoutes.PageCountCoversListing | src/app/api/reservation/route.ts:25 | the page count the route reports covers the service's listing |
| ReservationRoutes.Nights | src/app/api/reservation/route.ts:51-60 | the night count is 0 when checkout is not after check-in, and otherwise the least number of whole days covering the stay |
| ReservationRoutes.NightsOfWholeDays | src/app/api/reservation/route.ts:51-60 | k whole days give k nights, and one millisecond more gives k+1 |
| ReservationRoutes.PostCreate | src/app/api/reservation/route.ts:39-195 | 201 iff the body parses and the store answers, with the created reservation stored; any failure is a 500 with no write and no mail; a mail is attempted iff an admin address is set, with the confirm and cancel links for the new id; `emailSent` follows the address and a failed delivery is only logged |
| ReservationRoutes.DeliveryIrrelevant | src/app/api/reservation/route.ts:176-188 | whether delivery succeeds changes neither the response nor the store |
| ReservationRoutes.PutReservation | src/services/reservation.service.ts:105-113 | `PUT /api/reservation/[id]` (its route file, lines 21-35) around `update`: 200 with the merged reservation (sent as `{ reservation: ... }`) iff the id exists, 404 iff it does not, 500 on a malformed body or failing store; only a 200 writes |
| ReservationRoutes.ActionLink | src/app/api/reservation/route.ts:153-154 | a notification link is the confirmation page address, `?`, the action after `action=`, and ends with the reservation id, with exactly that length |
| ReservationRoutes.MailFor | src/app/api/reservation/route.ts:45-60 | the notification goes to the admin address, names the guest or "Guest" (never empty), and its confirm and cancel links differ |
| ReservationPage.Param | src/components/pages/reservation/index.tsx:18-19 | a parameter is absent iff no pair has that name, and a present value comes from a pair with that name |
| ReservationPage.PairOf | src/components/pages/reservation/index.tsx:18-19 | a parameter name holds no `=`, and the piece is the name, `=` and the value again (or the name alone when it has no `=`, with an empty value) |
| ReservationPage.QueryString | src/components/pages/reservation/index.tsx:14-19 | the query string is what follows the first `?` of the URL with its fragment cut off, as `useSearchParams` reads it, and is empty when that part has no `?` |
| ReservationPage.FragmentIsNotQuery | src/components/pages/reservation/index.tsx:14-28 | a `?` inside the fragment starts no query: such a link has no parameters and the page sends nothing in any session |
| ReservationPage.ParseQuery | src/components/pages/reservation/index.tsx:14-19 | no parameter name holds `=` or `&`, no value holds `&`, and a URL without `?` has no parameters |
| ReservationPage.ActionOf | src/components/pages/reservation/index.tsx:18 | an action is non-empty and comes from an `action` pair; without such a pair there is none, and an empty one counts as none |
| ReservationPage.ReservationIdOf | src/components/pages/reservation/index.tsx:19 | a non-empty `id` parameter wins, and without an `id` or `reservationId` pair the id is empty |
| ReservationPage.ReservationIdFromPair | src/components/pages/reservation/index.tsx:19 | a non-empty id is the value of an `id` or a `reservationId` pair |
| ReservationPage.CanProceed | src/components/pages/reservation/index.tsx:26-28 | the page proceeds iff it has an action and an id and the status it would send is the one the action names |
| ReservationPage.NextStatus | src/components/pages/reservation/index.tsx:47 | the status sent is confirmed or cancelled, and it is named by the action exactly when the action is one of those two |
| ReservationPage.ParseTwo | src/components/pages/reservation/index.tsx:18-19 | a URL with two `name=value` pairs parses to exactly those two pairs in order |
| ReservationPage.LinkQuery | src/app/api/reservation/route.ts:153-154 | the e-mail's action link parses back to its action and reservation id |
| ReservationPage.Decide | src/components/pages/reservation/index.tsx:18-40 | the login dialog opens iff the link can proceed and nobody is signed in; a PUT is sent iff it can proceed and someone is signed in, never both; the PUT targets the non-empty id and its status equals the action |
| ReservationPage.DecideLinkQuery | src/components/pages/reservation/index.tsx:19-47 | a confirm or cancel query with a non-empty id opens the login dialog when signed out, and sends the matching status when signed in |
| ReservationPage.LinkDecides | src/components/pages/reservation/index.tsx:18-47 | the same holds for the link the notification mail carries |
| ReservationPage.Finish | src/components/pages/reservation/index.tsx:53-60 | a success message appears iff the response is ok, and then it names the action; otherwise an error appears, the server's own error text when it gave one |
| ReservationPage.FollowLink | src/components/pages/reservation/index.tsx:42-64 | following a link for a stored reservation updates its status to the action and shows the success message |
| ReservationPage.FollowStaleLink | src/components/pages/reservation/index.tsx:42-64 | following a link for a missing reservation changes nothing and shows the route's "Not found" error |
| ReservationPage.BookThenConfirm | src/app/api/reservation/route.ts:39-195 | a booking made with an admin address yields a confirm link that, once signed in, sends a PUT that confirms the new reservation |
| Http.ErrorText | src/app/api/reservation/route.ts:31-35 | a thrown error's message is reported when it is non-empty, otherwise the route's fallback text |
| BlogRoutes.GetPosts | src/app/api/blog/route.ts:15-78 | 200 iff the store answers, with page and limit defaulting to 1 and 9, `total` the filtered count, the page its window and `totalPages` as `ceil(total/limit)`, echoing category, keyword and tags as filters; otherwise 500 "Failed to fetch posts" |
| BlogRoutes.StagedIsSelected | src/app/api/blog/route.ts:31-55 | the category, keyword and tag filters applied in turn keep exactly the posts that pass all three |
| BlogRoutes.SelectedMembers | src/app/api/blog/route.ts:26-55 | a post is listed iff it is stored and passes every filter, and the listing keeps store order |
| BlogRoutes.BlogPagination | src/app/api/blog/route.ts:58-67 | a page holds at most `limit` posts, `totalPages` pages list every match, and `totalPages` is 0 exactly when nothing matches |
| BlogRoutes.ReadingTime | src/app/api/blog/route.ts:146 | the reading time is the least whole number of minutes covering the word count at 200 words a minute |
| BlogRoutes.DefaultExcerpt | src/app/api/blog/route.ts:118 | the default excerpt is the first 200 characters of the content followed by "..." |
| BlogRoutes.DefaultMeta | src/app/api/blog/route.ts:136-142 | the SEO description is the given excerpt, else a prefix of the content of at most 160 characters |
| BlogRoutes.NewPost | src/app/api/blog/route.ts:112-157 | a new post has status `draft` unless given, `publishedAt` now only when published, zero counters with the computed reading time, an empty comment list, and `createdAt == updatedAt` |
| BlogRoutes.DerivedSlug | src/app/api/blog/route.ts:94-99 | a given slug is used verbatim; otherwise the slug derived from the title is a normalised slug |
| BlogRoutes.CreatePost | src/app/api/blog/route.ts:81-169 | 400 iff title or content is missing; 409 iff both are given, the store answers and the slug is taken; 500 iff the body does not parse, the store fails on a valid body, or the id write of an admitted post fails; 201 iff the post is admitted and both writes succeed; a refused request writes nothing, and an admitted one stores the new post even when the id write fails |
| BlogRoutes.Accept | src/app/api/blog/route.ts:159-168 | an admitted post is stored at its position in the listing, and the answer is 201 with the post, or 500 when the id write fails |
| BlogRoutes.CreateKeepsSlugsUnique | src/app/api/blog/route.ts:94-110 | creating a post keeps slugs unique, and afterwards the new post is the only one with its slug |
| BlogRoutes.SameTitleTwice | src/app/api/blog/route.ts:94-110 | posting the same untitled-slug post twice is refused the second time with 409 and no write |
| CategoryRoute.GetCategories | src/app/api/blog/category/route.ts:13-31 | without `q` every category in store order; with `q`, exactly those whose lower-cased name contains the lower-cased `q`, in store order; 500 when the store fails |
| CategoryRoute.SearchIgnoresCase | src/app/api/blog/category/route.ts:16-24 | the search gives the same answer for `q` and for its lower-case form |
| CategoryRoute.ExactNameFound | src/app/api/blog/category/route.ts:16-24 | searching for a category's full name finds it |
| CategoryRoute.GivenSlugNormalised | src/app/api/blog/category/route.ts:42-45 | a given slug is normalised too, and giving back the stored slug reproduces it |
| CategoryRoute.NewCategory | src/app/api/blog/category/route.ts:59-63 | the stored name and description are trimmed, the name is non-empty, and a missing description becomes "" |
| CategoryRoute.CreateCategory | src/app/api/blog/category/route.ts:34-75 | 400 iff the name is missing or blank; 409 iff the slug is taken; 201 iff admitted and both writes succeed; a refused request writes nothing, an admitted one stores the category even when the id write fails |
| CategoryRoute.Accept | src/app/api/blog/category/route.ts:65-74 | an admitted category is stored at its position in the listing, answered with 201, or 500 when the id write fails |
| CategoryRoute.BlankNameRefused | src/app/api/blog/category/route.ts:38-40 | a whitespace-only name is refused with 400 |
| CategoryRoute.CreateKeepsSlugsUnique | src/app/api/blog/category/route.ts:42-63 | creating a category keeps slugs unique, and the stored name is already trimmed |
| CategoryRoute.FreeSlugKeepsUnique | src/app/api/blog/category/route.ts:50-57 | adding a document under a free slug keeps slugs unique |
| Apartments.FindFirst | src/services/apartment.service.ts:29-47 | the result is the first element that matches, and nothing is found iff no element matches |
| Apartments.GetApartments | src/services/apartment.service.ts:10-24 | the stored apartments when there are any, otherwise, or when the store fails, the mock list |
| Apartments.MockFallback | src/services/apartment.service.ts:10-24 | the mock list is served iff the store is empty or happens to hold the mock list; a failing store always serves it |
| Apartments.GetApartmentBySlug | src/services/apartment.service.ts:29-47 | when a stored apartment has the slug, the answer is the first such in the listing; otherwise, and when the store fails, it is the first mock apartment with the slug; null means neither has it |
| Apartments.StoreSlugs | src/services/apartment.service.ts:29-41 | no listed apartment has the slug iff no stored document has it |
| Apartments.GetApartmentById | src/services/apartment.service.ts:52-66 | the stored document for the id when there is one, otherwise the first mock with that id |
| Apartments.CreateApartment | src/services/apartment.service.ts:97-108 | the returned apartment is the payload with the new id; a failing store writes nothing; a failed id write throws after the document is stored |
| Apartments.NewApartment | src/app/api/apartment/route.ts:42-68 | every field is the given one or its default: an empty location, summary and description, empty rooms, amenities, gallery and tags, rating and review count 0, empty contact, policies and rate, and a placeholder image named after the apartment; `createdAt == updatedAt == now` |
| Apartments.PostApartment | src/app/api/apartment/route.ts:16-79 | 400 iff the name is missing; 409 iff the slug is found in the store or the mock list; 201 iff admitted, the store answers and both writes succeed; only an admitted request can write |
| Apartments.Submit | src/app/api/apartment/route.ts:70-78 | an admitted apartment is stored at its position in the listing, answered with 201, or 500 when a write fails |
| Apartments.MockSlugBlocksCreate | src/app/api/apartment/route.ts:34-40 | a slug used by a mock apartment is refused with 409 |
| Apartments.CreateThenRead | src/app/api/apartment/route.ts:16-79 | after an admitted create, the apartment is found by slug and by id and appears in the listing |
| Media.Placeholder | src/app/api/apartment/route.ts:51-57 | the stand-in media is an image carrying the given alt text |
| SiteContent.DataOf | src/services/content.service.ts:37-38 | a stored document reads as its data, a missing one as empty |
| SiteContent.GetContent | src/services/content.service.ts:20-55 | each part is the stored document unless it is empty or missing, in which case the demo part is used; a failing store gives the demo content |
| SiteContent.FallbackCases | src/services/content.service.ts:37-49 | the four combinations of empty and present parts give demo, mixed or stored content |
| SiteContent.EmptyLikeMissing | src/services/content.service.ts:37-38 | an empty document is served exactly like a missing one |
| SiteContent.DeleteContent | src/services/content.service.ts:153-165 | deletion is soft: it adds `deleted` and `deletedAt` and keeps every other field and document; a missing document or failing store gives an error |
| SiteContent.DeletedContentStillServed | src/services/content.service.ts:20-55 | a soft-deleted site document is still served, flag included |
| SiteContent.DeleteTwice | src/services/content.service.ts:153-165 | deleting twice keeps the document with the later `deletedAt` |
| BlogSlice.SortPosts | src/store/slices/blog-slice.ts:294-312 | the posts are a permutation of the fetched ones, ordered by the chosen key in the chosen direction |
| BlogSlice.OnPostsFetched | src/store/slices/blog-slice.ts:292-317 | the fetched posts are stored sorted, with the new pagination, loading off, and the rest of the state unchanged |
| BlogSlice.FetchedTiesKeepOrder | src/store/slices/blog-slice.ts:294-312 | posts with equal sort keys keep the order the server sent |
| Posts.SortKey | src/store/slices/blog-slice.ts:294-306 | by publication date, a post's key is negative iff it is unpublished and is its date otherwise; by views or likes, the key is that counter |
| Posts.UnpublishedFirst | src/store/slices/blog-slice.ts:303-305 | an unpublished post sorts before every published one |
| BlogSlice.OnPostCreated | src/store/slices/blog-slice.ts:352-364 | the new post is prepended and the total grows by one |
| BlogSlice.FindIndex | src/store/slices/blog-slice.ts:371-382 | the index is that of the first post with the id, or -1 when there is none |
| BlogSlice.OnPostUpdated | src/store/slices/blog-slice.ts:367-386 | only the first post with the id is replaced, and the current post too when it has that id |
| BlogSlice.UpdateIdempotent | src/store/slices/blog-slice.ts:367-386 | applying the same update twice is the same as once |
| BlogSlice.OnPostDeleted | src/store/slices/blog-slice.ts:389-404 | every post with the id is removed and the others keep their order, the total drops by one, and a matching current post is cleared |
| BlogSlice.CreateThenDelete | src/store/slices/blog-slice.ts:352-404 | creating then deleting a new post restores the list, the pagination and the current post |
| BlogSlice.DeleteMissingStillCounts | src/store/slices/blog-slice.ts:393-400 | deleting an id that is not listed still lowers the total |
| BlogSlice.OnViews | src/store/slices/blog-slice.ts:407-416 | only the view count of the first matching post, and of the matching current post, changes |
| BlogSlice.OnLikes | src/store/slices/blog-slice.ts:419-428 | only the like count of the first matching post, and of the matching current post, changes |
| BlogSlice.ViewsLastWins | src/store/slices/blog-slice.ts:407-416 | two view updates in a row leave the second count |
| BlogSlice.LikesLastWins | src/store/slices/blog-slice.ts:419-428 | two like updates in a row leave the second count |
| BlogSlice.OnCommentsFetched | src/store/slices/blog-slice.ts:431-444 | the comments replace those of the matching current post, loading stops, and nothing else in the state changes |
| BlogSlice.OnCommentAdded | src/store/slices/blog-slice.ts:447-464 | the comment is appended to the matching current post, its comment count grows by one, nothing else in it changes, and the rest of the state is untouched apart from loading |
| BlogSlice.FetchedThenAdded | src/store/slices/blog-slice.ts:431-464 | loading a post's comments and then adding one lists the new comment after the loaded ones; for another post the current post is untouched |
| BlogSlice.CommentsCounted | src/store/slices/blog-slice.ts:447-464 | adding n comments appends them in order and raises the count by n |
| BlogSlice.Reduce | src/store/slices/blog-slice.ts:257-464 | pending sets loading and clears the error, rejected stores the message, reset restores the initial state, and each field changes only under the actions that own it |
| BlogSlice.RequestCycle | src/store/slices/blog-slice.ts:286-364 | a pending then rejected request leaves the posts, stops loading and keeps the error; a pending then fulfilled create prepends the post with no error |
| Slugs.Collapse | src/app/api/blog/route.ts:98 | every run of characters outside `[a-z0-9]` becomes one dash, and no doubled dash remains |
| Slugs.Slugify | src/app/api/blog/category/route.ts:42-45 | the result contains only `[a-z0-9-]`, with no leading, trailing or doubled dash |
| Slugs.SlugOf | src/app/api/blog/category/route.ts:42-45 | the category and apartment slug (the given slug, else the name, normalised either way; also src/app/api/apartment/route.ts lines 28-31) is a slug that normalisation leaves unchanged |
| Slugs.SlugFixedPoints | src/app/api/blog/category/route.ts:42-45 | a string is left unchanged by normalisation iff it already is a slug |
| Slugs.SlugifyIdempotent | src/app/api/apartment/route.ts:28-31 | normalising twice is the same as once |
| Slugs.SlugKeepsLettersAndDigits | src/app/api/blog/route.ts:96-99 | the slug keeps every letter and digit of the lower-cased input, in order |
| StorageUrl.MatchAtSound | src/lib/utils.ts:55-61 | a match reports a bucket and object path that the URL really has at that place |
| StorageUrl.MatchAtComplete | src/lib/utils.ts:55-61 | every bucket and object path the URL has at a place is the match found there |
| StorageUrl.FirstMatchLeftmost | src/lib/utils.ts:55-61 | the first match is at the leftmost place where one exists |
| StorageUrl.Fix | src/lib/utils.ts:39-66 | the URL is returned unchanged iff it is empty, lacks the storage host, or already asks for `alt=media`; a storage URL always comes out with the host and `alt=media` |
| StorageUrl.FixIdempotent | src/lib/utils.ts:39-66 | fixing twice is the same as once |
| StorageUrl.PlainObjectLink | src/lib/utils.ts:55-61 | an object link is rebuilt as the canonical download URL of its bucket and path |
| StorageUrl.MatchedLinkRebuilt | src/lib/utils.ts:55-61 | any storage URL without `alt=media` is rebuilt from its leftmost bucket-and-path match |
| StorageUrl.QueryDropped | src/lib/utils.ts:55-61 | a query already on the link, such as a token, is dropped by the rebuild |
| StorageUrl.CanonicalContains | src/lib/utils.ts:58-60 | the canonical URL carries the storage host and `alt=media` |
| Strings.Lower | src/app/api/blog/route.ts:38-43 | lower-casing keeps the length, maps each character on its own, and leaves no upper-case letter |
| Strings.LowerIdempotent | src/app/api/blog/category/route.ts:16-23 | lower-casing twice is the same as once |
| Strings.Trim | src/app/api/blog/category/route.ts:38-63 | the trimmed string neither starts nor ends with white space |
| Strings.TrimPieces | src/app/api/blog/category/route.ts:38-63 | a string is its trimmed form with only white space before and after |
| Strings.TrimEmptyIffBlank | src/app/api/blog/category/route.ts:38-40 | trimming gives "" iff the string is all white space |
| Strings.TrimIdempotent | src/app/api/blog/category/route.ts:59-63 | trimming twice is the same as once |
| Strings.Split | src/app/api/reservation/route.ts:15 | a split yields at least one piece and no piece holds the separator |
| Strings.JoinSplit | src/app/api/reservation/route.ts:15 | joining the pieces of a split gives back the string |
| Strings.SplitJoin | src/app/api/reservation/route.ts:15 | splitting a join of separator-free pieces gives back the pieces |
| Strings.Take | src/app/api/blog/route.ts:118 | `substring(0, n)` is a prefix of length `min(n, length)` |
| Seqs.SortBy | src/services/reservation.service.ts:56-60 | the sort returns a permutation of its input ordered by the key |
| Seqs.SortStable | src/services/reservation.service.ts:56-60 | elements with equal keys keep their relative order |
| Seqs.FilterMember | src/services/reservation.service.ts:62-76 | an element survives a filter iff it was present and passes the test |
| Seqs.FilterIsSubseq | src/services/reservation.service.ts:62-76 | a filter keeps the original order |
| Seqs.FilterSortedDir | src/services/reservation.service.ts:56-76 | filtering a sorted list keeps it sorted |
| Seqs.SliceIndex | src/services/reservation.service.ts:78-82 | an index within the list is kept and one past its end becomes its length |
| Seqs.JsSlice | src/services/reservation.service.ts:78-82 | `slice` returns the elements from the normalised start up to the normalised end, in order, `s[start..end]` for in-range indices and nothing when the end is not after the start |
| Seqs.SliceFromEnd | src/services/reservation.service.ts:78-82 | a negative start or end counts back from the end of the list, and one past the front means the front |
| Seqs.NonPositivePage | src/services/reservation.service.ts:78-82 | page 0 is empty, and a negative page is a window counted back from the end (page -1 of 10 over 25 items is items 5 to 14), not the first page |
| Seqs.PageWindow | src/services/reservation.service.ts:78-82 | page p of size l is the window from `(p-1)*l` to `(p-1)*l+l`, clipped, and holds at most l elements |
| Seqs.PagesCover | src/app/api/blog/route.ts:58-67 | enough pages of the same size list the whole sequence exactly once |
| Seqs.CeilDiv | src/app/api/reservation/route.ts:25 | for a positive limit the page count is the least whole number of pages covering the total; a zero limit gives NaN for no items and Infinity otherwise |
| DocStore.Values | src/app/api/blog/route.ts:26 | the listing holds one entry per listed id, each the stored document |
| DocStore.ValuesMembers | src/app/api/blog/route.ts:26 | a document is listed iff it is stored |
| DocStore.Add | src/app/api/blog/route.ts:159-161 | adding stores the document under its fresh id and inserts it into the listing at its position, keeping the others in order |
| DocStore.Put | src/services/reservation.service.ts:105-113 | a write replaces one document and leaves the listing order alone |
| DocStore.Remove | src/services/reservation.service.ts:115-119 | removal drops the id and leaves every other document as it was |

## Left out

- Strings.Lower: folds only ASCII letters, while `toLowerCase` folds all of Unicode. So
  Slugs.Slugify, CategoryRoute.GetCategories (its name search), the reservation keyword
  filter in Reservations.List, and the keyword and tag filters in BlogRoutes.GetPosts differ
  from the code on non-ASCII letters. Strings are sequences of characters, with no
  normalisation.
- ReservationRoutes.GetList: `page` and `limit` are whole numbers or absent. The code's
  `Number(...)` also yields NaN (`page=abc`) and fractions (`page=1.5`), and those cases are
  not expressible.
- BlogRoutes.GetPosts: the same holds for its `page` and `limit`.
- ReservationRoutes.PostCheck: dates are integers. A malformed date, which `new Date`
  turns into NaN and which makes every comparison false, is not modelled.
- ReservationRoutes.PostCreate: the same holds for its dates.
- ReservationRoutes.Nights: the same holds, so the NaN night count is not modelled.
- Reservations.CheckAvailability: the same holds for its dates.
- ReservationPage.ParseQuery: splits the query on `&` and `=` without percent-decoding, so
  an encoded id would be read verbatim. The links the server builds use plain ids
  (ReservationPage.PlainIdAvoids).
- DocStore.Add: Firestore lists a collection by document id, and auto-generated ids are
  random. The insert position `at` is therefore a parameter that may be any position,
  rather than one computed from the id.
- BlogRoutes.CreatePost: an id write that fails after `addDoc` leaves a document that has no
  `id` field. It reads the same, because reads take the id from the document reference.
  The same holds for CategoryRoute.CreateCategory and Apartments.CreateApartment.
- Apartments.CreateApartment: the payload is taken to carry no `id` of its own that could
  shadow the document id.
- BlogSlice.SortPosts: dates are compared as integers (epoch milliseconds). The slice
  compares the raw date strings with `<` and `>`, so the two orders agree only while every
  date is an ISO string of one shape. For example, the string "2025-10-06T09:00:00Z" sorts
  after "2025-10-06T09:00:00.500Z", although it is the earlier instant. The same holds for
  BlogSlice.OnPostsFetched and Posts.SortKey. An unpublished post is taken to carry the
  empty `publishedAt` the blog route writes (src/app/api/blog/route.ts:133). A post with no
  `publishedAt` field at all would compare equal to every post, and that is not modelled.
- Reservations.Update: a patch sets or keeps each field of a reservation. The route passes
  the request body to `updateDoc` unchanged, so a body field set to JSON `null`, or a key
  that is not a reservation field, would also be written. Neither is expressible here. The
  same holds for ReservationRoutes.PutReservation.
- Strings.Take: counts characters, while `substring` counts UTF-16 code units. Text outside
  the Basic Multilingual Plane is therefore cut differently by BlogRoutes.DefaultExcerpt and
  BlogRoutes.DefaultMeta.
- The check-then-create race between the duplicate-slug lookup and the write is left out,
  because requests are modelled one at a time.
- The HTML and text of the notification e-mail, date formatting, and the mail transport
  are left out. Only the recipient, the links and whether delivery succeeded are kept.
- The bodies of the async thunks (`fetch` calls) are left out. The slice reducers are
  modelled on the actions those thunks dispatch.
- Authentication, the login dialog's UI and the React effects' timing are left out.
  ReservationPage.Decide takes the session state as a parameter.
- Mock apartments and demo content are parameters, not the repository's fixture data.
- The `typeof url !== 'string'` guard in `fixFirebaseStorageUrl` is left out, because
  the model's input is always a string.
- The apartment service's update and delete and the content service's other writes are
  left out. They are plain document writes outside the modelled rules.
- Firestore's own error messages are left out. A failing store carries an arbitrary reason
  string, and Http.ErrorText shows how the routes fall back when it is empty.

=== FILE: apartment.dfy ===
/** Apartments: the service that reads the store and falls back to the bundled mock
    list, and the create endpoint that validates, normalises the slug, refuses a slug
    that either the store or the mock list already has, and stores the defaults. The
    mock list is a parameter. */
module Apartments {
  import opened Wrappers
  import opened Http
  import opened Media
  import DocStore
  import Slugs

  datatype Geo = Geo(lat: real, lng: real)

  datatype Address = Address(street: Option<string>, area: Option<string>, city: string,
                             state: Option<string>, country: Option<string>, postalCode: Option<string>)

  datatype Location = Location(address: Address, coordinates: Option<Geo>, mapUrl: Option<string>)

  datatype ContactInfo = ContactInfo(phone: Option<string>, email: Option<string>, website: Option<string>)

  datatype Policy = Policy(checkIn: Option<string>, checkOut: Option<string>, minStayNights: Option<int>,
                           maxStayNights: Option<int>, smoking: Option<bool>, pets: Option<bool>,
                           children: Option<bool>, cancellation: Option<string>, houseRules: Option<seq<string>>)

  datatype Rate = Rate(currency: Option<string>, basePricePerNight: Option<int>, cleaningFee: Option<int>,
                       securityDeposit: Option<int>, taxesIncluded: Option<bool>)

  datatype Room = Room(id: string, name: string, description: Option<string>, capacity: Option<int>,
                       bedType: Option<string>, pricePerNight: Option<int>, amenities: Option<seq<string>>,
                       media: seq<Media>)

  datatype Apartment = Apartment(
    id: string,
    name: string,
    slug: string,
    location: Location,
    summary: string,
    description: string,
    rooms: seq<Room>,
    amenities: Option<seq<string>>,
    featuredMedia: Media,
    gallery: Option<seq<Media>>,
    rating: Option<real>,
    reviewsCount: Option<int>,
    contact: Option<ContactInfo>,
    policies: Option<Policy>,
    rate: Option<Rate>,
    tags: Option<seq<string>>,
    createdAt: Option<int>,
    updatedAt: Option<int>)

  type ApartmentStore = DocStore.Collection<Apartment>

  predicate WellFormed(s: ApartmentStore) {
    DocStore.Valid(s) && forall k | k in s.docs :: s.docs[k].id == k
  }

  // ---------------------------------------------------------------------------
  // ApartmentService

  function SlugIs(slug: string): Apartment -> bool { (a: Apartment) => a.slug == slug }

  function IdIs(id: string): Apartment -> bool { (a: Apartment) => a.id == id }

  /** `Array.prototype.find`: the first element satisfying `p`. */
  function FindFirst(xs: seq<Apartment>, p: Apartment -> bool): (r: Option<Apartment>)
    ensures r.None? <==> forall i :: 0 <= i < |xs| ==> !p(xs[i])
    ensures r.Some? ==> exists i :: 0 <= i < |xs| && xs[i] == r.value && p(r.value)
                                    && forall j :: 0 <= j < i ==> !p(xs[j])
  {
    if |xs| == 0 then None
    else if p(xs[0]) then Some(xs[0])
    else
      var r := FindFirst(xs[1..], p);
      assert forall i :: 1 <= i < |xs| ==> xs[i] == xs[1..][i - 1];
      r
  }

  /** `getApartments`: the stored apartments when there is at least one, otherwise (and
      when the store fails) the mock list. */
  function GetApartments(db: Db<ApartmentStore>, mock: seq<Apartment>): (r: seq<Apartment>)
    requires db.Up? ==> DocStore.Valid(db.value)
    ensures db.Up? && |db.value.docs| > 0 ==> r == DocStore.Values(db.value)
    ensures db.Down? || |db.value.docs| == 0 ==> r == mock
  {
    match db
    case Down(_) => mock
    case Up(s) =>
      var results := DocStore.Values(s);
      if |results| == 0 then
        EmptyOrder(s);
        mock
      else
        NonEmptyOrder(s);
        results
  }

  lemma EmptyOrder(s: ApartmentStore)
    requires DocStore.Valid(s) && |s.order| == 0
    ensures |s.docs| == 0
  {
    assert s.docs.Keys == {};
  }

  lemma NonEmptyOrder(s: ApartmentStore)
    requires DocStore.Valid(s) && |s.order| > 0
    ensures |s.docs| > 0
  {
    assert s.order[0] in s.docs;
  }

  /** `getApartmentBySlug`: the first stored apartment with the slug, else the first mock
      apartment with it, else none; a failing store is answered from the mock list. */
  function GetApartmentBySlug(db: Db<ApartmentStore>, mock: seq<Apartment>, slug: string): (r: Option<Apartment>)
    requires db.Up? ==> DocStore.Valid(db.value)
    ensures r.Some? ==> r.value.slug == slug
    ensures r.Some? ==> r.value in mock || (db.Up? && r.value in DocStore.Values(db.value))
    ensures db.Up? && r.Some? && r.value !in DocStore.Values(db.value) ==>
      forall i :: 0 <= i < |DocStore.Values(db.value)| ==> DocStore.Values(db.value)[i].slug != slug
    ensures r.None? <==>
      (forall i :: 0 <= i < |mock| ==> mock[i].slug != slug)
      && (db.Up? ==> forall k | k in db.value.docs :: db.value.docs[k].slug != slug)
    ensures db.Up? && (exists k | k in db.value.docs :: db.value.docs[k].slug == slug) ==>
      r == FindFirst(DocStore.Values(db.value), SlugIs(slug))
    ensures db.Down? || (forall k | k in db.value.docs :: db.value.docs[k].slug != slug) ==>
      r == FindFirst(mock, SlugIs(slug))
  {
    var fromMock := FindFirst(mock, SlugIs(slug));
    match db
    case Down(_) => fromMock
    case Up(s) =>
      var hit := FindFirst(DocStore.Values(s), SlugIs(slug));
      StoreSlugs(s, slug);
      if hit.Some? then hit else fromMock
  }

  /** No listed apartment has the slug exactly when no stored one has it. */
  lemma StoreSlugs(s: ApartmentStore, slug: string)
    requires DocStore.Valid(s)
    ensures (forall i :: 0 <= i < |DocStore.Values(s)| ==> DocStore.Values(s)[i].slug != slug)
        <==> (forall k | k in s.docs :: s.docs[k].slug != slug)
  {
    var vs := DocStore.Values(s);
    if exists k | k in s.docs :: s.docs[k].slug == slug {
      var k :| k in s.docs && s.docs[k].slug == slug;
      DocStore.ValuesMembers(s, s.docs[k]);
      var i :| 0 <= i < |vs| && vs[i] == s.docs[k];
    }
  }

  /** `getApartmentById`: the stored document, else the first mock apartment with that
      id, else none; a failing store is answered from the mock list. */
  function GetApartmentById(db: Db<ApartmentStore>, mock: seq<Apartment>, id: string): (r: Option<Apartment>)
    requires db.Up? ==> WellFormed(db.value)
    ensures r.Some? ==> r.value.id == id
    ensures db.Up? && id in db.value.docs ==> r == Some(db.value.docs[id])
    ensures db.Down? || id !in db.value.docs ==> r == FindFirst(mock, IdIs(id))
  {
    match db
    case Up(s) => if id in s.docs then Some(s.docs[id]) else FindFirst(mock, IdIs(id))
    case Down(_) => FindFirst(mock, IdIs(id))
  }

  /** The result of `createApartment`: the saved apartment and the store, or the error
      it throws together with the store as the failure left it. */
  datatype Saved = Saved(apartment: Apartment, store: ApartmentStore) | Threw(message: string, left: Db<ApartmentStore>) {
    /** The store after the call, whichever way it ended. */
    function After(): Db<ApartmentStore> {
      if Saved? then Up(store) else left
    }
  }

  /** `createApartment`: add the payload under the id the store assigns (listed at
      position `at`, wherever that random id sorts), write the id into the document,
      and return the payload with the id. `idWritten` is whether that second write
      succeeds; when it fails the call throws, but the document is already stored
      and reads the same, since a read supplies the id from the document's own id. */
  function CreateApartment(db: Db<ApartmentStore>, payload: Apartment, newId: string, at: nat,
                           idWritten: bool): (r: Saved)
    requires db.Up? ==> WellFormed(db.value) && newId !in db.value.docs && at <= |db.value.order|
    ensures r.Threw? <==> db.Down? || !idWritten
    ensures r.Threw? ==> r.message == "Failed to create apartment"
    ensures db.Down? ==> r.After() == db
    ensures r.Saved? ==> r.apartment == payload.(id := newId)
    ensures db.Up? ==>
      var a := payload.(id := newId);
      && r.After().Up? && WellFormed(r.After().value)
      && r.After().value.docs == db.value.docs[newId := a]
      && DocStore.Values(r.After().value) == DocStore.Values(db.value)[..at] + [a] + DocStore.Values(db.value)[at..]
  {
    match db
    case Down(_) => Threw("Failed to create apartment", db)
    case Up(s) =>
      var a := payload.(id := newId);
      var stored := DocStore.Add(s, newId, a, at);
      AddKeepsWellFormed(s, newId, a, at);
      if idWritten then Saved(a, stored) else Threw("Failed to create apartment", Up(stored))
  }

  /** Adding a document under its own id keeps every document filed under its id. */
  lemma AddKeepsWellFormed(s: ApartmentStore, id: string, x: Apartment, at: nat)
    requires WellFormed(s) && id !in s.docs && at <= |s.order| && x.id == id
    ensures WellFormed(DocStore.Add(s, id, x, at))
  {
  }

  // ---------------------------------------------------------------------------
  // POST /api/apartment

  datatype ApartmentInput = ApartmentInput(
    name: Option<string>,
    slug: Option<string>,
    location: Option<Location>,
    summary: Option<string>,
    description: Option<string>,
    rooms: Option<seq<Room>>,
    amenities: Option<seq<string>>,
    featuredMedia: Option<Media>,
    gallery: Option<seq<Media>>,
    rating: Option<real>,
    reviewsCount: Option<int>,
    contact: Option<ContactInfo>,
    policies: Option<Policy>,
    rate: Option<Rate>,
    tags: Option<seq<string>>)

  /** The slug: a given slug, else the name, normalised either way. */
  function ApartmentSlug(input: ApartmentInput): string
    requires Truthy(input.name)
  {
    Slugs.SlugOf(input.slug, input.name.value)
  }

  const EmptyLocation: Location := Location(Address(None, None, "", None, Some(""), None), None, None)

  /** The document the endpoint hands to `createApartment`; the store assigns the id. */
  function NewApartment(input: ApartmentInput, now: int): (a: Apartment)
    requires Truthy(input.name)
    ensures a.name == input.name.value && a.slug == ApartmentSlug(input)
    ensures a.location == input.location.GetOr(EmptyLocation)
    ensures a.summary == OrElse(input.summary, "") && a.description == OrElse(input.description, "")
    ensures a.rooms == input.rooms.GetOr([])
    ensures a.amenities == Some(input.amenities.GetOr([]))
    ensures a.featuredMedia == input.featuredMedia.GetOr(Placeholder(input.name.value))
    ensures input.featuredMedia.None? ==> a.featuredMedia.alt == input.name.value
    ensures a.gallery == Some(input.gallery.GetOr([]))
    ensures a.rating == Some(input.rating.GetOr(0.0))
    ensures a.reviewsCount == Some(input.reviewsCount.GetOr(0))
    ensures a.contact == Some(input.contact.GetOr(ContactInfo(None, None, None)))
    ensures a.policies == Some(input.policies.GetOr(Policy(None, None, None, None, None, None, None, None, None)))
    ensures a.rate == Some(input.rate.GetOr(Rate(None, None, None, None, None)))
    ensures a.tags == Some(input.tags.GetOr([]))
    ensures a.createdAt == a.updatedAt == Some(now)
  {
    Apartment("", input.name.value, ApartmentSlug(input),
              input.location.GetOr(EmptyLocation),
              OrElse(input.summary, ""),
              OrElse(input.description, ""),
              input.rooms.GetOr([]),
              Some(input.amenities.GetOr([])),
              input.featuredMedia.GetOr(Placeholder(input.name.value)),
              Some(input.gallery.GetOr([])),
              Some(if input.rating.Some? && input.rating.value != 0.0 then input.rating.value else 0.0),
              Some(NumOr(input.reviewsCount, 0)),
              Some(input.contact.GetOr(ContactInfo(None, None, None))),
              Some(input.policies.GetOr(Policy(None, None, None, None, None, None, None, None, None))),
              Some(input.rate.GetOr(Rate(None, None, None, None, None))),
              Some(input.tags.GetOr([])),
              Some(now), Some(now))
  }

  datatype CreateOutcome = CreateOutcome(response: Response<Apartment>, store: Db<ApartmentStore>)

  /** Whether `POST /api/apartment` gets as far as `createApartment`: a parsed body
      with a name whose slug the lookup does not find. */
  predicate Admits(db: Db<ApartmentStore>, mock: seq<Apartment>, body: Json<ApartmentInput>)
    requires db.Up? ==> WellFormed(db.value)
  {
    body.Parsed? && Truthy(body.value.name) && GetApartmentBySlug(db, mock, ApartmentSlug(body.value)).None?
  }

  /** `POST /api/apartment`: 400 without a name; 409 when the slug lookup, which also
      consults the mock list and survives a failing store, finds an apartment; 201 with
      the saved apartment; 500 when the body does not parse or the create throws, the
      apartment then being stored all the same when only the id write failed. */
  function PostApartment(db: Db<ApartmentStore>, mock: seq<Apartment>, body: Json<ApartmentInput>,
                         newId: string, now: int, at: nat, idWritten: bool): (o: CreateOutcome)
    requires db.Up? ==> WellFormed(db.value) && newId !in db.value.docs && at <= |db.value.order|
    ensures o.response.status in {201, 400, 409, 500}
    ensures o.response.status == 201 <==> Admits(db, mock, body) && db.Up? && idWritten
    ensures !(Admits(db, mock, body) && db.Up?) ==> o.store == db
    ensures o.response.status == 400 <==> body.Parsed? && !Truthy(body.value.name)
    ensures o.response.status == 400 ==> o.response == Fail(400, "Name is required")
    ensures o.response.status == 409 <==>
      body.Parsed? && Truthy(body.value.name)
      && GetApartmentBySlug(db, mock, ApartmentSlug(body.value)).Some?
    ensures o.response.status == 409 ==> o.response == Fail(409, "An apartment with this slug already exists")
    ensures o.response.status == 500 ==> o.response == Fail(500, "Failed to create apartment")
    ensures Admits(db, mock, body) && db.Up? ==>
      var a := NewApartment(body.value, now).(id := newId);
      && o.store.Up? && WellFormed(o.store.value)
      && o.store.value.docs == db.value.docs[newId := a]
      && DocStore.Values(o.store.value) == DocStore.Values(db.value)[..at] + [a] + DocStore.Values(db.value)[at..]
      && (idWritten ==> o.response == Json(201, a))
  {
    match body
    case Malformed(_) => CreateOutcome(Fail(500, "Failed to create apartment"), db)
    case Parsed(input) =>
      if !Truthy(input.name) then CreateOutcome(Fail(400, "Name is required"), db)
      else if GetApartmentBySlug(db, mock, ApartmentSlug(input)).Some? then
        CreateOutcome(Fail(409, "An apartment with this slug already exists"), db)
      else Submit(db, input, newId, now, at, idWritten)
  }

  /** The admitted request: `createApartment`, its error answered with 500. */
  function Submit(db: Db<ApartmentStore>, input: ApartmentInput, newId: string, now: int, at: nat,
                  idWritten: bool): (o: CreateOutcome)
    requires Truthy(input.name)
    requires db.Up? ==> WellFormed(db.value) && newId !in db.value.docs && at <= |db.value.order|
    ensures db.Down? ==> o == CreateOutcome(Fail(500, "Failed to create apartment"), db)
    ensures db.Up? ==>
      var a := NewApartment(input, now).(id := newId);
      && o.store.Up? && WellFormed(o.store.value)
      && o.store.value.docs == db.value.docs[newId := a]
      && DocStore.Values(o.store.value) == DocStore.Values(db.value)[..at] + [a] + DocStore.Values(db.value)[at..]
      && o.response == (if idWritten then Json(201, a) else Fail(500, "Failed to create apartment"))
  {
    match CreateApartment(db, NewApartment(input, now), newId, at, idWritten)
    case Threw(_, left) => CreateOutcome(Fail(500, "Failed to create apartment"), left)
    case Saved(a, s) => CreateOutcome(Json(201, a), Up(s))
  }

  /** A slug taken by a mock apartment is refused even though nothing in the store has
      it, and even while the store is failing. */
  lemma MockSlugBlocksCreate(db: Db<ApartmentStore>, mock: seq<Apartment>, input: ApartmentInput,
                             newId: string, now: int, at: nat, idWritten: bool, i: nat)
    requires db.Up? ==> WellFormed(db.value) && newId !in db.value.docs && at <= |db.value.order|
    requires Truthy(input.name) && i < |mock| && mock[i].slug == ApartmentSlug(input)
    ensures PostApartment(db, mock, Parsed(input), newId, now, at, idWritten).response.status == 409
  {
  }

  /** After a create, the new apartment is what the service returns for its slug and for
      its id, and the listing is the store's, mock list no longer shown; this holds even
      when the create answered 500 because only the id write failed. */
  lemma CreateThenRead(s: ApartmentStore, mock: seq<Apartment>, input: ApartmentInput, newId: string, now: int,
                       at: nat, idWritten: bool)
    requires WellFormed(s) && newId !in s.docs && at <= |s.order|
    ensures var o := PostApartment(Up(s), mock, Parsed(input), newId, now, at, idWritten);
            Admits(Up(s), mock, Parsed(input)) ==>
              var a := NewApartment(input, now).(id := newId);
              && GetApartmentBySlug(o.store, mock, a.slug) == Some(a)
              && GetApartmentById(o.store, mock, newId) == Some(a)
              && GetApartments(o.store, mock) == DocStore.Values(s)[..at] + [a] + DocStore.Values(s)[at..]
  {
    var o := PostApartment(Up(s), mock, Parsed(input), newId, now, at, idWritten);
    if Admits(Up(s), mock, Parsed(input)) {
      var a := NewApartment(input, now).(id := newId);
      SlugFoundAfterInsert(s, o.store.value, mock, a, at);
    }
  }

  /** A slug no stored apartment had is found, after the insert, on the new apartment. */
  lemma SlugFoundAfterInsert(s: ApartmentStore, t: ApartmentStore, mock: seq<Apartment>, a: Apartment, at: nat)
    requires DocStore.Valid(s) && DocStore.Valid(t) && at <= |s.order|
    requires forall k | k in s.docs :: s.docs[k].slug != a.slug
    requires DocStore.Values(t) == DocStore.Values(s)[..at] + [a] + DocStore.Values(s)[at..]
    ensures GetApartmentBySlug(Up(t), mock, a.slug) == Some(a)
  {
    var vs := DocStore.Values(s);
    var ws := DocStore.Values(t);
    StoreSlugs(s, a.slug);
    assert forall i :: 0 <= i < at ==> ws[i] == vs[i];
    FirstAfterMisses(ws, SlugIs(a.slug), at);
  }

  /** The first match is at `i` when nothing before `i` matches and `xs[i]` does. */
  lemma {:induction false} FirstAfterMisses(xs: seq<Apartment>, p: Apartment -> bool, i: nat)
    requires i < |xs| && p(xs[i]) && forall j :: 0 <= j < i ==> !p(xs[j])
    ensures FindFirst(xs, p) == Some(xs[i])
  {
    if i > 0 {
      FirstAfterMisses(xs[1..], p, i - 1);
    }
  }

  /** The mock list answers every read while the store is empty and is never shown
      once the store holds an apartment. */
  lemma MockFallback(s: ApartmentStore, mock: seq<Apartment>)
    requires WellFormed(s)
    ensures GetApartments(Up(s), mock) == mock <==> |s.docs| == 0 || DocStore.Values(s) == mock
    ensures GetApartments(Down("unavailable"), mock) == mock
  {
  }
}

=== FILE: blog_routes.dfy ===
/** The blog collection endpoint: `GET` filters the stored posts in memory by category,
    keyword and tags and cuts a page; `POST` validates, derives the slug, refuses a
    duplicate slug and stores the post with its defaults. */
module BlogRoutes {
  import opened Wrappers
  import opened Http
  import opened Posts
  import opened Media
  import Strings
  import Seqs
  import DocStore
  import Slugs

  type PostStore = DocStore.Collection<Post>

  /** A valid listing in which every post carries its own key as `id`. */
  predicate WellFormed(s: PostStore) {
    DocStore.Valid(s) && forall k | k in s.docs :: s.docs[k].id == k
  }

  // ---------------------------------------------------------------------------
  // GET /api/blog

  /** The query string: `page`, `limit`, `categoryId` and `q` are `None` when absent
      (or, for the numbers, empty); `tags` holds every `tags` parameter in order. */
  datatype BlogQuery = BlogQuery(
    page: Option<int>, limit: Option<int>, categoryId: Option<string>, q: Option<string>, tags: seq<string>)

  datatype BlogPage = BlogPage(
    posts: seq<Post>, page: int, limit: int, total: nat, totalPages: Seqs.JsNumber,
    categoryId: Option<string>, keyword: Option<string>, tags: seq<string>)

  predicate CategoryOk(p: Post, q: BlogQuery) {
    !Truthy(q.categoryId) || p.category.id == q.categoryId.value
  }

  /** The lower-cased keyword occurs in the lower-cased title, excerpt or content. */
  predicate KeywordOk(p: Post, q: BlogQuery) {
    !Truthy(q.q) || (
      var k := Strings.Lower(q.q.value);
      Strings.Contains(Strings.Lower(p.title), k)
      || Strings.Contains(Strings.Lower(p.excerpt), k)
      || Strings.Contains(Strings.Lower(p.content), k))
  }

  /** Some requested tag names one of the post's tags, ignoring case. */
  predicate TagOk(p: Post, q: BlogQuery) {
    |q.tags| == 0 || exists i, j | 0 <= i < |q.tags| && 0 <= j < |p.tags| ::
      Strings.Lower(p.tags[j].name) == Strings.Lower(q.tags[i])
  }

  predicate PostMatches(p: Post, q: BlogQuery) {
    CategoryOk(p, q) && KeywordOk(p, q) && TagOk(p, q)
  }

  function CategoryFilter(q: BlogQuery): Post -> bool { p => CategoryOk(p, q) }
  function KeywordFilter(q: BlogQuery): Post -> bool { p => KeywordOk(p, q) }
  function TagFilter(q: BlogQuery): Post -> bool { p => TagOk(p, q) }
  function MatchFilter(q: BlogQuery): Post -> bool { p => PostMatches(p, q) }

  /** The three filter stages, each applied only when its parameter is given. */
  function Staged(posts: seq<Post>, q: BlogQuery): seq<Post> {
    var byCategory := Seqs.When(Truthy(q.categoryId), posts, CategoryFilter(q));
    var byKeyword := Seqs.When(Truthy(q.q), byCategory, KeywordFilter(q));
    Seqs.When(|q.tags| > 0, byKeyword, TagFilter(q))
  }

  /** The posts a query selects, in store order. */
  function Selected(s: PostStore, q: BlogQuery): seq<Post>
    requires DocStore.Valid(s)
  {
    Seqs.Filter(DocStore.Values(s), MatchFilter(q))
  }

  /** `GET /api/blog`: filter, count, then cut the page; `totalPages` is
      `Math.ceil(total / limit)` with no lower bound of 1. */
  function GetPosts(db: Db<PostStore>, q: BlogQuery): (r: Response<BlogPage>)
    requires db.Up? ==> WellFormed(db.value)
    ensures r.Json? <==> db.Up?
    ensures r.Fail? ==> r == Fail(500, "Failed to fetch posts")
    ensures r.Json? ==>
      && r.value.page == q.page.GetOr(1) && r.value.limit == q.limit.GetOr(9)
      && r.value.total == |Selected(db.value, q)|
      && r.value.posts == Seqs.PageOf(Selected(db.value, q), r.value.page, r.value.limit)
      && r.value.totalPages == Seqs.CeilDiv(r.value.total, r.value.limit)
    ensures r.Json? ==> r.value.categoryId == q.categoryId && r.value.keyword == q.q && r.value.tags == q.tags
  {
    match db
    case Down(_) => Fail(500, "Failed to fetch posts")
    case Up(s) =>
      var page := q.page.GetOr(1);
      var limit := q.limit.GetOr(9);
      var filtered := Staged(DocStore.Values(s), q);
      StagedIsSelected(DocStore.Values(s), q);
      Json(200, BlogPage(Seqs.PageOf(filtered, page, limit), page, limit, |filtered|,
                         Seqs.CeilDiv(|filtered|, limit), q.categoryId, q.q, q.tags))
  }

  /** The successive optional filters select exactly what their conjunction selects. */
  lemma StagedIsSelected(posts: seq<Post>, q: BlogQuery)
    ensures Staged(posts, q) == Seqs.Filter(posts, MatchFilter(q))
  {
    var fa, fb, fc := CategoryFilter(q), KeywordFilter(q), TagFilter(q);
    var a := Seqs.Filter(posts, fa);
    var b := Seqs.Filter(a, fb);
    Seqs.WhenIsFilter(Truthy(q.categoryId), posts, fa);
    Seqs.WhenIsFilter(Truthy(q.q), a, fb);
    Seqs.WhenIsFilter(|q.tags| > 0, b, fc);
    Seqs.FilterFilter(posts, fa, fb);
    Seqs.FilterFilter(posts, Seqs.Both(fa, fb), fc);
    Seqs.FilterExt(posts, Seqs.Both(Seqs.Both(fa, fb), fc), MatchFilter(q));
  }

  /** A post is listed exactly when it is stored and passes every given filter; the
      listing keeps store order. */
  lemma SelectedMembers(s: PostStore, q: BlogQuery, p: Post)
    requires DocStore.Valid(s)
    ensures p in Selected(s, q) <==> (exists k :: k in s.docs && s.docs[k] == p) && PostMatches(p, q)
    ensures Seqs.IsSubseq(Selected(s, q), DocStore.Values(s))
  {
    Seqs.FilterMember(DocStore.Values(s), MatchFilter(q), p);
    DocStore.ValuesMembers(s, p);
    Seqs.FilterIsSubseq(DocStore.Values(s), MatchFilter(q));
  }

  /** With a positive limit, a page holds at most `limit` posts, reading pages
      `1..totalPages` returns every selected post once, and an empty selection has
      `totalPages == 0`. */
  lemma BlogPagination(s: PostStore, q: BlogQuery)
    requires WellFormed(s) && q.limit.GetOr(9) > 0 && q.page.GetOr(1) >= 1
    ensures var r := GetPosts(Up(s), q);
            && |r.value.posts| <= r.value.limit
            && r.value.totalPages.Finite?
            && Seqs.Pages(Selected(s, q), r.value.totalPages.n, r.value.limit) == Selected(s, q)
            && (r.value.total == 0 <==> r.value.totalPages == Seqs.Finite(0))
  {
    var r := GetPosts(Up(s), q);
    Seqs.PageWindow(Selected(s, q), r.value.page, r.value.limit);
    Seqs.PageCountCovers(Selected(s, q), r.value.limit);
  }

  // ---------------------------------------------------------------------------
  // POST /api/blog

  /** The create request: every field optional. */
  datatype PostInput = PostInput(
    title: Option<string>,
    slug: Option<string>,
    subtitle: Option<string>,
    content: Option<string>,
    excerpt: Option<string>,
    author: Option<Author>,
    category: Option<Category>,
    tags: Option<seq<Tag>>,
    featuredMedia: Option<Media>,
    gallery: Option<seq<Media>>,
    status: Option<PostStatus>,
    visibility: Option<Visibility>,
    password: Option<string>,
    publishedAt: Option<nat>,
    scheduledAt: Option<int>,
    meta: Option<Meta>,
    isFeatured: Option<bool>,
    isPromoted: Option<bool>,
    isPremium: Option<bool>,
    allowComments: Option<bool>,
    relatedPosts: Option<seq<string>>,
    version: Option<int>,
    lastModifiedBy: Option<string>)

  /** The slug of a new post: a given slug verbatim, else the normalised title. */
  function PostSlug(input: PostInput): string
    requires Truthy(input.title)
  {
    if Truthy(input.slug) then input.slug.value else Slugs.Slugify(input.title.value)
  }

  /** Some stored post already has the slug (`where('slug', '==', slug)` is non-empty). */
  predicate SlugTaken(s: PostStore, slug: string) {
    exists k | k in s.docs :: s.docs[k].slug == slug
  }

  /** Every stored post has its own slug. */
  predicate UniqueSlugs(s: PostStore) {
    forall a, b | a in s.docs && b in s.docs && a != b :: s.docs[a].slug != s.docs[b].slug
  }

  /** `Math.ceil(content.split(' ').length / 200)`: minutes at 200 words a minute, where
      a word is a piece between single spaces. */
  function ReadingTime(content: string): (minutes: int)
    ensures minutes >= 1
    ensures (minutes - 1) * 200 < Strings.Count(content, ' ') + 1 <= minutes * 200
  {
    var words := |Strings.Split(content, ' ')|;
    Strings.SplitLength(content, ' ');
    Seqs.CeilDiv(words, 200).n
  }

  /** `content.substring(0, 200) + '...'`. */
  function DefaultExcerpt(content: string): (e: string)
    ensures |e| <= 203
    ensures e == Strings.Take(content, 200) + "..."
  {
    Strings.Take(content, 200) + "..."
  }

  const DefaultAuthor: Author := Author("system", "Admin", Some("/images/placeholder.svg"))

  const DefaultCategory: Category := Category("general", "General", "general", Some("General"))

  /** The search metadata when none is given: the title, and the excerpt or the first
      160 characters of the content. */
  function DefaultMeta(title: string, excerpt: Option<string>, content: string): (m: Meta)
    ensures m.title == title && m.keywords == []
    ensures Truthy(excerpt) ==> m.description == excerpt.value
    ensures !Truthy(excerpt) ==> m.description <= content && |m.description| <= 160
  {
    Meta(title, OrElse(excerpt, Strings.Take(content, 160)), [])
  }

  /** The stored post: the given fields, or the endpoint's defaults. A post created
      `published` is published now; otherwise a given `publishedAt` is kept. */
  function NewPost(input: PostInput, id: string, slug: string, now: nat): (p: Post)
    requires Truthy(input.title) && Truthy(input.content)
    ensures p.id == id && p.slug == slug && p.title == input.title.value && p.content == input.content.value
    ensures p.createdAt == now && p.updatedAt == now
    ensures p.stats == Stats(0, 0, 0, ReadingTime(p.content), 0) && p.comments == Some([])
    ensures p.status == input.status.GetOr(Draft) && p.visibility == input.visibility.GetOr(Public)
    ensures input.status == Some(Published) ==> p.publishedAt == Some(now)
    ensures input.status != Some(Published) ==> p.publishedAt == input.publishedAt
    ensures p.allowComments <==> input.allowComments != Some(false)
    ensures Truthy(input.excerpt) ==> p.excerpt == input.excerpt.value
    ensures !Truthy(input.excerpt) ==> p.excerpt == Strings.Take(p.content, 200) + "..."
    ensures p.version == (if input.version.Some? && input.version.value != 0 then input.version.value else 1)
  {
    var title := input.title.value;
    var content := input.content.value;
    Post(id, title, slug, OrElse(input.subtitle, ""), content,
         if Truthy(input.excerpt) then input.excerpt.value else DefaultExcerpt(content),
         input.author.GetOr(DefaultAuthor),
         input.category.GetOr(DefaultCategory),
         input.tags.GetOr([]),
         input.featuredMedia.GetOr(Placeholder("Post image")),
         input.gallery.GetOr([]),
         input.meta.GetOr(DefaultMeta(title, input.excerpt, content)),
         Stats(0, 0, 0, ReadingTime(content), 0),
         Some([]),
         input.status.GetOr(Draft),
         input.visibility.GetOr(Public),
         OrElse(input.password, ""),
         now, now,
         if input.status == Some(Published) then Some(now) else input.publishedAt,
         input.scheduledAt.GetOr(now),
         input.isPromoted.GetOr(false),
         input.isFeatured.GetOr(false),
         input.isPremium.GetOr(false),
         input.allowComments != Some(false),
         input.relatedPosts.GetOr([]),
         NumOr(input.version, 1),
         OrElse(input.lastModifiedBy, "system"))
  }

  /** The response and the store after `POST /api/blog`. */
  datatype CreateOutcome = CreateOutcome(response: Response<Post>, store: Db<PostStore>)

  /** Whether `POST /api/blog` gets as far as `addDoc`: a parsed body with a title and
      content, a reachable store, and a slug no stored post has. */
  predicate Admits(db: Db<PostStore>, body: Json<PostInput>) {
    && body.Parsed? && Truthy(body.value.title) && Truthy(body.value.content) && db.Up?
    && !SlugTaken(db.value, PostSlug(body.value))
  }

  /** `POST /api/blog`: a body that does not parse or a store that fails gives 500
      "Failed to create post"; a missing title or content gives 400; a slug some stored
      post already has gives 409; otherwise the post is added under the id the store
      assigns, listed at position `at`, and the id is then written into the document.
      `idWritten` is whether that second write succeeds: when it fails the answer is
      500 although the post is already stored (a read supplies the id from the
      document's own id, so the post reads the same either way). */
  function CreatePost(db: Db<PostStore>, body: Json<PostInput>, newId: string, now: nat, at: nat,
                      idWritten: bool): (o: CreateOutcome)
    requires db.Up? ==> WellFormed(db.value) && newId !in db.value.docs && at <= |db.value.order|
    ensures o.response.status == 201 <==> Admits(db, body) && idWritten
    ensures !Admits(db, body) ==> o.store == db
    ensures o.response.status == 400 <==>
      body.Parsed? && !(Truthy(body.value.title) && Truthy(body.value.content))
    ensures o.response.status == 400 ==> o.response == Fail(400, "Title and content are required")
    ensures o.response.status == 409 <==>
      && body.Parsed? && Truthy(body.value.title) && Truthy(body.value.content)
      && db.Up? && SlugTaken(db.value, PostSlug(body.value))
    ensures o.response.status == 409 ==> o.response == Fail(409, "A post with this slug already exists")
    ensures o.response.status == 500 <==>
      || body.Malformed?
      || (body.Parsed? && Truthy(body.value.title) && Truthy(body.value.content) && db.Down?)
      || (Admits(db, body) && !idWritten)
    ensures o.response.status == 500 ==> o.response == Fail(500, "Failed to create post")
    ensures o.response.status in {201, 400, 409, 500}
    ensures Admits(db, body) ==>
      var post := NewPost(body.value, newId, PostSlug(body.value), now);
      && o.store.Up? && WellFormed(o.store.value)
      && o.store.value.docs == db.value.docs[newId := post]
      && DocStore.Values(o.store.value) == DocStore.Values(db.value)[..at] + [post] + DocStore.Values(db.value)[at..]
      && (idWritten ==> o.response == Json(201, post))
  {
    match body
    case Malformed(_) => CreateOutcome(Fail(500, "Failed to create post"), db)
    case Parsed(input) =>
      if !Truthy(input.title) || !Truthy(input.content) then
        CreateOutcome(Fail(400, "Title and content are required"), db)
      else
        match db
        case Down(_) => CreateOutcome(Fail(500, "Failed to create post"), db)
        case Up(s) =>
          var slug := PostSlug(input);
          if SlugTaken(s, slug) then CreateOutcome(Fail(409, "A post with this slug already exists"), db)
          else Accept(s, input, newId, slug, now, at, idWritten)
  }

  /** The admitted branch of `POST /api/blog`: `addDoc`, then the id write. */
  function Accept(s: PostStore, input: PostInput, newId: string, slug: string, now: nat, at: nat,
                  idWritten: bool): (o: CreateOutcome)
    requires Truthy(input.title) && Truthy(input.content)
    requires WellFormed(s) && newId !in s.docs && at <= |s.order| && !SlugTaken(s, slug)
    ensures var post := NewPost(input, newId, slug, now);
      && o.store.Up? && WellFormed(o.store.value)
      && o.store.value.docs == s.docs[newId := post]
      && DocStore.Values(o.store.value) == DocStore.Values(s)[..at] + [post] + DocStore.Values(s)[at..]
      && o.response == (if idWritten then Json(201, post) else Fail(500, "Failed to create post"))
  {
    var post := NewPost(input, newId, slug, now);
    var stored := DocStore.Add(s, newId, post, at);
    AddKeepsWellFormed(s, newId, post, at);
    CreateOutcome(if idWritten then Json(201, post) else Fail(500, "Failed to create post"), Up(stored))
  }

  /** Adding a document under its own id keeps every document filed under its id. */
  lemma AddKeepsWellFormed(s: PostStore, id: string, x: Post, at: nat)
    requires WellFormed(s) && id !in s.docs && at <= |s.order| && x.id == id
    ensures WellFormed(DocStore.Add(s, id, x, at))
  {
  }

  /** Creating posts keeps every slug unique, and the new post is the one stored under
      its slug. */
  lemma CreateKeepsSlugsUnique(s: PostStore, input: PostInput, newId: string, now: nat, at: nat,
                                idWritten: bool)
    requires WellFormed(s) && newId !in s.docs && at <= |s.order| && UniqueSlugs(s)
    ensures var o := CreatePost(Up(s), Parsed(input), newId, now, at, idWritten);
            && o.store.Up? && UniqueSlugs(o.store.value)
            && (Admits(Up(s), Parsed(input)) ==>
                  forall k | k in o.store.value.docs && o.store.value.docs[k].slug == PostSlug(input) :: k == newId)
  {
  }

  /** Posting the same title twice: the second post, with no explicit slug, is refused
      with 409 and the store is left as the first post left it, even when the first
      answer was a 500 because only the id write failed. */
  lemma SameTitleTwice(s: PostStore, input: PostInput, id1: string, id2: string, now: nat, later: nat,
                       at1: nat, at2: nat, written: bool, written2: bool)
    requires WellFormed(s) && id1 !in s.docs && id1 != id2 && id2 !in s.docs
    requires at1 <= |s.order| && at2 <= |s.order| + 1
    requires !Truthy(input.slug)
    ensures var first := CreatePost(Up(s), Parsed(input), id1, now, at1, written);
            Admits(Up(s), Parsed(input)) ==>
              && CreatePost(first.store, Parsed(input), id2, later, at2, written2).response.status == 409
              && CreatePost(first.store, Parsed(input), id2, later, at2, written2).store == first.store
  {
    var first := CreatePost(Up(s), Parsed(input), id1, now, at1, written);
    if Admits(Up(s), Parsed(input)) {
      assert first.store.value.docs[id1].slug == PostSlug(input);
    }
  }

  /** A slug derived from the title is always a well-formed slug; a given slug is kept
      exactly as sent. */
  lemma DerivedSlug(input: PostInput)
    requires Truthy(input.title)
    ensures !Truthy(input.slug) ==> Slugs.IsSlug(PostSlug(input))
    ensures Truthy(input.slug) ==> PostSlug(input) == input.slug.value
  {
  }
}

=== FILE: blog_slice.dfy ===
/** The client-side blog state and its reducer: the synchronous reducers of the blog
    slice and the fulfilled, pending and rejected cases of its asynchronous thunks. The
    state is a value; each action maps one state to the next. */
module BlogSlice {
  import opened Wrappers
  import opened Posts
  import Seqs

  datatype Pagination = Pagination(page: int, limit: int, total: int, totalPages: int)

  /** `PostFilters`. */
  datatype Filters = Filters(categoryId: Option<string>, searchQuery: Option<string>, tags: Option<seq<string>>)

  const NoFilters: Filters := Filters(None, None, None)

  datatype BlogState = BlogState(
    posts: seq<Post>,
    currentPost: Option<Post>,
    relatedPosts: seq<Post>,
    pagination: Pagination,
    isLoading: bool,
    error: Option<string>,
    filters: Filters,
    sortBy: SortBy,
    sortOrder: Seqs.Direction)

  /** `initialState`: nothing loaded, nine posts a page, newest published first. */
  const Initial: BlogState :=
    BlogState([], None, [], Pagination(1, 9, 0, 0), false, None, NoFilters, ByPublishedAt, Seqs.Desc)

  /** The asynchronous thunks of the slice. */
  datatype Thunk =
    | FetchPosts | FetchPostBySlug | FetchRelatedPosts | CreatePost | UpdatePost | DeletePost
    | IncrementPostViews | TogglePostLike | FetchComments | AddComment

  /** The thunks whose pending and rejected actions the slice handles; the views and
      likes thunks register only a fulfilled case. */
  predicate Handled(t: Thunk) {
    t != IncrementPostViews && t != TogglePostLike
  }

  datatype Action =
    | SetCurrentPost(post: Option<Post>)
    | SetFilters(filters: Filters)
    | ClearFilters
    | SetSortBy(sortBy: SortBy)
    | SetSortOrder(order: Seqs.Direction)
    | SetCurrentPage(page: int)
    | SetLimit(limit: int)
    | ClearError
    | ResetBlogState
    | Pending(thunk: Thunk)
    /** A rejected thunk; `message` is the rejection value, absent when the caught error
        had no message. */
    | Rejected(thunk: Thunk, message: Option<string>)
    | PostsFetched(fetched: seq<Post>, fetchedPagination: Pagination)
    | PostBySlugFetched(found: Post)
    | RelatedFetched(related: seq<Post>)
    | PostCreated(created: Post)
    | PostUpdated(updated: Post)
    | PostDeleted(id: string)
    | ViewsIncremented(postId: string, views: int)
    | LikeToggled(postId: string, likes: int)
    | CommentsFetched(commentsPostId: string, comments: seq<Comment>)
    | CommentAdded(commentPostId: string, comment: Comment)

  // ---------------------------------------------------------------------------
  // Sorting the fetched page

  /** The page as the reducer orders it: a stable sort on the chosen key, ascending or
      descending. */
  function SortPosts(posts: seq<Post>, sortBy: SortBy, order: Seqs.Direction): (r: seq<Post>)
    ensures multiset(r) == multiset(posts)
    ensures order == Seqs.Asc ==> Seqs.Sorted(r, SortKey(sortBy))
    ensures order == Seqs.Desc ==> Seqs.SortedDesc(r, SortKey(sortBy))
  {
    Seqs.SortDirOrdered(posts, SortKey(sortBy), order);
    Seqs.SortDir(posts, SortKey(sortBy), order)
  }

  /** `fetchPosts.fulfilled`: the page sorted by the current key and direction, the
      pagination taken from the response. */
  function OnPostsFetched(s: BlogState, fetched: seq<Post>, pagination: Pagination): (r: BlogState)
    ensures multiset(r.posts) == multiset(fetched)
    ensures s.sortOrder == Seqs.Asc ==> Seqs.Sorted(r.posts, SortKey(s.sortBy))
    ensures s.sortOrder == Seqs.Desc ==> Seqs.SortedDesc(r.posts, SortKey(s.sortBy))
    ensures r.pagination == pagination && !r.isLoading
    ensures r == s.(posts := r.posts, pagination := pagination, isLoading := false)
  {
    s.(isLoading := false, posts := SortPosts(fetched, s.sortBy, s.sortOrder), pagination := pagination)
  }

  /** Posts with equal keys keep the order the server sent them in. */
  lemma FetchedTiesKeepOrder(s: BlogState, fetched: seq<Post>, pagination: Pagination, k: int)
    ensures Seqs.Filter(OnPostsFetched(s, fetched, pagination).posts, Seqs.KeyIs(SortKey(s.sortBy), k))
         == Seqs.Filter(fetched, Seqs.KeyIs(SortKey(s.sortBy), k))
  {
    Seqs.SortDirStable(fetched, SortKey(s.sortBy), s.sortOrder, k);
  }

  // ---------------------------------------------------------------------------
  // Create, update, delete

  /** `createPost.fulfilled`: the new post goes first and the total grows by one. */
  function OnPostCreated(s: BlogState, p: Post): (r: BlogState)
    ensures |r.posts| == |s.posts| + 1 && r.posts[0] == p && r.posts[1..] == s.posts
    ensures r.pagination == s.pagination.(total := s.pagination.total + 1)
    ensures r.currentPost == s.currentPost && !r.isLoading
  {
    s.(isLoading := false, posts := [p] + s.posts,
       pagination := s.pagination.(total := s.pagination.total + 1))
  }

  /** `findIndex(post => post.id === id)`: the first index with that id, or -1. */
  function FindIndex(posts: seq<Post>, id: string): (i: int)
    ensures -1 <= i < |posts|
    ensures i == -1 <==> forall j :: 0 <= j < |posts| ==> posts[j].id != id
    ensures i >= 0 ==> posts[i].id == id && forall j :: 0 <= j < i ==> posts[j].id != id
  {
    if |posts| == 0 then -1
    else if posts[0].id == id then 0
    else
      var i := FindIndex(posts[1..], id);
      assert forall j :: 1 <= j < |posts| ==> posts[j] == posts[1..][j - 1];
      if i == -1 then -1 else i + 1
  }

  /** The current post's id is `id` (`state.currentPost?.id === id`). */
  predicate IsCurrent(s: BlogState, id: string) {
    s.currentPost.Some? && s.currentPost.value.id == id
  }

  /** `updatePost.fulfilled`: the first post with the payload's id is replaced, later
      posts with the same id are not; the current post is replaced when its id matches. */
  function OnPostUpdated(s: BlogState, p: Post): (r: BlogState)
    ensures |r.posts| == |s.posts|
    ensures var i := FindIndex(s.posts, p.id);
            forall j :: 0 <= j < |s.posts| ==> r.posts[j] == if j == i then p else s.posts[j]
    ensures r.currentPost == if IsCurrent(s, p.id) then Some(p) else s.currentPost
    ensures r.pagination == s.pagination && !r.isLoading
  {
    var i := FindIndex(s.posts, p.id);
    s.(isLoading := false,
       posts := if i != -1 then s.posts[i := p] else s.posts,
       currentPost := if IsCurrent(s, p.id) then Some(p) else s.currentPost)
  }

  /** Applying the same update twice is applying it once. */
  lemma UpdateIdempotent(s: BlogState, p: Post)
    ensures OnPostUpdated(OnPostUpdated(s, p), p) == OnPostUpdated(s, p)
  {
    var once := OnPostUpdated(s, p);
    var i := FindIndex(s.posts, p.id);
    if i != -1 {
      SameFirstIndex(s.posts, i, p, p.id);
    }
  }

  function NotId(id: string): Post -> bool { (p: Post) => p.id != id }

  /** `deletePost.fulfilled`: every post with the id is removed, the total drops by one
      whether or not a post was removed, and a matching current post is cleared. */
  function OnPostDeleted(s: BlogState, id: string): (r: BlogState)
    ensures forall j :: 0 <= j < |r.posts| ==> r.posts[j].id != id
    ensures forall p :: p in r.posts <==> p in s.posts && p.id != id
    ensures Seqs.IsSubseq(r.posts, s.posts)
    ensures r.pagination == s.pagination.(total := s.pagination.total - 1)
    ensures r.currentPost == if IsCurrent(s, id) then None else s.currentPost
    ensures !r.isLoading
  {
    var kept := Seqs.Filter(s.posts, NotId(id));
    forall p ensures p in kept <==> p in s.posts && p.id != id {
      Seqs.FilterMember(s.posts, NotId(id), p);
    }
    Seqs.FilterIsSubseq(s.posts, NotId(id));
    s.(isLoading := false, posts := kept,
       pagination := s.pagination.(total := s.pagination.total - 1),
       currentPost := if IsCurrent(s, id) then None else s.currentPost)
  }

  /** Creating a post with a new id and then deleting it gives the posts and the total
      back. */
  lemma CreateThenDelete(s: BlogState, p: Post)
    requires forall j :: 0 <= j < |s.posts| ==> s.posts[j].id != p.id
    requires !IsCurrent(s, p.id)
    ensures var r := OnPostDeleted(OnPostCreated(s, p), p.id);
            r.posts == s.posts && r.pagination == s.pagination && r.currentPost == s.currentPost
  {
    Seqs.FilterCons(p, s.posts, NotId(p.id));
    Seqs.FilterKeepsAll(s.posts, NotId(p.id));
  }

  /** Deleting an id that no post has still lowers the total. */
  lemma DeleteMissingStillCounts(s: BlogState, id: string)
    requires forall j :: 0 <= j < |s.posts| ==> s.posts[j].id != id
    ensures OnPostDeleted(s, id).posts == s.posts
    ensures OnPostDeleted(s, id).pagination.total == s.pagination.total - 1
  {
    Seqs.FilterKeepsAll(s.posts, NotId(id));
  }

  // ---------------------------------------------------------------------------
  // Views, likes and comments

  function WithViews(p: Post, views: int): Post {
    p.(stats := p.stats.(views := views))
  }

  function WithLikes(p: Post, likes: int): Post {
    p.(stats := p.stats.(likes := likes))
  }

  /** `incrementPostViews.fulfilled`: the first post with the id and a matching current
      post get the new view count; nothing else changes. */
  function OnViews(s: BlogState, id: string, views: int): (r: BlogState)
    ensures |r.posts| == |s.posts|
    ensures var i := FindIndex(s.posts, id);
            forall j :: 0 <= j < |s.posts| ==> r.posts[j] == if j == i then WithViews(s.posts[j], views) else s.posts[j]
    ensures r.currentPost == if IsCurrent(s, id) then Some(WithViews(s.currentPost.value, views)) else s.currentPost
    ensures r == s.(posts := r.posts, currentPost := r.currentPost)
  {
    var i := FindIndex(s.posts, id);
    s.(posts := if i != -1 then s.posts[i := WithViews(s.posts[i], views)] else s.posts,
       currentPost := if IsCurrent(s, id) then Some(WithViews(s.currentPost.value, views)) else s.currentPost)
  }

  /** `togglePostLike.fulfilled`: as for views, with the like count. */
  function OnLikes(s: BlogState, id: string, likes: int): (r: BlogState)
    ensures |r.posts| == |s.posts|
    ensures var i := FindIndex(s.posts, id);
            forall j :: 0 <= j < |s.posts| ==> r.posts[j] == if j == i then WithLikes(s.posts[j], likes) else s.posts[j]
    ensures r.currentPost == if IsCurrent(s, id) then Some(WithLikes(s.currentPost.value, likes)) else s.currentPost
    ensures r == s.(posts := r.posts, currentPost := r.currentPost)
  {
    var i := FindIndex(s.posts, id);
    s.(posts := if i != -1 then s.posts[i := WithLikes(s.posts[i], likes)] else s.posts,
       currentPost := if IsCurrent(s, id) then Some(WithLikes(s.currentPost.value, likes)) else s.currentPost)
  }

  /** The last view count received wins. */
  lemma ViewsLastWins(s: BlogState, id: string, v1: int, v2: int)
    ensures OnViews(OnViews(s, id, v1), id, v2) == OnViews(s, id, v2)
  {
    var once := OnViews(s, id, v1);
    var twice := OnViews(once, id, v2);
    var direct := OnViews(s, id, v2);
    var i := FindIndex(s.posts, id);
    if i != -1 {
      SameFirstIndex(s.posts, i, WithViews(s.posts[i], v1), id);
    }
    assert twice.posts == direct.posts;
    assert twice.currentPost == direct.currentPost;
  }

  /** The last like count received wins: toggling twice leaves the second answer. */
  lemma LikesLastWins(s: BlogState, id: string, l1: int, l2: int)
    ensures OnLikes(OnLikes(s, id, l1), id, l2) == OnLikes(s, id, l2)
  {
    var once := OnLikes(s, id, l1);
    var twice := OnLikes(once, id, l2);
    var direct := OnLikes(s, id, l2);
    var i := FindIndex(s.posts, id);
    if i != -1 {
      SameFirstIndex(s.posts, i, WithLikes(s.posts[i], l1), id);
    }
    assert twice.posts == direct.posts;
    assert twice.currentPost == direct.currentPost;
  }

  /** Replacing the first post with an id by another post with that id keeps it first. */
  lemma SameFirstIndex(posts: seq<Post>, i: int, q: Post, id: string)
    requires i == FindIndex(posts, id) && i != -1 && q.id == id
    ensures FindIndex(posts[i := q], id) == i
  {
    var k := FindIndex(posts[i := q], id);
    assert posts[i := q][i].id == id;
  }

  /** `fetchComments.fulfilled`: the comments replace the current post's when it is the
      post they belong to. */
  function OnCommentsFetched(s: BlogState, id: string, comments: seq<Comment>): (r: BlogState)
    ensures IsCurrent(s, id) ==> r.currentPost == Some(s.currentPost.value.(comments := Some(comments)))
    ensures !IsCurrent(s, id) ==> r.currentPost == s.currentPost
    ensures r == s.(isLoading := false, currentPost := r.currentPost)
  {
    s.(isLoading := false,
       currentPost := if IsCurrent(s, id) then Some(s.currentPost.value.(comments := Some(comments)))
                      else s.currentPost)
  }

  /** `addComment.fulfilled`: when the current post is the one commented on, the comment
      is appended (to an empty list if it had none) and its comment count grows by one;
      the posts list is not touched. */
  function OnCommentAdded(s: BlogState, id: string, c: Comment): (r: BlogState)
    ensures IsCurrent(s, id) ==>
      && r.currentPost.Some?
      && r.currentPost.value.comments == Some(s.currentPost.value.comments.GetOr([]) + [c])
      && r.currentPost.value.stats.commentCount == s.currentPost.value.stats.commentCount + 1
      && r.currentPost.value.(comments := None, stats := r.currentPost.value.stats.(commentCount := 0))
         == s.currentPost.value.(comments := None, stats := s.currentPost.value.stats.(commentCount := 0))
    ensures !IsCurrent(s, id) ==> r.currentPost == s.currentPost
    ensures r == s.(isLoading := false, currentPost := r.currentPost)
  {
    if IsCurrent(s, id) then
      var p := s.currentPost.value;
      s.(isLoading := false,
         currentPost := Some(p.(comments := Some(p.comments.GetOr([]) + [c]),
                                stats := p.stats.(commentCount := p.stats.commentCount + 1))))
    else s.(isLoading := false)
  }

  /** Loading a post's comments and then adding one lists the new comment after the
      loaded ones, whatever the post held before; for any other post neither step
      changes the current post. */
  lemma FetchedThenAdded(s: BlogState, id: string, cs: seq<Comment>, c: Comment)
    ensures IsCurrent(s, id) ==>
      OnCommentAdded(OnCommentsFetched(s, id, cs), id, c).currentPost.value.comments == Some(cs + [c])
    ensures !IsCurrent(s, id) ==>
      OnCommentAdded(OnCommentsFetched(s, id, cs), id, c) == s.(isLoading := false)
  {
  }

  /** Every comment added to the current post is counted: adding `n` comments raises
      the count by `n` and lists them after the earlier ones. */
  lemma {:induction false} CommentsCounted(s: BlogState, id: string, cs: seq<Comment>)
    requires IsCurrent(s, id)
    ensures var r := AddAll(s, id, cs);
            && IsCurrent(r, id)
            && r.currentPost.value.stats.commentCount == s.currentPost.value.stats.commentCount + |cs|
            && r.currentPost.value.comments.GetOr([]) == s.currentPost.value.comments.GetOr([]) + cs
    decreases |cs|
  {
    if |cs| == 0 {
      assert s.currentPost.value.comments.GetOr([]) + cs == s.currentPost.value.comments.GetOr([]);
    } else {
      var t := OnCommentAdded(s, id, cs[0]);
      CommentsCounted(t, id, cs[1..]);
      assert s.currentPost.value.comments.GetOr([]) + [cs[0]] + cs[1..]
          == s.currentPost.value.comments.GetOr([]) + cs;
    }
  }

  /** Adding comments one after another. */
  function AddAll(s: BlogState, id: string, cs: seq<Comment>): BlogState
    decreases |cs|
  {
    if |cs| == 0 then s else AddAll(OnCommentAdded(s, id, cs[0]), id, cs[1..])
  }

  // ---------------------------------------------------------------------------
  // The reducer

  /** The slice reducer. */
  function Reduce(s: BlogState, a: Action): (r: BlogState)
    ensures a.Pending? && Handled(a.thunk) ==> r == s.(isLoading := true, error := None)
    ensures a.Rejected? && Handled(a.thunk) ==> r == s.(isLoading := false, error := a.message)
    ensures (a.Pending? || a.Rejected?) && !Handled(a.thunk) ==> r == s
    ensures a == ResetBlogState ==> r == Initial
    ensures r.filters != s.filters ==> a.SetFilters? || a == ClearFilters || a == ResetBlogState
    ensures r.sortBy != s.sortBy ==> a.SetSortBy? || a == ResetBlogState
    ensures r.sortOrder != s.sortOrder ==> a.SetSortOrder? || a == ResetBlogState
    ensures r.error != s.error ==> a.Pending? || a.Rejected? || a == ClearError || a == ResetBlogState
    ensures r.posts != s.posts ==>
      a.PostsFetched? || a.PostCreated? || a.PostUpdated? || a.PostDeleted?
      || a.ViewsIncremented? || a.LikeToggled? || a == ResetBlogState
  {
    match a
    case SetCurrentPost(p) => s.(currentPost := p)
    case SetFilters(f) => s.(filters := f)
    case ClearFilters => s.(filters := NoFilters)
    case SetSortBy(key) => s.(sortBy := key)
    case SetSortOrder(o) => s.(sortOrder := o)
    case SetCurrentPage(page) => s.(pagination := s.pagination.(page := page))
    case SetLimit(limit) => s.(pagination := s.pagination.(limit := limit))
    case ClearError => s.(error := None)
    case ResetBlogState => Initial
    case Pending(t) => if Handled(t) then s.(isLoading := true, error := None) else s
    case Rejected(t, m) => if Handled(t) then s.(isLoading := false, error := m) else s
    case PostsFetched(ps, pg) => OnPostsFetched(s, ps, pg)
    case PostBySlugFetched(p) => s.(isLoading := false, currentPost := Some(p))
    case RelatedFetched(ps) => s.(isLoading := false, relatedPosts := ps)
    case PostCreated(p) => OnPostCreated(s, p)
    case PostUpdated(p) => OnPostUpdated(s, p)
    case PostDeleted(id) => OnPostDeleted(s, id)
    case ViewsIncremented(id, v) => OnViews(s, id, v)
    case LikeToggled(id, l) => OnLikes(s, id, l)
    case CommentsFetched(id, cs) => OnCommentsFetched(s, id, cs)
    case CommentAdded(id, c) => OnCommentAdded(s, id, c)
  }

  /** A request cycle: pending then rejected leaves the posts as they were, stops the
      loading flag and records the message; pending then fulfilled clears the error. */
  lemma RequestCycle(s: BlogState, t: Thunk, m: Option<string>, p: Post)
    requires Handled(t)
    ensures var r := Reduce(Reduce(s, Pending(t)), Rejected(t, m));
            r.posts == s.posts && !r.isLoading && r.error == m
    ensures var r := Reduce(Reduce(s, Pending(CreatePost)), PostCreated(p));
            r.error.None? && !r.isLoading && r.posts == [p] + s.posts
  {
  }
}

=== FILE: category_route.dfy ===
/** The blog category endpoint: `GET` lists the categories, optionally those whose name
    contains a search text; `POST` validates the name, normalises the slug, refuses a
    duplicate slug and stores the trimmed name and description. */
module CategoryRoute {
  import opened Wrappers
  import opened Http
  import opened Posts
  import Strings
  import Seqs
  import DocStore
  import Slugs

  type CategoryStore = DocStore.Collection<Category>

  predicate WellFormed(s: CategoryStore) {
    DocStore.Valid(s) && forall k | k in s.docs :: s.docs[k].id == k
  }

  // ---------------------------------------------------------------------------
  // GET /api/blog/category

  /** The name contains the (already lower-cased) search text, ignoring case. */
  predicate NameHit(c: Category, q: string) {
    Strings.Contains(Strings.Lower(c.name), q)
  }

  function NameFilter(q: string): Category -> bool { c => NameHit(c, q) }

  /** `GET /api/blog/category?q=`: every category in store order, or, for a non-empty
      `q`, those whose lower-cased name contains the lower-cased `q`. */
  function GetCategories(db: Db<CategoryStore>, q: Option<string>): (r: Response<seq<Category>>)
    requires db.Up? ==> WellFormed(db.value)
    ensures r.Fail? <==> db.Down?
    ensures r.Fail? ==> r == Fail(500, "Failed to fetch categories")
    ensures r.Json? ==> r.status == 200 && Seqs.IsSubseq(r.value, DocStore.Values(db.value))
    ensures r.Json? && !Truthy(q) ==> r.value == DocStore.Values(db.value)
    ensures r.Json? ==> forall c ::
      c in r.value <==> c in DocStore.Values(db.value) && (!Truthy(q) || NameHit(c, Strings.Lower(q.value)))
  {
    match db
    case Down(_) => Fail(500, "Failed to fetch categories")
    case Up(s) =>
      var text := Strings.Lower(OrElse(q, ""));
      var all := DocStore.Values(s);
      if text == "" then
        Seqs.SubseqRefl(all);
        Json(200, all)
      else
        Seqs.FilterIsSubseq(all, NameFilter(text));
        assert forall c :: c in Seqs.Filter(all, NameFilter(text)) <==> c in all && NameHit(c, text) by {
          forall c ensures c in Seqs.Filter(all, NameFilter(text)) <==> c in all && NameHit(c, text) {
            Seqs.FilterMember(all, NameFilter(text), c);
          }
        }
        Json(200, Seqs.Filter(all, NameFilter(text)))
  }

  /** The search ignores case: `q` and its lower-cased form find the same categories. */
  lemma SearchIgnoresCase(db: Db<CategoryStore>, q: string)
    requires db.Up? ==> WellFormed(db.value)
    ensures GetCategories(db, Some(q)) == GetCategories(db, Some(Strings.Lower(q)))
  {
    Strings.LowerIdempotent(q);
  }

  /** A category whose name is exactly the search text (in any case) is always found. */
  lemma ExactNameFound(s: CategoryStore, c: Category)
    requires WellFormed(s) && c in DocStore.Values(s) && c.name != ""
    ensures c in GetCategories(Up(s), Some(c.name)).value
  {
    assert Strings.OccursAt(Strings.Lower(c.name), Strings.Lower(c.name), 0);
  }

  // ---------------------------------------------------------------------------
  // POST /api/blog/category

  datatype CategoryInput = CategoryInput(name: Option<string>, slug: Option<string>, description: Option<string>)

  /** A name is usable when it holds something besides white space. */
  predicate NameGiven(input: CategoryInput) {
    Truthy(input.name) && |Strings.Trim(input.name.value)| != 0
  }

  /** The slug: a given slug, else the name, normalised either way. */
  function CategorySlug(input: CategoryInput): string
    requires Truthy(input.name)
  {
    Slugs.SlugOf(input.slug, input.name.value)
  }

  predicate SlugTaken(s: CategoryStore, slug: string) {
    exists k | k in s.docs :: s.docs[k].slug == slug
  }

  predicate UniqueSlugs(s: CategoryStore) {
    forall a, b | a in s.docs && b in s.docs && a != b :: s.docs[a].slug != s.docs[b].slug
  }

  /** The stored category: trimmed name and description, a missing description empty. */
  function NewCategory(input: CategoryInput, id: string): (c: Category)
    requires NameGiven(input)
    ensures c.id == id && c.slug == CategorySlug(input)
    ensures c.name == Strings.Trim(input.name.value) && c.name != ""
    ensures c.description == Some(Strings.Trim(OrElse(input.description, "")))
  {
    Category(id, Strings.Trim(input.name.value), CategorySlug(input),
             Some(Strings.Trim(OrElse(input.description, ""))))
  }

  datatype CreateOutcome = CreateOutcome(response: Response<Category>, store: Db<CategoryStore>)

  /** Whether `POST /api/blog/category` gets as far as `addDoc`: a parsed body with a
      name, a reachable store, and a slug no stored category has. */
  predicate Admits(db: Db<CategoryStore>, body: Json<CategoryInput>) {
    body.Parsed? && NameGiven(body.value) && db.Up? && !SlugTaken(db.value, CategorySlug(body.value))
  }

  /** `POST /api/blog/category`: 400 for a missing or blank name, 409 for a slug in
      use, 500 when the body does not parse or the store fails; otherwise the category
      is added, listed at position `at`, and its id then written into the document.
      `idWritten` is whether that second write succeeds: 201 with the stored category
      when it does, 500 with the category already stored when it does not. */
  function CreateCategory(db: Db<CategoryStore>, body: Json<CategoryInput>, newId: string, at: nat,
                          idWritten: bool): (o: CreateOutcome)
    requires db.Up? ==> WellFormed(db.value) && newId !in db.value.docs && at <= |db.value.order|
    ensures o.response.status in {201, 400, 409, 500}
    ensures o.response.status == 201 <==> Admits(db, body) && idWritten
    ensures !Admits(db, body) ==> o.store == db
    ensures o.response.status == 400 <==> body.Parsed? && !NameGiven(body.value)
    ensures o.response.status == 400 ==> o.response == Fail(400, "Name is required")
    ensures o.response.status == 409 <==>
      body.Parsed? && NameGiven(body.value) && db.Up? && SlugTaken(db.value, CategorySlug(body.value))
    ensures o.response.status == 409 ==> o.response == Fail(409, "A category with this slug already exists")
    ensures o.response.status == 500 ==> o.response == Fail(500, "Failed to create category")
    ensures Admits(db, body) ==>
      var c := NewCategory(body.value, newId);
      && o.store.Up? && WellFormed(o.store.value)
      && o.store.value.docs == db.value.docs[newId := c]
      && DocStore.Values(o.store.value) == DocStore.Values(db.value)[..at] + [c] + DocStore.Values(db.value)[at..]
      && (idWritten ==> o.response == Json(201, c))
  {
    match body
    case Malformed(_) => CreateOutcome(Fail(500, "Failed to create category"), db)
    case Parsed(input) =>
      if !NameGiven(input) then CreateOutcome(Fail(400, "Name is required"), db)
      else
        match db
        case Down(_) => CreateOutcome(Fail(500, "Failed to create category"), db)
        case Up(s) =>
          if SlugTaken(s, CategorySlug(input)) then
            CreateOutcome(Fail(409, "A category with this slug already exists"), db)
          else Accept(s, input, newId, at, idWritten)
  }

  /** The admitted request: `addDoc`, then the id write. */
  function Accept(s: CategoryStore, input: CategoryInput, newId: string, at: nat, idWritten: bool): (o: CreateOutcome)
    requires WellFormed(s) && newId !in s.docs && at <= |s.order| && NameGiven(input)
    ensures var c := NewCategory(input, newId);
      && o.response == (if idWritten then Json(201, c) else Fail(500, "Failed to create category"))
      && o.store.Up? && WellFormed(o.store.value)
      && o.store.value.docs == s.docs[newId := c]
      && DocStore.Values(o.store.value) == DocStore.Values(s)[..at] + [c] + DocStore.Values(s)[at..]
  {
    var c := NewCategory(input, newId);
    var t := DocStore.Add(s, newId, c, at);
    AddKeepsWellFormed(s, newId, c, at);
    CreateOutcome(if idWritten then Json(201, c) else Fail(500, "Failed to create category"), Up(t))
  }

  /** Adding a category under its own id keeps every document filed under its id. */
  lemma AddKeepsWellFormed(s: CategoryStore, id: string, c: Category, at: nat)
    requires WellFormed(s) && id !in s.docs && at <= |s.order| && c.id == id
    ensures WellFormed(DocStore.Add(s, id, c, at))
  {
  }

  /** A name of white space only is refused, whatever else the body holds. */
  lemma BlankNameRefused(db: Db<CategoryStore>, input: CategoryInput, newId: string, at: nat, idWritten: bool)
    requires db.Up? ==> WellFormed(db.value) && newId !in db.value.docs && at <= |db.value.order|
    requires input.name.Some? && Strings.AllSpace(input.name.value)
    ensures CreateCategory(db, Parsed(input), newId, at, idWritten).response == Fail(400, "Name is required")
  {
    Strings.TrimEmptyIffBlank(input.name.value);
  }

  /** A given slug is normalised too, and sending back a non-empty normalised slug
      names the same slug again, so a second create with it is refused. */
  lemma GivenSlugNormalised(input: CategoryInput)
    requires Truthy(input.name) && Truthy(input.slug)
    ensures CategorySlug(input) == Slugs.Slugify(input.slug.value)
    ensures CategorySlug(input) != "" ==>
      CategorySlug(input.(slug := Some(CategorySlug(input)))) == CategorySlug(input)
  {
    Slugs.SlugifyIdempotent(input.slug.value);
  }

  /** Creating a category keeps the slugs unique and stores the category under the new
      id with whitespace-free edges. */
  lemma CreateKeepsSlugsUnique(s: CategoryStore, input: CategoryInput, newId: string, at: nat, idWritten: bool)
    requires WellFormed(s) && newId !in s.docs && at <= |s.order| && UniqueSlugs(s)
    ensures var o := CreateCategory(Up(s), Parsed(input), newId, at, idWritten);
            && o.store.Up? && UniqueSlugs(o.store.value)
            && (Admits(Up(s), Parsed(input)) ==>
                  Strings.Trim(o.store.value.docs[newId].name) == o.store.value.docs[newId].name)
  {
    var o := CreateCategory(Up(s), Parsed(input), newId, at, idWritten);
    if Admits(Up(s), Parsed(input)) {
      var c := NewCategory(input, newId);
      FreeSlugKeepsUnique(s, o.store.value, newId, c);
      Strings.TrimIdempotent(input.name.value);
    }
  }

  /** Storing a category whose slug no stored category has keeps the slugs unique. */
  lemma FreeSlugKeepsUnique(s: CategoryStore, t: CategoryStore, id: string, c: Category)
    requires UniqueSlugs(s) && !SlugTaken(s, c.slug) && id !in s.docs
    requires t.docs == s.docs[id := c]
    ensures UniqueSlugs(t)
  {
    forall a, b | a in t.docs && b in t.docs && a != b
      ensures t.docs[a].slug != t.docs[b].slug
    {
      if a == id {
        assert t.docs[b] == s.docs[b];
      } else if b == id {
        assert t.docs[a] == s.docs[a];
      }
    }
  }
}

=== FILE: content.dfy ===
/** Site content: two documents, `siteContent` and `systemSettings`, read with a
    per-part fallback to the bundled demo content, and removed by a soft delete that
    only marks the document. The demo content is a parameter. */
module SiteContent {
  import opened Wrappers

  /** A Firestore field value. */
  datatype Value =
    | Str(s: string)
    | Num(n: int)
    | Flag(b: bool)
    | Time(ms: int)
    | List(items: seq<Value>)
    | Object(fields: map<string, Value>)

  /** The fields of one document. */
  type Doc = map<string, Value>

  /** The content collection: documents by id. */
  type ContentStore = map<string, Doc>

  datatype Content = Content(siteContent: Doc, systemSettings: Doc)

  /** `snap.exists() ? snap.data() : {}`. */
  function DataOf(s: ContentStore, id: string): (d: Doc)
    ensures id in s ==> d == s[id]
    ensures id !in s ==> d == map[]
  {
    if id in s then s[id] else map[]
  }

  /** `Object.keys(data).length === 0`. */
  predicate IsEmpty(d: Doc) {
    |d| == 0
  }

  /** `getContent`: both parts empty (or missing) gives the demo content as a whole;
      otherwise each empty part comes from the demo and each other part from the store;
      a failing store gives the demo content. */
  function GetContent(db: Db<ContentStore>, demo: Content): (c: Content)
    ensures db.Down? ==> c == demo
    ensures db.Up? ==>
      && c.siteContent == (if IsEmpty(DataOf(db.value, "siteContent")) then demo.siteContent
                          else DataOf(db.value, "siteContent"))
      && c.systemSettings == (if IsEmpty(DataOf(db.value, "systemSettings")) then demo.systemSettings
                             else DataOf(db.value, "systemSettings"))
  {
    match db
    case Down(_) => demo
    case Up(s) =>
      var site := DataOf(s, "siteContent");
      var settings := DataOf(s, "systemSettings");
      if IsEmpty(site) && IsEmpty(settings) then demo
      else Content(if IsEmpty(site) then demo.siteContent else site,
                   if IsEmpty(settings) then demo.systemSettings else settings)
  }

  /** The fallback rule case by case: nothing stored gives the demo content; with one
      part empty, that part is the demo's and the other is the store's; with neither
      empty, the store's content is served unchanged. */
  lemma FallbackCases(s: ContentStore, demo: Content)
    ensures IsEmpty(DataOf(s, "siteContent")) && IsEmpty(DataOf(s, "systemSettings")) ==>
      GetContent(Up(s), demo) == demo
    ensures !IsEmpty(DataOf(s, "siteContent")) && IsEmpty(DataOf(s, "systemSettings")) ==>
      GetContent(Up(s), demo) == Content(s["siteContent"], demo.systemSettings)
    ensures IsEmpty(DataOf(s, "siteContent")) && !IsEmpty(DataOf(s, "systemSettings")) ==>
      GetContent(Up(s), demo) == Content(demo.siteContent, s["systemSettings"])
    ensures !IsEmpty(DataOf(s, "siteContent")) && !IsEmpty(DataOf(s, "systemSettings")) ==>
      GetContent(Up(s), demo) == Content(s["siteContent"], s["systemSettings"])
  {
  }

  /** An empty document and a missing one are treated alike. */
  lemma EmptyLikeMissing(s: ContentStore, id: string, demo: Content)
    requires id == "siteContent" || id == "systemSettings"
    ensures GetContent(Up(s[id := map[]]), demo) == GetContent(Up(s - {id}), demo)
  {
  }

  /** The outcome of a write: the store afterwards, or the error thrown. */
  datatype Written = Written(store: ContentStore) | Failed(message: string)

  /** `deleteContent`: mark the document with `deleted: true` and the time, keeping it
      and every other field. `updateDoc` on a missing document throws, with the store's
      message `missing`; every error is rethrown with a "Failed to delete content: "
      prefix. */
  function DeleteContent(db: Db<ContentStore>, id: string, now: int, missing: string): (r: Written)
    ensures r.Failed? <==> db.Down? || id !in db.value
    ensures db.Down? ==> r == Failed("Failed to delete content: " + db.reason)
    ensures db.Up? && id !in db.value ==> r == Failed("Failed to delete content: " + missing)
    ensures r.Written? ==>
      && r.store.Keys == db.value.Keys
      && (forall k | k in r.store && k != id :: r.store[k] == db.value[k])
      && r.store[id].Keys == db.value[id].Keys + {"deleted", "deletedAt"}
      && r.store[id]["deleted"] == Flag(true) && r.store[id]["deletedAt"] == Time(now)
      && (forall f | f in db.value[id] && f != "deleted" && f != "deletedAt" :: r.store[id][f] == db.value[id][f])
  {
    match db
    case Down(reason) => Failed("Failed to delete content: " + reason)
    case Up(s) =>
      if id !in s then Failed("Failed to delete content: " + missing)
      else Written(s[id := s[id]["deleted" := Flag(true)]["deletedAt" := Time(now)]])
  }

  /** A soft-deleted part is still served: the marker fields make it non-empty, so the
      reader returns the marked document rather than the demo part. */
  lemma DeletedContentStillServed(s: ContentStore, now: int, missing: string, demo: Content)
    requires "siteContent" in s
    ensures var r := DeleteContent(Up(s), "siteContent", now, missing);
            && r.Written?
            && GetContent(Up(r.store), demo).siteContent == r.store["siteContent"]
            && "deleted" in GetContent(Up(r.store), demo).siteContent
  {
    var r := DeleteContent(Up(s), "siteContent", now, missing);
    assert "deleted" in r.store["siteContent"];
  }

  /** Deleting twice leaves the document marked, with the later time. */
  lemma DeleteTwice(s: ContentStore, id: string, t1: int, t2: int, missing: string)
    requires id in s
    ensures var r1 := DeleteContent(Up(s), id, t1, missing);
            var r2 := DeleteContent(Up(r1.store), id, t2, missing);
            && r2.Written? && r2.store.Keys == s.Keys
            && r2.store[id]["deletedAt"] == Time(t2)
            && r2.store[id] == s[id]["deleted" := Flag(true)]["deletedAt" := Time(t2)]
  {
    var r1 := DeleteContent(Up(s), id, t1, missing);
    assert r1.store[id]["deleted" := Flag(true)]["deletedAt" := Time(t2)]
        == s[id]["deleted" := Flag(true)]["deletedAt" := Time(t2)];
  }
}

=== FILE: docstore.dfy ===
/** The document store (a Firestore collection) as a value: documents by id, and
    the order in which a full read (`getDocs`) lists them. */
module DocStore {
  import opened Wrappers
  import Seqs

  datatype Collection<T> = Collection(docs: map<string, T>, order: seq<string>)

  /** `order` lists every document id exactly once. */
  predicate Valid<T>(c: Collection<T>) {
    && (forall i, j | 0 <= i < j < |c.order| :: c.order[i] != c.order[j])
    && (forall i | 0 <= i < |c.order| :: c.order[i] in c.docs)
    && (forall k | k in c.docs :: k in c.order)
  }

  function Empty<T>(): (c: Collection<T>)
    ensures Valid(c)
  {
    Collection(map[], [])
  }

  /** A full read: every document, in listing order. */
  function Values<T>(c: Collection<T>): (r: seq<T>)
    requires Valid(c)
    ensures |r| == |c.order|
    ensures forall i :: 0 <= i < |r| ==> r[i] == c.docs[c.order[i]]
  {
    seq(|c.order|, i requires 0 <= i < |c.order| && Valid(c) => c.docs[c.order[i]])
  }

  /** A full read lists exactly the stored documents. */
  lemma ValuesMembers<T>(c: Collection<T>, x: T)
    requires Valid(c)
    ensures x in Values(c) <==> exists k :: k in c.docs && c.docs[k] == x
  {
    var vs := Values(c);
    if exists k :: k in c.docs && c.docs[k] == x {
      var k :| k in c.docs && c.docs[k] == x;
      var i :| 0 <= i < |c.order| && c.order[i] == k;
      assert vs[i] == x;
    }
  }

  /** `getDoc(ref)`: the document with that id, if it exists. */
  function Get<T>(c: Collection<T>, id: string): Option<T> {
    if id in c.docs then Some(c.docs[id]) else None
  }

  /** `addDoc` under a fresh id. A full read lists documents by id, and a fresh
      id is random, so the new document may land at any position `at` of the
      listing; the documents already stored keep their relative order. */
  function Add<T>(c: Collection<T>, id: string, v: T, at: nat): (r: Collection<T>)
    requires Valid(c) && id !in c.docs && at <= |c.order|
    ensures Valid(r)
    ensures r.docs == c.docs[id := v]
    ensures Values(r) == Values(c)[..at] + [v] + Values(c)[at..]
  {
    var r := Inserted(c, id, v, at);
    InsertValid(c, id, v, at);
    InsertValues(c, id, v, at);
    r
  }

  /** The collection `Add` produces, before anything is proved about it. */
  function Inserted<T>(c: Collection<T>, id: string, v: T, at: nat): Collection<T>
    requires at <= |c.order|
  {
    Collection(c.docs[id := v], c.order[..at] + [id] + c.order[at..])
  }

  lemma InsertValid<T>(c: Collection<T>, id: string, v: T, at: nat)
    requires Valid(c) && id !in c.docs && at <= |c.order|
    ensures Valid(Inserted(c, id, v, at))
  {
    var r := Inserted(c, id, v, at);
    var order := r.order;
    InsertDistinct(c.order, id, at);
    forall k | k in r.docs
      ensures k in order
    {
      if k != id {
        var i :| 0 <= i < |c.order| && c.order[i] == k;
        if i < at {
          assert order[i] == k;
        } else {
          assert order[i + 1] == k;
        }
      } else {
        assert order[at] == id;
      }
    }
    forall i | 0 <= i < |order|
      ensures order[i] in r.docs
    {
      if i < at {
        assert order[i] == c.order[i];
      } else if i > at {
        assert order[i] == c.order[i - 1];
      }
    }
  }

  lemma InsertValues<T>(c: Collection<T>, id: string, v: T, at: nat)
    requires Valid(c) && id !in c.docs && at <= |c.order|
    requires Valid(Inserted(c, id, v, at))
    ensures Values(Inserted(c, id, v, at)) == Values(c)[..at] + [v] + Values(c)[at..]
  {
    var r := Inserted(c, id, v, at);
    var vs := Values(c);
    var ws := Values(r);
    forall i | 0 <= i < |ws|
      ensures ws[i] == (vs[..at] + [v] + vs[at..])[i]
    {
      if i < at {
        assert r.order[i] == c.order[i];
      } else if i > at {
        assert r.order[i] == c.order[i - 1];
      }
    }
  }

  /** Placing an id that is not yet listed keeps the listing free of repeats. */
  lemma InsertDistinct(order: seq<string>, id: string, at: nat)
    requires forall i, j | 0 <= i < j < |order| :: order[i] != order[j]
    requires id !in order && at <= |order|
    ensures var o := order[..at] + [id] + order[at..];
      forall i, j | 0 <= i < j < |o| :: o[i] != o[j]
  {
    var o := order[..at] + [id] + order[at..];
    forall i, j | 0 <= i < j < |o|
      ensures o[i] != o[j]
    {
      var a := if i < at then i else i - 1;
      var b := if j < at then j else j - 1;
      if i == at {
        assert o[j] == order[b];
      } else if j == at {
        assert o[i] == order[a];
      } else {
        assert o[i] == order[a] && o[j] == order[b];
      }
    }
  }

  /** `updateDoc` / overwrite of an existing document: the listing order is kept. */
  function Put<T>(c: Collection<T>, id: string, v: T): (r: Collection<T>)
    requires Valid(c) && id in c.docs
    ensures Valid(r)
    ensures r.docs == c.docs[id := v]
    ensures r.order == c.order
  {
    Collection(c.docs[id := v], c.order)
  }

  /** `deleteDoc`: removing a missing document is not an error. */
  function Remove<T>(c: Collection<T>, id: string): (r: Collection<T>)
    requires Valid(c)
    ensures Valid(r)
    ensures id !in r.docs
    ensures forall k :: k != id ==> (k in r.docs <==> k in c.docs)
    ensures forall k :: k in r.docs ==> r.docs[k] == c.docs[k]
  {
    var order := Seqs.Filter(c.order, Other(id));
    var r := Collection(c.docs - {id}, order);
    forall k | k in r.docs
      ensures k in r.order
    {
      Seqs.FilterMember(c.order, Other(id), k);
    }
    forall i | 0 <= i < |r.order|
      ensures r.order[i] in r.docs
    {
      Seqs.FilterMember(c.order, Other(id), r.order[i]);
    }
    RemoveDistinct(c.order, id, order);
    r
  }

  /** Holds of every id but `id`. */
  function Other(id: string): string -> bool {
    k => k != id
  }

  lemma {:induction false} RemoveDistinct(order: seq<string>, id: string, r: seq<string>)
    requires forall i, j | 0 <= i < j < |order| :: order[i] != order[j]
    requires r == Seqs.Filter(order, Other(id))
    ensures forall i, j | 0 <= i < j < |r| :: r[i] != r[j]
  {
    if |order| > 0 {
      var rest := Seqs.Filter(order[1..], Other(id));
      RemoveDistinct(order[1..], id, rest);
      forall j | 0 <= j < |rest|
        ensures rest[j] != order[0]
      {
        Seqs.FilterMember(order[1..], Other(id), rest[j]);
      }
      if order[0] != id {
        assert r == [order[0]] + rest;
        forall i, j | 0 <= i < j < |r|
          ensures r[i] != r[j]
        {
          if i > 0 {
            assert r[i] == rest[i - 1] && r[j] == rest[j - 1];
          } else {
            assert r[j] == rest[j - 1];
          }
        }
      } else {
        assert r == rest;
      }
    }
  }
}

=== FILE: http.dfy ===
/** Route handler results: a JSON body with a status code, or an `{ error }` body. */
module Http {
  import opened Wrappers

  /** The outcome of `await req.json()`: a parsed body, or a parse error that the
      handler's `catch` turns into a 500. */
  datatype Json<+T> = Parsed(value: T) | Malformed(reason: string)

  /** `NextResponse.json(value, { status })` or `NextResponse.json({ error }, { status })`. */
  datatype Response<+T> = Json(status: nat, value: T) | Fail(status: nat, error: string) {
    /** `res.ok`: a status in the 2xx range. */
    predicate Ok() {
      200 <= status < 300
    }
  }

  /** `error?.message || fallback`: a thrown error's own message unless it is empty. */
  function ErrorText(reason: string, fallback: string): (t: string)
    ensures reason != "" ==> t == reason
    ensures reason == "" ==> t == fallback
  {
    OrElse(Some(reason), fallback)
  }
}

=== FILE: media.dfy ===
/** The media descriptor shared by posts and apartments. */
module Media {
  import opened Wrappers

  datatype MediaKind = Image | Video

  datatype Media = Media(url: string, alt: string, kind: MediaKind, caption: Option<string>, width: int, height: int)

  /** The stand-in image the create endpoints use when no media is given. */
  function Placeholder(alt: string): (m: Media)
    ensures m.alt == alt && m.kind == Image
  {
    Media("/images/placeholder.svg", alt, Image, None, 800, 600)
  }
}

=== FILE: post.dfy ===
/** Blog posts, their categories, tags, comments and statistics, and the keys the
    client sorts them by. Dates are epoch milliseconds. */
module Posts {
  import opened Wrappers
  import opened Media

  datatype Author = Author(id: string, name: string, avatar: Option<string>)

  datatype Category = Category(id: string, name: string, slug: string, description: Option<string>)

  datatype Tag = Tag(id: string, name: string, slug: Option<string>)

  datatype Meta = Meta(title: string, description: string, keywords: seq<string>)

  datatype Stats = Stats(views: int, likes: int, shares: int, readingTime: int, commentCount: int)

  datatype Comment = Comment(id: string, content: string, author: Author, createdAt: int, likes: int,
                             parentId: Option<string>, isEdited: bool)

  datatype PostStatus = Draft | Published | Archived | Scheduled

  datatype Visibility = Public | Private | PasswordProtected

  /** A post. `publishedAt` is `None` for the empty string the create endpoint stores
      for unpublished posts. */
  datatype Post = Post(
    id: string,
    title: string,
    slug: string,
    subtitle: string,
    content: string,
    excerpt: string,
    author: Author,
    category: Category,
    tags: seq<Tag>,
    featuredMedia: Media,
    gallery: seq<Media>,
    meta: Meta,
    stats: Stats,
    comments: Option<seq<Comment>>,
    status: PostStatus,
    visibility: Visibility,
    password: string,
    createdAt: int,
    updatedAt: int,
    publishedAt: Option<nat>,
    scheduledAt: int,
    isPromoted: bool,
    isFeatured: bool,
    isPremium: bool,
    allowComments: bool,
    relatedPosts: seq<string>,
    version: int,
    lastModifiedBy: string)

  /** `PostSortBy`. */
  datatype SortBy = ByCreatedAt | ByPublishedAt | ByUpdatedAt | ByViews | ByLikes

  /** The value the client compares posts by. An empty `publishedAt` compares below
      every date, as the empty string precedes every ISO date string. */
  function SortKey(sortBy: SortBy): (key: Post -> int)
    ensures sortBy == ByPublishedAt ==>
      forall p: Post :: (key(p) < 0 <==> p.publishedAt.None?) && (p.publishedAt.Some? ==> key(p) == p.publishedAt.value)
    ensures sortBy == ByViews ==> forall p: Post :: key(p) == p.stats.views
    ensures sortBy == ByLikes ==> forall p: Post :: key(p) == p.stats.likes
  {
    match sortBy
    case ByCreatedAt => (p: Post) => p.createdAt
    case ByPublishedAt => (p: Post) => if p.publishedAt.Some? then p.publishedAt.value else -1
    case ByUpdatedAt => (p: Post) => p.updatedAt
    case ByViews => (p: Post) => p.stats.views
    case ByLikes => (p: Post) => p.stats.likes
  }

  /** An unpublished post sorts before every published one. */
  lemma UnpublishedFirst(a: Post, b: Post)
    requires a.publishedAt.None? && b.publishedAt.Some?
    ensures SortKey(ByPublishedAt)(a) < SortKey(ByPublishedAt)(b)
  {
  }
}

=== FILE: reservation_page.dfy ===
/** The reservation confirmation page the admin reaches from the notification links:
    which reservation and action the link names, when the update is sent, and the
    notice shown afterwards. Rendering is not modelled. */
module ReservationPage {
  import opened Wrappers
  import opened Http
  import opened Reservations
  import Strings
  import Seqs
  import ReservationRoutes

  /** Decoded query parameters, in order. */
  type Query = seq<(string, string)>

  /** `searchParams.get(name)`: the value of the first parameter with that name. */
  function Param(q: Query, name: string): (v: Option<string>)
    ensures v.None? <==> forall i :: 0 <= i < |q| ==> q[i].0 != name
    ensures v.Some? ==> exists i :: 0 <= i < |q| && q[i] == (name, v.value)
  {
    if |q| == 0 then None
    else if q[0].0 == name then Some(q[0].1)
    else
      var v := Param(q[1..], name);
      assert forall i :: 1 <= i < |q| ==> q[i] == q[1..][i - 1];
      v
  }

  /** One `name=value` piece: the name runs up to the first `=`; a piece without `=`
      has an empty value. */
  function PairOf(piece: string): (p: (string, string))
    ensures '=' !in p.0
    ensures piece == if '=' in piece then p.0 + "=" + p.1 else p.0
    ensures '=' !in piece ==> p.1 == ""
  {
    var k := Strings.Find(piece, '=');
    (piece[..k], if k < |piece| then piece[k + 1..] else "")
  }

  /** The query string of a URL, as `location.search` gives it: the fragment (from the
      first `#`) is cut off first, and the query is what follows the first `?` of the
      rest. A `?` inside the fragment starts no query. */
  function QueryString(url: string): (query: string)
    ensures '#' !in query
    ensures var u := url[..Strings.Find(url, '#')];
            && ('?' in u ==> query == u[Strings.Find(u, '?') + 1..])
            && ('?' !in u ==> query == "")
  {
    var u := url[..Strings.Find(url, '#')];
    var i := Strings.Find(u, '?');
    if i == |u| then "" else u[i + 1..]
  }

  /** A link whose only `?` lies in its fragment carries no parameters, so the page
      sends nothing, whatever the session: `/reservation#x?action=confirmed&reservationId=abc`
      is not a confirmation link. */
  lemma FragmentIsNotQuery(page: string, fragment: string, session: Session)
    requires '?' !in page && '#' !in page && |fragment| > 0 && fragment[0] == '#'
    ensures QueryString(page + fragment) == ""
    ensures ParseQuery(page + fragment) == []
    ensures Decide(ParseQuery(page + fragment), session) == Step(false, None)
  {
    var url := page + fragment;
    Strings.FindAppend(page, fragment, '#');
    assert url[..Strings.Find(url, '#')] == page;
    assert Strings.Split("", '&') == [""];
  }

  /** The parameters of a URL: its query string split on `&`, empty pieces skipped.
      Percent-decoding is not modelled. */
  function ParseQuery(url: string): (q: Query)
    ensures forall i :: 0 <= i < |q| ==> '=' !in q[i].0 && '&' !in q[i].0 && '&' !in q[i].1
    ensures '?' !in url ==> q == []
  {
    var pieces := Seqs.Filter(Strings.Split(QueryString(url), '&'), Strings.NonEmpty);
    forall i | 0 <= i < |pieces|
      ensures '&' !in pieces[i]
    {
      Seqs.FilterMember(Strings.Split(QueryString(url), '&'), Strings.NonEmpty, pieces[i]);
    }
    seq(|pieces|, i requires 0 <= i < |pieces| => PairOf(pieces[i]))
  }

  /** `searchParams.get('action') || null`. */
  function ActionOf(q: Query): (a: Option<string>)
    ensures a.Some? ==> a.value != "" && exists i :: 0 <= i < |q| && q[i] == ("action", a.value)
    ensures (forall i :: 0 <= i < |q| ==> q[i].0 != "action") ==> a.None?
    ensures a.None? ==> Param(q, "action") in {None, Some("")}
  {
    if Truthy(Param(q, "action")) then Param(q, "action") else None
  }

  /** `searchParams.get('id') || searchParams.get('reservationId') || ''`. */
  function ReservationIdOf(q: Query): (id: string)
    ensures Truthy(Param(q, "id")) ==> id == Param(q, "id").value
    ensures (forall i :: 0 <= i < |q| ==> q[i].0 != "id" && q[i].0 != "reservationId") ==> id == ""
  {
    OrElse(Param(q, "id"), OrElse(Param(q, "reservationId"), ""))
  }

  /** A non-empty reservation id is the value of an `id` or a `reservationId` pair. */
  lemma ReservationIdFromPair(q: Query)
    ensures ReservationIdOf(q) != "" ==>
      exists i :: 0 <= i < |q| && q[i].1 == ReservationIdOf(q) && (q[i].0 == "id" || q[i].0 == "reservationId")
  {
  }

  /** An action and an id are present and the action is one of the two the links carry:
      exactly when the status the page would send is the one the action names. */
  function CanProceed(q: Query): (ok: bool)
    ensures ok <==> && ActionOf(q).Some? && ReservationIdOf(q) != ""
                    && StatusName(NextStatus(ActionOf(q).value)) == ActionOf(q).value
  {
    && ActionOf(q).Some?
    && ReservationIdOf(q) != ""
    && (ActionOf(q).value == "confirmed" || ActionOf(q).value == "cancelled")
  }

  /** `action === 'confirmed' ? 'confirmed' : 'cancelled'`. */
  function NextStatus(action: string): (st: Status)
    ensures st == Confirmed || st == Cancelled
    ensures action == "confirmed" || action == "cancelled" <==> StatusName(st) == action
  {
    if action == "confirmed" then Confirmed else Cancelled
  }

  datatype Session = Authenticated | Unauthenticated | Loading

  /** The request `performUpdate` sends: `PUT /api/reservation/<id>` with `{ status }`. */
  datatype PutRequest = PutRequest(id: string, status: Status)

  /** What the page's effects do for a query and a session state. */
  datatype Step = Step(loginOpen: bool, request: Option<PutRequest>)

  /** The two effects: open the login dialog when signed out, send the update when
      signed in; nothing happens while the session loads or the link is unusable. */
  function Decide(q: Query, session: Session): (st: Step)
    ensures st.loginOpen <==> CanProceed(q) && session == Unauthenticated
    ensures st.request.Some? <==> CanProceed(q) && session == Authenticated
    ensures !(st.loginOpen && st.request.Some?)
    ensures st.request.Some? ==> st.request.value.id == ReservationIdOf(q) != ""
    ensures st.request.Some? ==>
      (st.request.value.status == Confirmed <==> ActionOf(q) == Some("confirmed"))
    ensures st.request.Some? ==>
      (st.request.value.status == Cancelled <==> ActionOf(q) == Some("cancelled"))
  {
    if !CanProceed(q) then Step(false, None)
    else
      match session
      case Unauthenticated => Step(true, None)
      case Authenticated => Step(false, Some(PutRequest(ReservationIdOf(q), NextStatus(ActionOf(q).value))))
      case Loading => Step(false, None)
  }

  /** The outcome of the `fetch`: a response, or a thrown network error. */
  datatype Fetched = Reply(response: Response<Reservation>) | NetworkError(message: string)

  datatype Notice = Notice(message: string, error: string)

  /** The notice after the update: a success message matching the action for a 2xx
      response, otherwise the response's error text (or a fallback) and no message. */
  function Finish(action: string, f: Fetched): (n: Notice)
    ensures n.message != "" <==> f.Reply? && f.response.Ok()
    ensures n.error != "" <==> !(f.Reply? && f.response.Ok())
    ensures n.message != "" ==>
      n.message == if action == "confirmed" then "Reservation confirmed successfully."
                   else "Reservation cancelled successfully."
    ensures f.Reply? && f.response.Fail? && !f.response.Ok() && f.response.error != "" ==>
      n.error == f.response.error
  {
    match f
    case NetworkError(m) => Notice("", ErrorText(m, "Something went wrong while updating reservation"))
    case Reply(res) =>
      if res.Ok() then
        Notice(if action == "confirmed" then "Reservation confirmed successfully."
               else "Reservation cancelled successfully.", "")
      else
        var err := if res.Fail? && res.error != "" then res.error else "Failed to update reservation";
        Notice("", ErrorText(err, "Something went wrong while updating reservation"))
  }

  /** Firestore-style document ids: ASCII letters and digits. */
  predicate PlainId(id: string) {
    forall i :: 0 <= i < |id| ==> ('a' <= id[i] <= 'z' || 'A' <= id[i] <= 'Z' || '0' <= id[i] <= '9')
  }

  /** The query of a notification link names the action and the reservation, and no `id`
      parameter, provided action and id are plain letters and digits. */
  lemma LinkQuery(action: string, id: string)
    requires action != "" && PlainId(action) && PlainId(id)
    ensures ParseQuery(ReservationRoutes.ActionLink(action, id)) == [("action", action), ("reservationId", id)]
  {
    LinkShape(action, id);
    PlainIdAvoids(action);
    PlainIdAvoids(id);
    PageUrlPlain();
    ParseTwo(ReservationRoutes.ReservationPageUrl, "action", action, "reservationId", id);
  }

  /** The confirmation page address holds neither `?` nor `#`. */
  lemma PageUrlPlain()
    ensures '?' !in ReservationRoutes.ReservationPageUrl && '#' !in ReservationRoutes.ReservationPageUrl
  {
    var u := ReservationRoutes.ReservationPageUrl;
    assert forall i :: 0 <= i < |u| ==> u[i] != '?' && u[i] != '#';
  }

  /** A notification link is the page address, `?`, and two `name=value` pieces. */
  lemma LinkShape(action: string, id: string)
    ensures ReservationRoutes.ActionLink(action, id)
         == ReservationRoutes.ReservationPageUrl + ['?'] + (("action" + "=" + action) + ['&'] + ("reservationId" + "=" + id))
  {
  }

  /** The parameters of `site?n1=v1&n2=v2` are those two pairs, when the names hold no
      delimiter and the values hold neither `&` nor `#`. */
  lemma ParseTwo(site: string, n1: string, v1: string, n2: string, v2: string)
    requires '?' !in site && '#' !in site && n1 != "" && n2 != ""
    requires '=' !in n1 && '&' !in n1 && '#' !in n1 && '=' !in n2 && '&' !in n2 && '#' !in n2
    requires '&' !in v1 && '#' !in v1 && '&' !in v2 && '#' !in v2
    ensures ParseQuery(site + ['?'] + ((n1 + "=" + v1) + ['&'] + (n2 + "=" + v2))) == [(n1, v1), (n2, v2)]
  {
    var first := n1 + "=" + v1;
    var second := n2 + "=" + v2;
    var rest := first + ['&'] + second;
    assert '&' !in first && '#' !in first && '&' !in second && '#' !in second;
    assert '#' !in rest;
    QueryStringAfter(site, rest);
    TwoPieces(first, second);
    PairAt(n1, v1);
    PairAt(n2, v2);
  }

  /** The query string of `site?rest` is `rest`, when `site` has no `?` and `rest` no `#`. */
  lemma QueryStringAfter(site: string, rest: string)
    requires '?' !in site && '#' !in site && '#' !in rest
    ensures QueryString(site + ['?'] + rest) == rest
  {
    var url := site + ['?'] + rest;
    assert url == site + (['?'] + rest);
    assert '#' !in url;
    assert url[..Strings.Find(url, '#')] == url;
    Strings.FindAppend(site, ['?'] + rest, '?');
    assert url[|site| + 1..] == rest;
  }

  /** Two non-empty pieces without `&`, joined by `&`, parse back as those pieces. */
  lemma TwoPieces(first: string, second: string)
    requires first != "" && second != "" && '&' !in first && '&' !in second
    ensures Seqs.Filter(Strings.Split(first + ['&'] + second, '&'), Strings.NonEmpty) == [first, second]
  {
    Strings.SplitPrefix(first, second, '&');
    Strings.SplitNoSep(second, '&');
    Seqs.FilterKeepsAll([first, second], Strings.NonEmpty);
  }

  /** `name=value` with no `=` in the name splits at that `=`. */
  lemma PairAt(name: string, value: string)
    requires '=' !in name
    ensures PairOf(name + "=" + value) == (name, value)
  {
    Strings.FindAppend(name, "=" + value, '=');
    assert name + "=" + value == name + ("=" + value);
  }

  /** Opening a notification link: signed out, the login dialog opens and nothing is
      sent; signed in, the reservation named by the link gets the link's status, and the
      page reports the action as done. */
  lemma FollowLink(s: Store, id: string, action: string, now: int)
    requires WellFormed(s) && id in s.docs && id != "" && PlainId(id)
    requires action == "confirmed" || action == "cancelled"
    ensures Decide(ParseQuery(ReservationRoutes.ActionLink(action, id)), Unauthenticated) == Step(true, None)
    ensures Decide(ParseQuery(ReservationRoutes.ActionLink(action, id)), Authenticated)
         == Step(false, Some(PutRequest(id, NextStatus(action))))
    ensures var o := ReservationRoutes.PutReservation(Up(s), id, Parsed(StatusPatch(NextStatus(action))), now);
            && o.response == Json(200, s.docs[id].(status := NextStatus(action), updatedAt := Some(now)))
            && Finish(action, Reply(o.response)).error == ""
            && Finish(action, Reply(o.response)).message
               == if action == "confirmed" then "Reservation confirmed successfully."
                  else "Reservation cancelled successfully."
  {
    LinkDecides(action, id);
    StatusPatchOnlyStatus(s.docs[id], NextStatus(action), now);
  }

  /** What the page does with a notification link, by session state. */
  lemma LinkDecides(action: string, id: string)
    requires id != "" && PlainId(id)
    requires action == "confirmed" || action == "cancelled"
    ensures Decide(ParseQuery(ReservationRoutes.ActionLink(action, id)), Unauthenticated) == Step(true, None)
    ensures Decide(ParseQuery(ReservationRoutes.ActionLink(action, id)), Authenticated)
         == Step(false, Some(PutRequest(id, NextStatus(action))))
  {
    LinkQuery(action, id);
    DecideLinkQuery(action, id);
  }

  lemma DecideLinkQuery(action: string, id: string)
    requires id != ""
    requires action == "confirmed" || action == "cancelled"
    ensures Decide([("action", action), ("reservationId", id)], Unauthenticated) == Step(true, None)
    ensures Decide([("action", action), ("reservationId", id)], Authenticated)
         == Step(false, Some(PutRequest(id, NextStatus(action))))
  {
    var q := [("action", action), ("reservationId", id)];
    assert Param(q, "action") == Some(action);
    assert Param(q, "id") == None;
    assert Param(q, "reservationId") == Some(id);
    assert ReservationIdOf(q) == id;
    assert CanProceed(q);
  }

  /** A link naming a reservation that no longer exists reaches the endpoint and ends
      in the endpoint's "Not found" error, with no success message. */
  lemma FollowStaleLink(s: Store, id: string, action: string, now: int)
    requires WellFormed(s) && id !in s.docs
    requires action == "confirmed" || action == "cancelled"
    ensures var o := ReservationRoutes.PutReservation(Up(s), id, Parsed(StatusPatch(NextStatus(action))), now);
            && o.store == Up(s)
            && Finish(action, Reply(o.response)) == Notice("", "Not found")
  {
  }

  /** End to end: a booking with an admin address configured mails a confirmation link,
      and an admin who follows it signed in confirms exactly that reservation. */
  lemma BookThenConfirm(s: Store, payload: NewReservation, newId: string, now: int, at: nat, later: int,
                        admin: Option<string>, delivered: bool)
    requires WellFormed(s) && newId !in s.docs && at <= |s.order| && newId != "" && PlainId(newId) && Truthy(admin)
    ensures var o := ReservationRoutes.PostCreate(Up(s), Parsed(payload), newId, now, at, admin, delivered);
            && o.attempted.Some? && o.store.Up? && WellFormed(o.store.value)
            && Decide(ParseQuery(o.attempted.value.confirmLink), Authenticated)
               == Step(false, Some(PutRequest(newId, Confirmed)))
            && ReservationRoutes.PutReservation(o.store, newId, Parsed(StatusPatch(Confirmed)), later).response.status == 200
            && ReservationRoutes.PutReservation(o.store, newId, Parsed(StatusPatch(Confirmed)), later).response.value.status == Confirmed
  {
    var o := ReservationRoutes.PostCreate(Up(s), Parsed(payload), newId, now, at, admin, delivered);
    FollowLink(o.store.value, newId, "confirmed", later);
  }

  /** A plain id holds none of the URL delimiters. */
  lemma PlainIdAvoids(id: string)
    requires PlainId(id)
    ensures '#' !in id && '&' !in id && '=' !in id && '?' !in id
  {
    forall i | 0 <= i < |id|
      ensures id[i] != '#' && id[i] != '&' && id[i] != '=' && id[i] != '?'
    {
    }
  }
}

=== FILE: reservation_routes.dfy ===
/** The reservation HTTP endpoints: the availability check, the listing with its
    query defaults, the booking endpoint with its admin notification, and the
    update endpoint the confirmation page calls. */
module ReservationRoutes {
  import opened Wrappers
  import opened Http
  import opened Reservations
  import Strings
  import Seqs

  /** The store as the routes see it; when reachable it is well formed. */
  predicate Usable(db: Db<Store>) {
    db.Up? ==> WellFormed(db.value)
  }

  // ---------------------------------------------------------------------------
  // POST /api/reservation/check

  /** The check request body. A date is `None` when it is missing or empty. */
  datatype CheckBody = CheckBody(
    apartmentId: Option<string>, roomId: Option<string>, checkIn: Option<int>, checkOut: Option<int>)

  /** The availability check: both dates are required; the query forwarded to the
      service carries the apartment id and the dates only. */
  function PostCheck(db: Db<Store>, body: Json<CheckBody>): (r: Response<Availability>)
    requires Usable(db)
    ensures r.status == 400 <==> body.Parsed? && (body.value.checkIn.None? || body.value.checkOut.None?)
    ensures r.status == 500 <==> body.Malformed? || (r.status != 400 && db.Down?)
    ensures r.status == 200 <==> r.Json?
    ensures r.Json? ==> db.Up? && r.value == CheckAvailability(db.value,
              AvailabilityQuery(body.value.apartmentId, None, body.value.checkIn.value, body.value.checkOut.value))
  {
    match body
    case Malformed(e) => Fail(500, ErrorText(e, "Failed to check availability"))
    case Parsed(b) =>
      if b.checkIn.None? || b.checkOut.None? then Fail(400, "checkIn and checkOut are required")
      else
        match db
        case Down(e) => Fail(500, ErrorText(e, "Failed to check availability"))
        case Up(s) => Json(200, CheckAvailability(s, AvailabilityQuery(b.apartmentId, None, b.checkIn.value, b.checkOut.value)))
  }

  /** A room id in the request changes nothing: the check is never room-scoped. */
  lemma CheckIgnoresRoom(db: Db<Store>, b: CheckBody, room: Option<string>)
    requires Usable(db)
    ensures PostCheck(db, Parsed(b.(roomId := room))) == PostCheck(db, Parsed(b))
  {
  }

  /** A missing date is refused before the store is consulted. */
  lemma CheckMissingDate(db1: Db<Store>, db2: Db<Store>, b: CheckBody)
    requires Usable(db1) && Usable(db2)
    requires b.checkIn.None? || b.checkOut.None?
    ensures PostCheck(db1, Parsed(b)) == PostCheck(db2, Parsed(b))
    ensures PostCheck(db1, Parsed(b)).status == 400
  {
  }

  /** Any two given dates reach the service, even a check-out at or before the check-in;
      such an improper range is reported as conflicting with every stored stay of the
      apartment that surrounds it, though the range itself holds no night. */
  lemma CheckAcceptsReversedRange(s: Store, k: string, checkIn: int, checkOut: int)
    requires WellFormed(s) && k in s.docs
    requires s.docs[k].checkIn < checkOut <= checkIn < s.docs[k].checkOut
    ensures var r := PostCheck(Up(s), Parsed(CheckBody(Some(s.docs[k].apartmentId), None, Some(checkIn), Some(checkOut))));
            && r.Json? && r.status == 200
            && !r.value.available && s.docs[k] in r.value.conflicts
  {
    var stay := s.docs[k];
    var q := AvailabilityQuery(Some(stay.apartmentId), None, checkIn, checkOut);
    DocStore.ValuesMembers(s, stay);
    ImproperRangesOverlap(checkIn, checkOut, stay.checkIn, stay.checkOut);
    assert InScope(stay, q) && Conflicts(stay, q);
  }

  // ---------------------------------------------------------------------------
  // GET /api/reservation

  /** The list query string. A parameter is `None` when absent or empty; numbers are
      taken as already converted. */
  datatype ListQuery = ListQuery(
    page: Option<int>, limit: Option<int>, keyword: Option<string>, tags: Option<string>,
    apartmentId: Option<string>, roomId: Option<string>)

  datatype ListPage = ListPage(
    reservations: seq<Reservation>, page: int, limit: int, total: nat,
    totalPages: Seqs.JsNumber, keyword: Option<string>, tags: Option<seq<string>>)

  /** `tags.split(',').filter(Boolean)`. */
  function ParseTags(t: string): (tags: seq<string>)
    ensures forall i :: 0 <= i < |tags| ==> tags[i] != "" && ',' !in tags[i]
  {
    var parts := Strings.Split(t, ',');
    var tags := Seqs.Filter(parts, Strings.NonEmpty);
    forall i | 0 <= i < |tags|
      ensures tags[i] != "" && ',' !in tags[i]
    {
      Seqs.FilterMember(parts, Strings.NonEmpty, tags[i]);
    }
    tags
  }

  /** Tags written comma-separated are parsed back exactly. */
  lemma ParseTagsJoin(tags: seq<string>)
    requires |tags| >= 1
    requires forall i :: 0 <= i < |tags| ==> tags[i] != "" && ',' !in tags[i]
    ensures ParseTags(Strings.Join(tags, ',')) == tags
  {
    Strings.SplitJoin(tags, ',');
    Seqs.FilterKeepsAll(tags, Strings.NonEmpty);
  }

  /** Parsing drops exactly the empty pieces: a list without stray commas joins back
      to the parameter. */
  lemma ParseTagsSplit(t: string)
    requires forall i :: 0 <= i < |Strings.Split(t, ',')| ==> Strings.Split(t, ',')[i] != ""
    ensures Strings.Join(ParseTags(t), ',') == t
  {
    Seqs.FilterKeepsAll(Strings.Split(t, ','), Strings.NonEmpty);
    Strings.JoinSplit(t, ',');
  }

  /** The service parameters the list endpoint passes: `order` is never passed. */
  function ListParamsOf(q: ListQuery): ListParams {
    var tags := if Truthy(q.tags) then Some(ParseTags(q.tags.value)) else None;
    ListParams(Some(q.page.GetOr(1)), Some(q.limit.GetOr(10)),
               ListFilter(q.keyword, tags, q.apartmentId, q.roomId, None))
  }

  /** `GET /api/reservation`: the requested page of the listing, with
      `totalPages = Math.ceil(total / limit) || 1`. */
  function GetList(db: Db<Store>, q: ListQuery): (r: Response<ListPage>)
    requires Usable(db)
    ensures r.Json? <==> db.Up?
    ensures r.Json? ==> r.status == 200
    ensures r.Fail? ==> r.status == 500
    ensures r.Json? ==> var res := List(db.value, ListParamsOf(q));
              && r.value.reservations == res.reservations
              && r.value.total == res.total
              && r.value.totalPages == Seqs.CeilDiv(res.total, r.value.limit).OrOne()
              && r.value.page == PageNumber(ListParamsOf(q))
              && r.value.limit == LimitOf(ListParamsOf(q))
    ensures r.Json? ==> && r.value.keyword == q.keyword
                        && r.value.tags == (if Truthy(q.tags) then Some(ParseTags(q.tags.value)) else None)
  {
    match db
    case Down(e) => Fail(500, ErrorText(e, "Failed to fetch reservations"))
    case Up(s) =>
      var p := ListParamsOf(q);
      var res := List(s, p);
      Json(200, ListPage(res.reservations, q.page.GetOr(1), q.limit.GetOr(10), res.total,
                         Seqs.CeilDiv(res.total, q.limit.GetOr(10)).OrOne(),
                         q.keyword, p.filter.tags))
  }

  /** Without page and limit parameters the first ten reservations, newest first, are
      returned; an empty tags parameter sets no tag filter. */
  lemma GetListDefaults(s: Store, q: ListQuery)
    requires WellFormed(s) && q.page.None? && q.limit.None?
    ensures var r := GetList(Up(s), q);
            && r.Json? && r.value.page == 1 && r.value.limit == 10
            && r.value.reservations == Selected(s, ListParamsOf(q).filter)[..Seqs.Min(10, r.value.total)]
            && OrderOf(ListParamsOf(q).filter) == Seqs.Desc
    ensures !Truthy(q.tags) ==> ListParamsOf(q).filter.tags.None?
  {
    Seqs.PageWindow(Selected(s, ListParamsOf(q).filter), 1, 10);
  }

  /** With a positive limit, `totalPages` is at least 1 and reading pages `1..totalPages`
      returns every matching reservation exactly once. */
  lemma TotalPagesCover(s: Store, q: ListQuery)
    requires WellFormed(s) && q.limit.GetOr(10) > 0
    ensures var r := GetList(Up(s), q);
            && r.Json? && r.value.totalPages.Finite? && r.value.totalPages.n >= 1
            && ListPages(s, ListParamsOf(q), r.value.totalPages.n) == Selected(s, ListParamsOf(q).filter)
  {
    PageCountCoversListing(s, ListParamsOf(q));
  }

  lemma PageCountCoversListing(s: Store, p: ListParams)
    requires WellFormed(s) && LimitOf(p) > 0
    ensures var pages := Seqs.CeilDiv(List(s, p).total, LimitOf(p)).OrOne();
            && pages.Finite? && pages.n >= 1
            && ListPages(s, p, pages.n) == Selected(s, p.filter)
  {
    var total := List(s, p).total;
    Seqs.PageCountAtLeastOne(total, LimitOf(p));
    ListPagesComplete(s, p, Seqs.CeilDiv(total, LimitOf(p)).OrOne().n);
  }

  // ---------------------------------------------------------------------------
  // POST /api/reservation

  /** One day in milliseconds. */
  const Day: int := 1000 * 60 * 60 * 24

  /** `Math.ceil(Math.max(0, checkOut - checkIn) / day)`: the least number of whole days
      covering the stay, and 0 for an empty or reversed one. */
  function Nights(checkIn: int, checkOut: int): (n: nat)
    ensures checkOut <= checkIn ==> n == 0
    ensures checkOut > checkIn ==> n >= 1 && (n - 1) * Day < checkOut - checkIn <= n * Day
  {
    var diff := if checkOut - checkIn > 0 then checkOut - checkIn else 0;
    Seqs.CeilDiv(diff, Day).n
  }

  /** The public site, and the confirmation page the notification links point to. */
  const SiteOrigin: string := "https://presidentialserviceapartments.ng"
  const ReservationPageUrl: string := SiteOrigin + "/reservation"

  /** A notification link: the confirmation page with the action and the reservation id. */
  function ActionLink(action: string, id: string): (url: string)
    ensures |url| == |ReservationPageUrl| + |"?action="| + |action| + |"&reservationId="| + |id|
    ensures url[..|ReservationPageUrl|] == ReservationPageUrl && url[|ReservationPageUrl|] == '?'
    ensures url[|ReservationPageUrl| + 8..|ReservationPageUrl| + 8 + |action|] == action
    ensures url[|url| - |id|..] == id
  {
    ReservationPageUrl + "?action=" + action + "&reservationId=" + id
  }

  function ConfirmLink(id: string): string {
    ActionLink("confirmed", id)
  }

  function CancelLink(id: string): string {
    ActionLink("cancelled", id)
  }

  /** The notification sent to the admin address (the HTML layout is not modelled). */
  datatype Mail = Mail(to: string, guestName: string, nights: nat, confirmLink: string, cancelLink: string)

  function MailFor(to: string, r: Reservation): (m: Mail)
    ensures m.to == to && m.guestName != ""
    ensures r.guest.name != "" ==> m.guestName == r.guest.name
    ensures m.confirmLink != m.cancelLink
  {
    Mail(to, if r.guest.name != "" then r.guest.name else "Guest", Nights(r.checkIn, r.checkOut),
         ConfirmLink(r.id), CancelLink(r.id))
  }

  datatype CreatedBody = CreatedBody(reservation: Reservation, emailSent: bool)

  /** What the booking endpoint did: its response, the store afterwards, the mail it
      attempted, and whether it logged a delivery failure or a missing-address warning. */
  datatype CreateOutcome = CreateOutcome(
    response: Response<CreatedBody>, store: Db<Store>, attempted: Option<Mail>,
    failureLogged: bool, warned: bool)

  /** `POST /api/reservation`: create the reservation, notify the admin address when one
      is configured, and answer 201 whatever became of the mail. `delivered` is whether
      the mail transport accepted the message. */
  function PostCreate(db: Db<Store>, body: Json<NewReservation>, newId: string, now: int, at: nat,
                      adminEmail: Option<string>, delivered: bool): (o: CreateOutcome)
    requires Usable(db) && (db.Up? ==> newId !in db.value.docs && at <= |db.value.order|)
    ensures o.response.status == 201 <==> body.Parsed? && db.Up?
    ensures o.response.status != 201 ==>
      o.response.Fail? && o.response.status == 500 && o.store == db && o.attempted.None?
    ensures o.response.status == 201 ==>
      var c := Create(db.value, body.value, newId, now, at);
      && o.response == Json(201, CreatedBody(c.reservation, Truthy(adminEmail)))
      && o.store == Up(c.store)
    ensures o.attempted.Some? <==> o.response.status == 201 && Truthy(adminEmail)
    ensures o.attempted.Some? ==>
      && o.attempted.value.to == adminEmail.value
      && o.attempted.value.confirmLink == ConfirmLink(newId)
      && o.attempted.value.cancelLink == CancelLink(newId)
    ensures o.failureLogged <==> o.attempted.Some? && !delivered
  {
    match body
    case Malformed(e) => CreateOutcome(Fail(500, ErrorText(e, "Failed to create reservation")), db, None, false, false)
    case Parsed(payload) =>
      match db
      case Down(e) => CreateOutcome(Fail(500, ErrorText(e, "Failed to create reservation")), db, None, false, false)
      case Up(s) =>
        var c := Create(s, payload, newId, now, at);
        var mail := if Truthy(adminEmail) then Some(MailFor(adminEmail.value, c.reservation)) else None;
        CreateOutcome(Json(201, CreatedBody(c.reservation, Truthy(adminEmail))), Up(c.store), mail,
                      mail.Some? && !delivered, !Truthy(adminEmail))
  }

  /** A delivery failure is only logged: the response, the store and the attempted mail
      are the same whether or not the mail went out. */
  lemma DeliveryIrrelevant(db: Db<Store>, body: Json<NewReservation>, newId: string, now: int, at: nat,
                           adminEmail: Option<string>)
    requires Usable(db) && (db.Up? ==> newId !in db.value.docs && at <= |db.value.order|)
    ensures var ok := PostCreate(db, body, newId, now, at, adminEmail, true);
            var failed := PostCreate(db, body, newId, now, at, adminEmail, false);
            ok.response == failed.response && ok.store == failed.store && ok.attempted == failed.attempted
  {
  }

  /** The mail's night count for a stay of `k` whole days is `k`; a stay that ends
      part-way into a day counts that day. */
  lemma NightsOfWholeDays(checkIn: int, k: nat)
    ensures Nights(checkIn, checkIn + k * Day) == k
    ensures Nights(checkIn, checkIn + k * Day + 1) == k + 1
  {
  }

  // ---------------------------------------------------------------------------
  // PUT /api/reservation/[id]

  datatype PutOutcome = PutOutcome(response: Response<Reservation>, store: Db<Store>)

  /** `PUT /api/reservation/[id]`: 404 for an unknown id, otherwise the merged reservation.
      The route wraps it as `{ reservation: updated }`; a 200 answer's value here is that
      wrapped reservation. */
  function PutReservation(db: Db<Store>, id: string, body: Json<Patch>, now: int): (o: PutOutcome)
    requires Usable(db)
    ensures Usable(o.store)
    ensures o.response.status == 200 <==> body.Parsed? && db.Up? && id in db.value.docs
    ensures o.response.status == 404 <==> body.Parsed? && db.Up? && id !in db.value.docs
    ensures o.response.status == 500 <==> body.Malformed? || db.Down?
    ensures o.response.status != 200 ==> o.store == db && o.response.Fail?
    ensures o.response.status == 200 ==>
      && o.response.Json?
      && o.response.value == Merge(db.value.docs[id], body.value, now)
      && o.store == Up(Update(db.value, id, body.value, now).store)
  {
    match body
    case Malformed(e) => PutOutcome(Fail(500, ErrorText(e, "Failed to update reservation")), db)
    case Parsed(patch) =>
      match db
      case Down(e) => PutOutcome(Fail(500, ErrorText(e, "Failed to update reservation")), db)
      case Up(s) =>
        var u := Update(s, id, patch, now);
        if u.reservation.None? then PutOutcome(Fail(404, "Not found"), db)
        else PutOutcome(Json(200, u.reservation.value), Up(u.store))
  }
}

=== FILE: reservation_service.dfy ===
/** The reservation engine: the reservation record, the half-open overlap rule,
    the availability scan, and the repository operations (list, get, create,
    update, delete) over the reservation collection. */
module Reservations {
  import opened Wrappers
  import opened Strings
  import Seqs
  import DocStore

  datatype Status = Pending | Confirmed | Cancelled | Completed

  /** The string each status is stored and sent as. */
  function StatusName(st: Status): string {
    match st
    case Pending => "pending"
    case Confirmed => "confirmed"
    case Cancelled => "cancelled"
    case Completed => "completed"
  }

  datatype Guest = Guest(name: string, email: Option<string>, phone: Option<string>)

  /** A stored reservation. Dates and timestamps are epoch milliseconds. */
  datatype Reservation = Reservation(
    id: string,
    apartmentId: string,
    roomId: Option<string>,
    guest: Guest,
    checkIn: int,
    checkOut: int,
    guestsCount: Option<int>,
    notes: Option<string>,
    status: Status,
    totalAmount: Option<int>,
    currency: Option<string>,
    tags: Option<seq<string>>,
    createdAt: Option<int>,
    updatedAt: Option<int>)

  type Store = DocStore.Collection<Reservation>

  /** A well-formed reservation collection: a valid listing, and every document
      carries its own key as `id` (reads return `{...data, id: doc.id}`). */
  predicate WellFormed(s: Store) {
    DocStore.Valid(s) && forall k | k in s.docs :: s.docs[k].id == k
  }

  /** A full read of the collection. */
  function All(s: Store): seq<Reservation>
    requires WellFormed(s)
  {
    DocStore.Values(s)
  }

  // ---------------------------------------------------------------------------
  // Overlap

  /** `overlaps`: the half-open ranges `[aStart, aEnd)` and `[bStart, bEnd)` intersect.
      A range that ends where (or before) the other begins never overlaps it; for proper
      ranges, overlapping means the later check-in lies inside both ranges. */
  function Overlaps(aStart: int, aEnd: int, bStart: int, bEnd: int): (o: bool)
    ensures aEnd <= bStart || bEnd <= aStart ==> !o
    ensures aStart < aEnd && bStart < bEnd ==>
      (o <==> var later := if aStart < bStart then bStart else aStart;
              Within(later, aStart, aEnd) && Within(later, bStart, bEnd))
  {
    aStart < bEnd && bStart < aEnd
  }

  /** Instant `t` lies in the half-open range `[start, end)`. */
  predicate Within(t: int, start: int, end: int) {
    start <= t < end
  }

  /** For proper ranges (start before end), overlapping means some instant lies in both. */
  lemma OverlapsIffSharedInstant(aStart: int, aEnd: int, bStart: int, bEnd: int)
    requires aStart < aEnd && bStart < bEnd
    ensures Overlaps(aStart, aEnd, bStart, bEnd)
        <==> exists t :: Within(t, aStart, aEnd) && Within(t, bStart, bEnd)
  {
    if Overlaps(aStart, aEnd, bStart, bEnd) {
      var t := if aStart < bStart then bStart else aStart;
      assert Within(t, aStart, aEnd) && Within(t, bStart, bEnd);
    }
  }

  /** Overlap is symmetric, a proper range overlaps itself, and ranges that only touch
      (one ends where the other starts) do not overlap: back-to-back stays are allowed. */
  lemma OverlapsFacts(aStart: int, aEnd: int, bStart: int, bEnd: int)
    ensures Overlaps(aStart, aEnd, bStart, bEnd) == Overlaps(bStart, bEnd, aStart, aEnd)
    ensures aStart < aEnd ==> Overlaps(aStart, aEnd, aStart, aEnd)
    ensures aEnd == bStart && aStart <= aEnd ==> !Overlaps(aStart, aEnd, bStart, bEnd)
  {
  }

  /** The rule does not reject improper ranges: a reversed or empty range
      `[checkIn, checkOut)` (check-out at or before check-in) contains no instant at all,
      yet it overlaps every stay `[start, end)` with `start < checkOut` and `checkIn < end`. */
  lemma ImproperRangesOverlap(checkIn: int, checkOut: int, start: int, end: int)
    requires checkOut <= checkIn && start < checkOut && checkIn < end
    ensures forall t :: !Within(t, checkIn, checkOut)
    ensures Overlaps(start, end, checkIn, checkOut)
  {
  }

  // ---------------------------------------------------------------------------
  // Availability

  datatype AvailabilityQuery = AvailabilityQuery(
    apartmentId: Option<string>, roomId: Option<string>, checkIn: int, checkOut: int)

  datatype Availability = Availability(available: bool, conflicts: seq<Reservation>)

  /** The scoping rule: a given room id wins over a given apartment id; with neither,
      every reservation is a candidate. The status is never consulted. */
  predicate InScope(r: Reservation, q: AvailabilityQuery) {
    if Truthy(q.roomId) then r.roomId == q.roomId
    else if Truthy(q.apartmentId) then r.apartmentId == q.apartmentId.value
    else true
  }

  predicate Conflicts(r: Reservation, q: AvailabilityQuery) {
    Overlaps(r.checkIn, r.checkOut, q.checkIn, q.checkOut)
  }

  function ScopeOf(q: AvailabilityQuery): Reservation -> bool {
    r => InScope(r, q)
  }

  function ConflictOf(q: AvailabilityQuery): Reservation -> bool {
    r => Conflicts(r, q)
  }

  /** `checkAvailability`: the in-scope reservations whose stay overlaps the requested
      range, listed in store order; the range is available when there are none. */
  function CheckAvailability(s: Store, q: AvailabilityQuery): (a: Availability)
    requires WellFormed(s)
    ensures a.available <==> |a.conflicts| == 0
    ensures forall r :: r in a.conflicts <==> r in All(s) && InScope(r, q) && Conflicts(r, q)
    ensures Seqs.IsSubseq(a.conflicts, All(s))
  {
    var scoped := Seqs.Filter(All(s), ScopeOf(q));
    var conflicts := Seqs.Filter(scoped, ConflictOf(q));
    forall r
      ensures r in conflicts <==> r in All(s) && InScope(r, q) && Conflicts(r, q)
    {
      Seqs.FilterMember(scoped, ConflictOf(q), r);
      Seqs.FilterMember(All(s), ScopeOf(q), r);
    }
    Seqs.FilterFilter(All(s), ScopeOf(q), ConflictOf(q));
    Seqs.FilterIsSubseq(All(s), Seqs.Both(ScopeOf(q), ConflictOf(q)));
    Availability(|conflicts| == 0, conflicts)
  }

  /** With a room id given, only reservations of that room can conflict, whatever
      apartment id comes with it. */
  lemma RoomScopeWins(s: Store, q: AvailabilityQuery, r: Reservation)
    requires WellFormed(s) && Truthy(q.roomId)
    requires r in CheckAvailability(s, q).conflicts
    ensures r.roomId == q.roomId
  {
  }

  /** A reservation of another apartment never conflicts with an apartment-scoped query. */
  lemma OtherApartmentNeverConflicts(s: Store, q: AvailabilityQuery, r: Reservation)
    requires WellFormed(s) && !Truthy(q.roomId) && Truthy(q.apartmentId)
    requires r.apartmentId != q.apartmentId.value
    ensures r !in CheckAvailability(s, q).conflicts
  {
  }

  /** The status is not consulted: a cancelled reservation in scope whose stay overlaps
      still makes the range unavailable. */
  lemma CancelledStillBlocks(s: Store, q: AvailabilityQuery, k: string)
    requires WellFormed(s) && k in s.docs
    requires s.docs[k].status == Cancelled
    requires InScope(s.docs[k], q) && Conflicts(s.docs[k], q)
    ensures !CheckAvailability(s, q).available
  {
    DocStore.ValuesMembers(s, s.docs[k]);
  }

  /** An empty scope is always available. */
  lemma EmptyScopeAvailable(s: Store, q: AvailabilityQuery)
    requires WellFormed(s)
    requires forall k | k in s.docs :: !InScope(s.docs[k], q)
    ensures CheckAvailability(s, q) == Availability(true, [])
  {
    var a := CheckAvailability(s, q);
    if |a.conflicts| > 0 {
      DocStore.ValuesMembers(s, a.conflicts[0]);
    }
  }

  // ---------------------------------------------------------------------------
  // Listing

  /** The parameters of `list`: which reservations, in which order ... */
  datatype ListFilter = ListFilter(
    keyword: Option<string>,
    tags: Option<seq<string>>,
    apartmentId: Option<string>,
    roomId: Option<string>,
    order: Option<Seqs.Direction>)

  /** ... and which page of them. */
  datatype ListParams = ListParams(page: Option<int>, limit: Option<int>, filter: ListFilter)

  datatype ListResult = ListResult(reservations: seq<Reservation>, total: nat)

  /** The sort key: `createdAt`, a missing one counting as 0. */
  function CreatedKey(r: Reservation): int {
    r.createdAt.GetOr(0)
  }

  /** Case-insensitive substring match of an already lower-cased keyword. */
  predicate KeywordHit(r: Reservation, k: string) {
    || Contains(Lower(r.guest.name), k)
    || (r.guest.email.Some? && Contains(Lower(r.guest.email.value), k))
    || (r.guest.phone.Some? && Contains(Lower(r.guest.phone.value), k))
    || (r.notes.Some? && Contains(Lower(r.notes.value), k))
  }

  predicate SharesTag(r: Reservation, tags: seq<string>) {
    exists t | t in r.tags.GetOr([]) :: t in tags
  }

  /** The four list filters, each passing everything when its parameter is absent. */
  predicate ApartmentOk(r: Reservation, p: ListFilter) {
    !Truthy(p.apartmentId) || r.apartmentId == p.apartmentId.value
  }

  predicate RoomOk(r: Reservation, p: ListFilter) {
    !Truthy(p.roomId) || r.roomId == p.roomId
  }

  predicate KeywordOk(r: Reservation, p: ListFilter) {
    !Truthy(p.keyword) || KeywordHit(r, Lower(p.keyword.value))
  }

  predicate TagsOk(r: Reservation, p: ListFilter) {
    p.tags.None? || |p.tags.value| == 0 || SharesTag(r, p.tags.value)
  }

  /** The conjunction of all list filters. */
  predicate Matches(r: Reservation, p: ListFilter) {
    ApartmentOk(r, p) && RoomOk(r, p) && KeywordOk(r, p) && TagsOk(r, p)
  }

  function OrderOf(p: ListFilter): Seqs.Direction {
    p.order.GetOr(Seqs.Desc)
  }

  function LimitOf(p: ListParams): int {
    p.limit.GetOr(10)
  }

  function PageNumber(p: ListParams): int {
    p.page.GetOr(1)
  }

  /** Every reservation, sorted by creation time in the requested direction. */
  function SortedAll(s: Store, p: ListFilter): seq<Reservation>
    requires WellFormed(s)
  {
    Seqs.SortDir(All(s), CreatedKey, OrderOf(p))
  }

  function ApartmentFilter(p: ListFilter): Reservation -> bool { r => ApartmentOk(r, p) }
  function RoomFilter(p: ListFilter): Reservation -> bool { r => RoomOk(r, p) }
  function KeywordFilter(p: ListFilter): Reservation -> bool { r => KeywordOk(r, p) }
  function TagsFilter(p: ListFilter): Reservation -> bool { r => TagsOk(r, p) }
  function MatchFilter(p: ListFilter): Reservation -> bool { r => Matches(r, p) }

  /** Reference definition of the listing before pagination: one conjunctive filter
      over the sorted collection. */
  function Selected(s: Store, p: ListFilter): seq<Reservation>
    requires WellFormed(s)
  {
    Seqs.Filter(SortedAll(s, p), MatchFilter(p))
  }

  /** The filter stages of `list`, each applied only when its parameter is given. */
  function Staged(items: seq<Reservation>, p: ListFilter): seq<Reservation> {
    var byApartment := Seqs.When(Truthy(p.apartmentId), items, ApartmentFilter(p));
    var byRoom := Seqs.When(Truthy(p.roomId), byApartment, RoomFilter(p));
    var byKeyword := Seqs.When(Truthy(p.keyword), byRoom, KeywordFilter(p));
    Seqs.When(p.tags.Some? && |p.tags.value| > 0, byKeyword, TagsFilter(p))
  }

  /** `list`: sort by `createdAt`, apply each given filter in turn, count, then cut the
      requested page. The count is taken before pagination. */
  function List(s: Store, p: ListParams): (res: ListResult)
    requires WellFormed(s)
    ensures res.total == |Selected(s, p.filter)|
    ensures res.reservations == Seqs.PageOf(Selected(s, p.filter), PageNumber(p), LimitOf(p))
  {
    var matching := Staged(SortedAll(s, p.filter), p.filter);
    StagedIsSelected(SortedAll(s, p.filter), p.filter);
    ListResult(Seqs.PageOf(matching, PageNumber(p), LimitOf(p)), |matching|)
  }

  /** The successive optional filters select exactly what their conjunction selects. */
  lemma StagedIsSelected(items: seq<Reservation>, p: ListFilter)
    ensures Staged(items, p) == Seqs.Filter(items, MatchFilter(p))
  {
    var fa, fb, fc, fd := ApartmentFilter(p), RoomFilter(p), KeywordFilter(p), TagsFilter(p);
    var a := Seqs.Filter(items, fa);
    var b := Seqs.Filter(a, fb);
    var c := Seqs.Filter(b, fc);
    Seqs.WhenIsFilter(Truthy(p.apartmentId), items, fa);
    Seqs.WhenIsFilter(Truthy(p.roomId), a, fb);
    Seqs.WhenIsFilter(Truthy(p.keyword), b, fc);
    Seqs.WhenIsFilter(p.tags.Some? && |p.tags.value| > 0, c, fd);
    ConjunctionOfStages(items, p);
  }

  lemma ConjunctionOfStages(items: seq<Reservation>, p: ListFilter)
    ensures Seqs.Filter(Seqs.Filter(Seqs.Filter(Seqs.Filter(items, ApartmentFilter(p)), RoomFilter(p)),
                                    KeywordFilter(p)), TagsFilter(p))
         == Seqs.Filter(items, MatchFilter(p))
  {
    var fa, fb, fc, fd := ApartmentFilter(p), RoomFilter(p), KeywordFilter(p), TagsFilter(p);
    Seqs.FilterFilter(items, fa, fb);
    Seqs.FilterFilter(items, Seqs.Both(fa, fb), fc);
    Seqs.FilterFilter(items, Seqs.Both(Seqs.Both(fa, fb), fc), fd);
    Seqs.FilterExt(items, Seqs.Both(Seqs.Both(Seqs.Both(fa, fb), fc), fd), MatchFilter(p));
  }

  /** The listing before pagination holds exactly the stored reservations that pass
      every given filter. */
  lemma SelectedMembers(s: Store, f: ListFilter, r: Reservation)
    requires WellFormed(s)
    ensures r in Selected(s, f) <==> r in All(s) && Matches(r, f)
  {
    Seqs.SortDirOrdered(All(s), CreatedKey, OrderOf(f));
    Seqs.FilterMember(SortedAll(s, f), MatchFilter(f), r);
    assert r in SortedAll(s, f) <==> r in multiset(SortedAll(s, f));
    assert r in All(s) <==> r in multiset(All(s));
  }

  /** The listing is ordered by creation time: newest first by default, oldest first
      when `order` is `asc`. */
  lemma SelectedOrdered(s: Store, f: ListFilter)
    requires WellFormed(s)
    ensures OrderOf(f) == Seqs.Asc ==> Seqs.Sorted(Selected(s, f), CreatedKey)
    ensures OrderOf(f) == Seqs.Desc ==> Seqs.SortedDesc(Selected(s, f), CreatedKey)
  {
    Seqs.SortDirOrdered(All(s), CreatedKey, OrderOf(f));
    Seqs.FilterSortedDir(SortedAll(s, f), CreatedKey, OrderOf(f), MatchFilter(f));
  }

  /** Reservations created at the same time keep their store order in the listing. */
  lemma SelectedStable(s: Store, f: ListFilter, t: int)
    requires WellFormed(s)
    ensures Seqs.Filter(Selected(s, f), Seqs.KeyIs(CreatedKey, t))
         == Seqs.Filter(Seqs.Filter(All(s), Seqs.KeyIs(CreatedKey, t)), MatchFilter(f))
  {
    Seqs.SortDirStable(All(s), CreatedKey, OrderOf(f), t);
    Seqs.FilterCommute(SortedAll(s, f), MatchFilter(f), Seqs.KeyIs(CreatedKey, t));
    Seqs.FilterCommute(All(s), Seqs.KeyIs(CreatedKey, t), MatchFilter(f));
  }

  /** A page of the listing holds at most `limit` reservations, and never more than the total. */
  lemma ListPageBound(s: Store, p: ListParams)
    requires WellFormed(s) && PageNumber(p) >= 1 && LimitOf(p) >= 0
    ensures |List(s, p).reservations| <= LimitOf(p)
    ensures |List(s, p).reservations| <= List(s, p).total
  {
    Seqs.PageWindow(Selected(s, p.filter), PageNumber(p), LimitOf(p));
  }

  /** Pages `1..n` of the listing, fetched one request at a time and concatenated. */
  function ListPages(s: Store, p: ListParams, n: nat): seq<Reservation>
    requires WellFormed(s)
  {
    if n == 0 then [] else ListPages(s, p, n - 1) + List(s, p.(page := Some(n))).reservations
  }

  /** Paging through the listing visits every matching reservation exactly once, in
      listing order, once the pages cover the reported total. */
  lemma {:induction false} ListPagesComplete(s: Store, p: ListParams, n: nat)
    requires WellFormed(s) && LimitOf(p) >= 0
    requires n * LimitOf(p) >= List(s, p).total
    ensures ListPages(s, p, n) == Selected(s, p.filter)
  {
    ListPagesArePages(s, p, n);
    Seqs.PagesCover(Selected(s, p.filter), n, LimitOf(p));
  }

  lemma {:induction false} ListPagesArePages(s: Store, p: ListParams, n: nat)
    requires WellFormed(s)
    ensures ListPages(s, p, n) == Seqs.Pages(Selected(s, p.filter), n, LimitOf(p))
  {
    if n > 0 {
      ListPagesArePages(s, p, n - 1);
    }
  }

  // ---------------------------------------------------------------------------
  // Reads and writes

  /** `getById`: the stored reservation under `id`, or none. */
  function GetById(s: Store, id: string): (r: Option<Reservation>)
    requires WellFormed(s)
    ensures r.Some? <==> id in s.docs
    ensures r.Some? ==> r.value.id == id && r.value in All(s)
  {
    if id in s.docs then
      DocStore.ValuesMembers(s, s.docs[id]);
      Some(s.docs[id])
    else None
  }

  /** The payload of `create`: a reservation without id and timestamps, status optional. */
  datatype NewReservation = NewReservation(
    apartmentId: string,
    roomId: Option<string>,
    guest: Guest,
    checkIn: int,
    checkOut: int,
    guestsCount: Option<int>,
    notes: Option<string>,
    status: Option<Status>,
    totalAmount: Option<int>,
    currency: Option<string>,
    tags: Option<seq<string>>)

  /** The caller-supplied part of a stored reservation. */
  function PayloadOf(r: Reservation): NewReservation {
    NewReservation(r.apartmentId, r.roomId, r.guest, r.checkIn, r.checkOut, r.guestsCount,
                   r.notes, Some(r.status), r.totalAmount, r.currency, r.tags)
  }

  datatype Created = Created(store: Store, reservation: Reservation)

  /** `create`: store the payload under the fresh id the store assigns, with status
      defaulting to pending and both timestamps set to `now`. A full read lists the
      new reservation at position `at`, wherever its random id sorts. */
  function Create(s: Store, payload: NewReservation, id: string, now: int, at: nat): (c: Created)
    requires WellFormed(s) && id !in s.docs && at <= |s.order|
    ensures WellFormed(c.store)
    ensures c.store.docs == s.docs[id := c.reservation]
    ensures All(c.store) == All(s)[..at] + [c.reservation] + All(s)[at..]
    ensures c.reservation.id == id
    ensures PayloadOf(c.reservation) == payload.(status := Some(c.reservation.status))
    ensures payload.status.Some? ==> c.reservation.status == payload.status.value
    ensures payload.status.None? ==> c.reservation.status == Pending
    ensures c.reservation.createdAt == Some(now) && c.reservation.updatedAt == Some(now)
  {
    var r := Reservation(id, payload.apartmentId, payload.roomId, payload.guest,
                         payload.checkIn, payload.checkOut, payload.guestsCount, payload.notes,
                         payload.status.GetOr(Pending), payload.totalAmount, payload.currency,
                         payload.tags, Some(now), Some(now));
    Created(DocStore.Add(s, id, r, at), r)
  }

  /** A created reservation can be read back under its id. */
  lemma CreateThenGet(s: Store, payload: NewReservation, id: string, now: int, at: nat)
    requires WellFormed(s) && id !in s.docs && at <= |s.order|
    ensures GetById(Create(s, payload, id, now, at).store, id) == Some(Create(s, payload, id, now, at).reservation)
  {
  }

  /** Once a reservation is created, its own apartment and (proper) range are no longer
      available, whichever way the query is scoped to it. */
  lemma CreateBlocksRange(s: Store, payload: NewReservation, id: string, now: int, at: nat, q: AvailabilityQuery)
    requires WellFormed(s) && id !in s.docs && at <= |s.order|
    requires payload.checkIn < payload.checkOut
    requires q.checkIn == payload.checkIn && q.checkOut == payload.checkOut
    requires InScope(Create(s, payload, id, now, at).reservation, q)
    ensures !CheckAvailability(Create(s, payload, id, now, at).store, q).available
    ensures Create(s, payload, id, now, at).reservation in CheckAvailability(Create(s, payload, id, now, at).store, q).conflicts
  {
    var c := Create(s, payload, id, now, at);
    assert All(c.store)[at] == c.reservation;
  }

  /** A partial update: every field but the id may be given. */
  datatype Patch = Patch(
    apartmentId: Option<string>,
    roomId: Option<string>,
    guest: Option<Guest>,
    checkIn: Option<int>,
    checkOut: Option<int>,
    guestsCount: Option<int>,
    notes: Option<string>,
    status: Option<Status>,
    totalAmount: Option<int>,
    currency: Option<string>,
    tags: Option<seq<string>>,
    createdAt: Option<int>)

  /** The patch that sets nothing. */
  function NoChange(): Patch {
    Patch(None, None, None, None, None, None, None, None, None, None, None, None)
  }

  /** The patch that only sets the status, as the confirmation page sends. */
  function StatusPatch(st: Status): Patch {
    NoChange().(status := Some(st))
  }

  /** `{...stored, ...patch, updatedAt: now}`: given fields overwrite, others stay. */
  function Merge(r: Reservation, p: Patch, now: int): (m: Reservation)
    ensures m.id == r.id && m.updatedAt == Some(now)
    ensures m.apartmentId == p.apartmentId.GetOr(r.apartmentId)
    ensures m.roomId == (if p.roomId.Some? then p.roomId else r.roomId)
    ensures m.guest == p.guest.GetOr(r.guest)
    ensures m.checkIn == p.checkIn.GetOr(r.checkIn)
    ensures m.checkOut == p.checkOut.GetOr(r.checkOut)
    ensures m.guestsCount == (if p.guestsCount.Some? then p.guestsCount else r.guestsCount)
    ensures m.notes == (if p.notes.Some? then p.notes else r.notes)
    ensures m.status == p.status.GetOr(r.status)
    ensures m.totalAmount == (if p.totalAmount.Some? then p.totalAmount else r.totalAmount)
    ensures m.currency == (if p.currency.Some? then p.currency else r.currency)
    ensures m.tags == (if p.tags.Some? then p.tags else r.tags)
    ensures m.createdAt == (if p.createdAt.Some? then p.createdAt else r.createdAt)
  {
    Reservation(r.id, p.apartmentId.GetOr(r.apartmentId),
                if p.roomId.Some? then p.roomId else r.roomId,
                p.guest.GetOr(r.guest), p.checkIn.GetOr(r.checkIn), p.checkOut.GetOr(r.checkOut),
                if p.guestsCount.Some? then p.guestsCount else r.guestsCount,
                if p.notes.Some? then p.notes else r.notes,
                p.status.GetOr(r.status),
                if p.totalAmount.Some? then p.totalAmount else r.totalAmount,
                if p.currency.Some? then p.currency else r.currency,
                if p.tags.Some? then p.tags else r.tags,
                if p.createdAt.Some? then p.createdAt else r.createdAt,
                Some(now))
  }

  /** Applying `q` after `p` is applying `p` overridden by `q`. */
  function Then(p: Patch, q: Patch): Patch {
    Patch(if q.apartmentId.Some? then q.apartmentId else p.apartmentId,
          if q.roomId.Some? then q.roomId else p.roomId,
          if q.guest.Some? then q.guest else p.guest,
          if q.checkIn.Some? then q.checkIn else p.checkIn,
          if q.checkOut.Some? then q.checkOut else p.checkOut,
          if q.guestsCount.Some? then q.guestsCount else p.guestsCount,
          if q.notes.Some? then q.notes else p.notes,
          if q.status.Some? then q.status else p.status,
          if q.totalAmount.Some? then q.totalAmount else p.totalAmount,
          if q.currency.Some? then q.currency else p.currency,
          if q.tags.Some? then q.tags else p.tags,
          if q.createdAt.Some? then q.createdAt else p.createdAt)
  }

  /** Merging is idempotent, an empty patch only touches `updatedAt`, and two
      successive patches act as their combination. */
  lemma MergeLaws(r: Reservation, p: Patch, q: Patch, t1: int, t2: int)
    ensures Merge(Merge(r, p, t1), p, t2) == Merge(r, p, t2)
    ensures Merge(r, NoChange(), t1) == r.(updatedAt := Some(t1))
    ensures Merge(Merge(r, p, t1), q, t2) == Merge(r, Then(p, q), t2)
  {
  }

  /** A status patch changes the status and `updatedAt` and nothing else. */
  lemma StatusPatchOnlyStatus(r: Reservation, st: Status, now: int)
    ensures Merge(r, StatusPatch(st), now) == r.(status := st, updatedAt := Some(now))
  {
  }

  datatype Updated = Updated(store: Store, reservation: Option<Reservation>)

  /** `update`: a missing id gives no result and leaves the store alone; otherwise the
      patch is merged into the stored document and the merged document is returned.
      No status transition is refused. */
  function Update(s: Store, id: string, patch: Patch, now: int): (u: Updated)
    requires WellFormed(s)
    ensures WellFormed(u.store)
    ensures u.reservation.Some? <==> id in s.docs
    ensures id !in s.docs ==> u.store == s
    ensures id in s.docs ==> u.reservation == Some(Merge(s.docs[id], patch, now))
    ensures id in s.docs ==> u.store.docs == s.docs[id := u.reservation.value] && u.store.order == s.order
  {
    if id !in s.docs then Updated(s, None)
    else
      var r := Merge(s.docs[id], patch, now);
      Updated(DocStore.Put(s, id, r), Some(r))
  }

  /** Every status can be set from every status, e.g. a cancelled booking confirmed again. */
  lemma AnyTransition(s: Store, id: string, st: Status, now: int)
    requires WellFormed(s) && id in s.docs
    ensures Update(s, id, StatusPatch(st), now).reservation.Some?
    ensures Update(s, id, StatusPatch(st), now).reservation.value.status == st
    ensures GetById(Update(s, id, StatusPatch(st), now).store, id)
         == Some(s.docs[id].(status := st, updatedAt := Some(now)))
  {
    StatusPatchOnlyStatus(s.docs[id], st, now);
  }

  datatype Deleted = Deleted(store: Store, deleted: bool)

  /** `delete`: removes the document if present and always reports success. */
  function Delete(s: Store, id: string): (d: Deleted)
    requires WellFormed(s)
    ensures WellFormed(d.store)
    ensures d.deleted
    ensures GetById(d.store, id).None?
    ensures forall k | k != id :: GetById(d.store, k) == GetById(s, k)
  {
    Deleted(DocStore.Remove(s, id), true)
  }

  /** Deleting twice is deleting once. */
  lemma DeleteIdempotent(s: Store, id: string)
    requires WellFormed(s)
    ensures Delete(Delete(s, id).store, id).store.docs == Delete(s, id).store.docs
  {
  }
}

=== FILE: seqs.dfy ===
/** Array operations of the route handlers and services: `filter`, a stable `sort`
    by a numeric key, `slice` with JavaScript's index rules, offset pagination and
    the `Math.ceil(total / limit)` page count. */
module Seqs {

  /** Sort direction: `'asc' | 'desc'`. */
  datatype Direction = Asc | Desc

  /** `s.filter(p)`. */
  function Filter<T(==)>(s: seq<T>, p: T -> bool): (r: seq<T>)
    ensures |r| <= |s|
  {
    if |s| == 0 then [] else (if p(s[0]) then [s[0]] else []) + Filter(s[1..], p)
  }

  /** An element is kept by a filter exactly when it is in the input and satisfies the predicate. */
  lemma {:induction false} FilterMember<T>(s: seq<T>, p: T -> bool, x: T)
    ensures x in Filter(s, p) <==> x in s && p(x)
  {
    if |s| > 0 {
      FilterMember(s[1..], p, x);
      assert s == [s[0]] + s[1..];
    }
  }

  /** The conjunction of two filter predicates. */
  function Both<T(==)>(p: T -> bool, q: T -> bool): T -> bool {
    x => p(x) && q(x)
  }

  /** Filtering twice is filtering once by the conjunction: successive filters are conjunctive. */
  lemma {:induction false} FilterFilter<T>(s: seq<T>, p: T -> bool, q: T -> bool)
    ensures Filter(Filter(s, p), q) == Filter(s, Both(p, q))
  {
    if |s| > 0 {
      FilterFilter(s[1..], p, q);
      FilterAppend(if p(s[0]) then [s[0]] else [], Filter(s[1..], p), q);
    }
  }

  /** Filtering distributes over concatenation. */
  lemma {:induction false} FilterAppend<T>(a: seq<T>, b: seq<T>, p: T -> bool)
    ensures Filter(a + b, p) == Filter(a, p) + Filter(b, p)
  {
    if |a| > 0 {
      FilterAppend(a[1..], b, p);
      assert (a + b)[1..] == a[1..] + b;
    } else {
      assert a + b == b;
    }
  }

  /** A filter that keeps everything changes nothing. */
  lemma {:induction false} FilterKeepsAll<T>(s: seq<T>, p: T -> bool)
    requires forall i :: 0 <= i < |s| ==> p(s[i])
    ensures Filter(s, p) == s
  {
    if |s| > 0 {
      FilterKeepsAll(s[1..], p);
    }
  }

  /** Filters by pointwise-equal predicates agree. */
  lemma {:induction false} FilterExt<T>(s: seq<T>, p: T -> bool, q: T -> bool)
    requires forall x :: p(x) == q(x)
    ensures Filter(s, p) == Filter(s, q)
  {
    if |s| > 0 {
      FilterExt(s[1..], p, q);
    }
  }
  /** `s.filter(p)` when `given`, `s` untouched otherwise: an optional filter stage. */
  function When<T(==)>(given: bool, s: seq<T>, p: T -> bool): seq<T> {
    if given then Filter(s, p) else s
  }

  /** A stage that is skipped only when its predicate passes everything is that filter. */
  lemma WhenIsFilter<T>(given: bool, s: seq<T>, p: T -> bool)
    requires !given ==> forall x :: p(x)
    ensures When(given, s, p) == Filter(s, p)
  {
    if !given {
      FilterKeepsAll(s, p);
    }
  }

  /** `a` can be obtained from `b` by deleting elements: the order of `b` is kept. */
  predicate IsSubseq<T(==)>(a: seq<T>, b: seq<T>) {
    if |a| == 0 then true
    else if |b| == 0 then false
    else if a[0] == b[0] then IsSubseq(a[1..], b[1..])
    else IsSubseq(a, b[1..])
  }

  /** Every sequence is a subsequence of itself. */
  lemma {:induction false} SubseqRefl<T>(a: seq<T>)
    ensures IsSubseq(a, a)
  {
    if |a| > 0 {
      SubseqRefl(a[1..]);
    }
  }

  /** Putting an element in front keeps a subsequence a subsequence. */
  lemma {:induction false} SubseqOfCons<T>(a: seq<T>, x: T, b: seq<T>)
    requires IsSubseq(a, b)
    ensures IsSubseq(a, [x] + b)
    decreases |a| + |b|, 1
  {
    assert ([x] + b)[1..] == b;
    if |a| > 0 && a[0] == x && |b| > 0 {
      SubseqDropHead(a, b);
    }
  }

  /** Dropping the first element of a subsequence keeps it a subsequence. */
  lemma {:induction false} SubseqDropHead<T>(a: seq<T>, b: seq<T>)
    requires |a| > 0 && IsSubseq(a, b)
    ensures IsSubseq(a[1..], b)
    decreases |a| + |b|, 0
  {
    if |b| > 0 {
      assert [b[0]] + b[1..] == b;
      if a[0] == b[0] {
        SubseqOfCons(a[1..], b[0], b[1..]);
      } else {
        SubseqDropHead(a, b[1..]);
        SubseqOfCons(a[1..], b[0], b[1..]);
      }
    }
  }

  /** A filter result lists the kept elements in their original order. */
  lemma {:induction false} FilterIsSubseq<T>(s: seq<T>, p: T -> bool)
    ensures IsSubseq(Filter(s, p), s)
  {
    if |s| > 0 {
      FilterIsSubseq(s[1..], p);
      if p(s[0]) {
        assert Filter(s, p) == [s[0]] + Filter(s[1..], p);
        assert Filter(s, p)[1..] == Filter(s[1..], p);
      } else {
        assert Filter(s, p) == Filter(s[1..], p);
        SubseqOfCons(Filter(s[1..], p), s[0], s[1..]);
        assert [s[0]] + s[1..] == s;
      }
    }
  }

  /** Non-decreasing in `key`. */
  predicate Sorted<T(==)>(s: seq<T>, key: T -> int) {
    forall i, j :: 0 <= i < j < |s| ==> key(s[i]) <= key(s[j])
  }

  /** Filtering a sorted sequence leaves it sorted. */
  lemma {:induction false} FilterSorted<T>(s: seq<T>, key: T -> int, p: T -> bool)
    requires Sorted(s, key)
    ensures Sorted(Filter(s, p), key)
  {
    if |s| > 0 {
      FilterSorted(s[1..], key, p);
      var rest := Filter(s[1..], p);
      forall j | 0 <= j < |rest|
        ensures key(s[0]) <= key(rest[j])
      {
        FilterMember(s[1..], p, rest[j]);
        assert rest[j] in s[1..];
        var m :| 0 <= m < |s[1..]| && s[1..][m] == rest[j];
        assert s[m + 1] == rest[j];
      }
    }
  }

  /** Filtering a sequence ordered in a direction leaves it ordered that way. */
  lemma FilterSortedDir<T>(s: seq<T>, key: T -> int, dir: Direction, p: T -> bool)
    requires dir == Asc ==> Sorted(s, key)
    requires dir == Desc ==> SortedDesc(s, key)
    ensures dir == Asc ==> Sorted(Filter(s, p), key)
    ensures dir == Desc ==> SortedDesc(Filter(s, p), key)
  {
    if dir == Asc {
      FilterSorted(s, key, p);
    } else {
      assert Sorted(s, Negate(key)) by {
        forall i, j | 0 <= i < j < |s|
          ensures Negate(key)(s[i]) <= Negate(key)(s[j])
        {
        }
      }
      FilterSorted(s, Negate(key), p);
      var r := Filter(s, p);
      forall i, j | 0 <= i < j < |r|
        ensures key(r[i]) >= key(r[j])
      {
        assert Negate(key)(r[i]) <= Negate(key)(r[j]);
      }
    }
  }

  /** Two filters commute. */
  lemma FilterCommute<T>(s: seq<T>, p: T -> bool, q: T -> bool)
    ensures Filter(Filter(s, p), q) == Filter(Filter(s, q), p)
  {
    FilterFilter(s, p, q);
    FilterFilter(s, q, p);
    FilterExt(s, Both(p, q), Both(q, p));
  }

  /** Places `x` in front of the first element whose key is not smaller. */
  function Insert<T(==)>(x: T, s: seq<T>, key: T -> int): (r: seq<T>)
    requires Sorted(s, key)
    ensures Sorted(r, key)
    ensures multiset(r) == multiset(s) + multiset{x}
  {
    if |s| == 0 || key(x) <= key(s[0]) then [x] + s
    else
      var t := Insert(x, s[1..], key);
      assert s == [s[0]] + s[1..];
      BoundCarries(key(s[0]), s[1..], x, t, key);
      [s[0]] + t
  }

  /** A lower bound on the keys of `u` and of `x` bounds the keys of any `t` holding
      exactly the elements of `u` and `x`. */
  lemma BoundCarries<T>(b: int, u: seq<T>, x: T, t: seq<T>, key: T -> int)
    requires multiset(t) == multiset(u) + multiset{x}
    requires b <= key(x) && forall j :: 0 <= j < |u| ==> b <= key(u[j])
    ensures forall j :: 0 <= j < |t| ==> b <= key(t[j])
  {
    forall j | 0 <= j < |t|
      ensures b <= key(t[j])
    {
      assert t[j] in multiset(t);
      if t[j] != x {
        assert t[j] in multiset(u);
        var m :| 0 <= m < |u| && u[m] == t[j];
      }
    }
  }

  /** A stable sort ascending by `key`: `[...s].sort((a, b) => key(a) - key(b))`.
      The result is an ordered permutation of `s`. */
  function SortBy<T(==)>(s: seq<T>, key: T -> int): (r: seq<T>)
    ensures Sorted(r, key)
    ensures multiset(r) == multiset(s)
  {
    if |s| == 0 then []
    else
      assert s == [s[0]] + s[1..];
      Insert(s[0], SortBy(s[1..], key), key)
  }

  /** Sorting in a given direction; descending is ascending on the negated key,
      which keeps equal keys in their original order as the source comparators do. */
  function SortDir<T(==)>(s: seq<T>, key: T -> int, dir: Direction): seq<T> {
    match dir
    case Asc => SortBy(s, key)
    case Desc => SortBy(s, Negate(key))
  }

  function Negate<T(==)>(key: T -> int): T -> int {
    x => -key(x)
  }

  /** Non-increasing in `key`. */
  predicate SortedDesc<T(==)>(s: seq<T>, key: T -> int) {
    forall i, j :: 0 <= i < j < |s| ==> key(s[i]) >= key(s[j])
  }

  /** Sorting in a direction yields a permutation ordered that way. */
  lemma SortDirOrdered<T>(s: seq<T>, key: T -> int, dir: Direction)
    ensures multiset(SortDir(s, key, dir)) == multiset(s)
    ensures dir == Asc ==> Sorted(SortDir(s, key, dir), key)
    ensures dir == Desc ==> SortedDesc(SortDir(s, key, dir), key)
  {
    if dir == Desc {
      var r := SortBy(s, Negate(key));
      forall i, j | 0 <= i < j < |r|
        ensures key(r[i]) >= key(r[j])
      {
        assert Negate(key)(r[i]) <= Negate(key)(r[j]);
      }
    }
  }

  /** Holds of the elements whose key is `k`. */
  function KeyIs<T(==)>(key: T -> int, k: int): T -> bool {
    x => key(x) == k
  }

  lemma FilterCons<T>(y: T, t: seq<T>, p: T -> bool)
    ensures Filter([y] + t, p) == (if p(y) then [y] else []) + Filter(t, p)
  {
    assert ([y] + t)[1..] == t;
  }

  lemma {:induction false} InsertStable<T>(x: T, s: seq<T>, key: T -> int, k: int)
    requires Sorted(s, key)
    ensures Filter(Insert(x, s, key), KeyIs(key, k))
         == (if key(x) == k then [x] else []) + Filter(s, KeyIs(key, k))
  {
    if |s| == 0 || key(x) <= key(s[0]) {
      FilterCons(x, s, KeyIs(key, k));
    } else {
      InsertStable(x, s[1..], key, k);
      InsertStableStep(x, s, Insert(x, s[1..], key), key, k);
    }
  }

  lemma InsertStableStep<T>(x: T, s: seq<T>, t: seq<T>, key: T -> int, k: int)
    requires |s| > 0 && key(s[0]) < key(x)
    requires Filter(t, KeyIs(key, k)) == (if key(x) == k then [x] else []) + Filter(s[1..], KeyIs(key, k))
    ensures Filter([s[0]] + t, KeyIs(key, k))
         == (if key(x) == k then [x] else []) + Filter(s, KeyIs(key, k))
  {
    var p := KeyIs(key, k);
    var fx: seq<T> := if key(x) == k then [x] else [];
    var head: seq<T> := if p(s[0]) then [s[0]] else [];
    var rest := Filter(s[1..], p);
    FilterCons(s[0], t, p);
    FilterCons(s[0], s[1..], p);
    assert [s[0]] + s[1..] == s;
    // `s[0]` has a smaller key than `x`, so at most one of them has key `k`.
    assert head == [] || fx == [];
    assert head + (fx + rest) == fx + (head + rest);
  }

  /** Stability: the elements sharing a key keep their relative order. */
  lemma {:induction false} SortStable<T>(s: seq<T>, key: T -> int, k: int)
    ensures Filter(SortBy(s, key), KeyIs(key, k)) == Filter(s, KeyIs(key, k))
  {
    if |s| > 0 {
      SortStable(s[1..], key, k);
      InsertStable(s[0], SortBy(s[1..], key), key, k);
    }
  }

  /** Index normalisation of `Array.prototype.slice`: negative indices count from the end. */
  function SliceIndex(i: int, len: nat): (r: nat)
    ensures r <= len
    ensures 0 <= i <= len ==> r == i
    ensures i >= len ==> r == len
  {
    if i < 0 then (if len + i < 0 then 0 else len + i)
    else if i > len then len
    else i
  }

  /** `s.slice(start, end)`: the run of `s` between the normalised indices, empty when
      they cross. */
  function JsSlice<T(==)>(s: seq<T>, start: int, end: int): (r: seq<T>)
    ensures |r| <= |s|
    ensures 0 <= start <= end <= |s| ==> r == s[start..end]
    ensures 0 <= end <= start ==> r == []
    ensures |r| == 0 || SliceIndex(start, |s|) + |r| == SliceIndex(end, |s|)
    ensures forall k :: 0 <= k < |r| ==> SliceIndex(start, |s|) + k < |s| && r[k] == s[SliceIndex(start, |s|) + k]
  {
    var a := SliceIndex(start, |s|);
    var b := SliceIndex(end, |s|);
    if a < b then s[a..b] else []
  }

  /** `Math.max(0, x)`. */
  function Clamp0(x: int): nat {
    if x < 0 then 0 else x
  }

  /** A negative index counts back from the end, and one before the start means the start. */
  lemma SliceFromEnd<T>(s: seq<T>, start: int, end: int)
    ensures start < 0 ==> JsSlice(s, start, end) == JsSlice(s, Clamp0(|s| + start), end)
    ensures end < 0 ==> JsSlice(s, start, end) == JsSlice(s, start, Clamp0(|s| + end))
  {
  }

  function Min(a: int, b: int): int {
    if a < b then a else b
  }

  /** Offset pagination: `items.slice((page - 1) * limit, (page - 1) * limit + limit)`. */
  function PageOf<T(==)>(items: seq<T>, page: int, limit: int): seq<T> {
    var start := (page - 1) * limit;
    JsSlice(items, start, start + limit)
  }

  /** For a 1-based page and a non-negative limit, the page is the window starting at
      `(page - 1) * limit`, cut at the end of the items, and holds at most `limit` of them. */
  lemma PageWindow<T>(items: seq<T>, page: int, limit: int)
    requires page >= 1 && limit >= 0
    ensures (page - 1) * limit >= 0
    ensures PageOf(items, page, limit)
         == items[Min((page - 1) * limit, |items|)..Min((page - 1) * limit + limit, |items|)]
    ensures |PageOf(items, page, limit)| <= limit
  {
    assert (page - 1) * limit >= 0 by {
      MulNonNeg(page - 1, limit);
    }
  }

  /** A page number below 1 is not refused. Page 0 is empty; a negative page is a
      window counted back from the end of the items, not the first page. */
  lemma {:induction false} NonPositivePage<T>(items: seq<T>, page: int, limit: int)
    requires page <= 0 && limit >= 0
    ensures page == 0 || limit == 0 ==> PageOf(items, page, limit) == []
    ensures page < 0 && limit > 0 ==>
      && Clamp0(|items| + page * limit) <= |items|
      && PageOf(items, page, limit) == items[Clamp0(|items| + (page - 1) * limit)..Clamp0(|items| + page * limit)]
    ensures page == -1 && limit == 10 && |items| == 25 ==> PageOf(items, page, limit) == items[5..15]
  {
    if limit == 0 {
      assert (page - 1) * limit == 0;
    } else if page < 0 {
      MulNeg(page, limit);
      assert (page - 1) * limit + limit == page * limit;
      SliceFromEnd(items, (page - 1) * limit, page * limit);
    }
  }

  lemma MulNeg(a: int, b: int)
    requires a < 0 && b > 0
    ensures a * b < 0 && (a - 1) * b < a * b
  {
  }

  lemma MulNonNeg(a: int, b: int)
    requires a >= 0 && b >= 0
    ensures a * b >= 0
  {
  }

  /** Pages `1..n` concatenated. */
  function Pages<T(==)>(items: seq<T>, n: nat, limit: int): seq<T> {
    if n == 0 then [] else Pages(items, n - 1, limit) + PageOf(items, n, limit)
  }

  /** Pages `1..n` together are exactly the first `n * limit` items, each once and in order. */
  lemma {:induction false} PagesPrefix<T>(items: seq<T>, n: nat, limit: int)
    requires limit >= 0
    ensures n * limit >= 0
    ensures Pages(items, n, limit) == items[..Min(n * limit, |items|)]
  {
    MulNonNeg(n, limit);
    if n > 0 {
      PagesPrefix(items, n - 1, limit);
      PageWindow(items, n, limit);
      assert (n - 1) * limit + limit == n * limit;
      var a := Min((n - 1) * limit, |items|);
      var b := Min(n * limit, |items|);
      assert items[..a] + items[a..b] == items[..b];
    }
  }

  /** Once the pages cover the count, concatenating them gives back every item once. */
  lemma PagesCover<T>(items: seq<T>, n: nat, limit: int)
    requires limit >= 0 && n * limit >= |items|
    ensures Pages(items, n, limit) == items
  {
    PagesPrefix(items, n, limit);
  }

  /** A JavaScript number as far as page counts need one. */
  datatype JsNumber = Finite(n: int) | Infinity | NaN {
    /** `x || 1`: zero and NaN are falsy. */
    function OrOne(): JsNumber {
      match this
      case Finite(n) => if n == 0 then Finite(1) else this
      case NaN => Finite(1)
      case Infinity => this
    }
  }

  /** `Math.ceil(total / limit)`: a division by zero gives NaN for `0 / 0` and
      Infinity otherwise; a negative limit gives a non-positive count. */
  function CeilDiv(total: nat, limit: int): (r: JsNumber)
    ensures limit > 0 ==> r.Finite? && r.n >= 0 && r.n * limit >= total
    ensures limit > 0 && r.Finite? && r.n > 0 ==> (r.n - 1) * limit < total
    ensures limit == 0 ==> (r == NaN <==> total == 0) && (r == Infinity <==> total > 0)
    ensures limit < 0 ==> r.Finite? && r.n <= 0
  {
    if limit > 0 then
      var q := (total + limit - 1) / limit;
      DivBounds(total, limit, q);
      Finite(q)
    else if limit == 0 then (if total == 0 then NaN else Infinity)
    else Finite(-(total / -limit))
  }

  lemma DivBounds(total: nat, limit: int, q: int)
    requires limit > 0 && q == (total + limit - 1) / limit
    ensures q >= 0 && q * limit >= total
    ensures q > 0 ==> (q - 1) * limit < total
  {
    var m := (total + limit - 1) % limit;
    assert total + limit - 1 == q * limit + m;
    assert (q - 1) * limit == q * limit - limit;
  }

  /** With a positive limit, `Math.ceil(total / limit) || 1` is a positive page count
      whose pages hold at least `total` items. */
  lemma PageCountAtLeastOne(total: nat, limit: int)
    requires limit > 0
    ensures CeilDiv(total, limit).OrOne().Finite?
    ensures CeilDiv(total, limit).OrOne().n >= 1
    ensures CeilDiv(total, limit).OrOne().n * limit >= total
  {
  }

  /** With a positive limit, the page count is exactly enough pages to cover every item. */
  lemma PageCountCovers<T>(items: seq<T>, limit: int)
    requires limit > 0
    ensures CeilDiv(|items|, limit).Finite?
    ensures CeilDiv(|items|, limit).n >= 0
    ensures Pages(items, CeilDiv(|items|, limit).n, limit) == items
  {
    PagesCover(items, CeilDiv(|items|, limit).n, limit);
  }

  /** Stability in either direction: elements with equal keys keep their order. */
  lemma SortDirStable<T>(s: seq<T>, key: T -> int, dir: Direction, k: int)
    ensures Filter(SortDir(s, key, dir), KeyIs(key, k)) == Filter(s, KeyIs(key, k))
  {
    if dir == Asc {
      SortStable(s, key, k);
    } else {
      SortDescStable(s, key, k);
    }
  }

  lemma SortDescStable<T>(s: seq<T>, key: T -> int, k: int)
    ensures Filter(SortBy(s, Negate(key)), KeyIs(key, k)) == Filter(s, KeyIs(key, k))
  {
    SortStable(s, Negate(key), -k);
    NegatedKeyIs(key, k);
    FilterSame(SortBy(s, Negate(key)), s, KeyIs(Negate(key), -k), KeyIs(key, k));
  }

  lemma NegatedKeyIs<T>(key: T -> int, k: int)
    ensures forall x :: KeyIs(Negate(key), -k)(x) == KeyIs(key, k)(x)
  {
  }

  lemma FilterSame<T>(a: seq<T>, b: seq<T>, p: T -> bool, q: T -> bool)
    requires Filter(a, p) == Filter(b, p)
    requires forall x :: p(x) == q(x)
    ensures Filter(a, q) == Filter(b, q)
  {
    FilterExt(a, p, q);
    FilterExt(b, p, q);
  }
}

=== FILE: slug.dfy ===
/** Slug normalisation, shared by the post, category and apartment create endpoints:
    `s.toLowerCase().replace(/[^a-z0-9]+/g, '-').replace(/(^-|-$)/g, '')`. */
module Slugs {
  import opened Wrappers
  import opened Strings
  import Seqs

  /** A character a slug may hold. */
  predicate SlugChar(c: char) {
    IsLowerAlnum(c) || c == '-'
  }

  /** Two dashes in a row at `i`. */
  predicate DoubleDashAt(t: string, i: nat)
    requires i + 1 < |t|
  {
    t[i] == '-' && t[i + 1] == '-'
  }

  /** No two dashes in a row. */
  predicate NoDoubleDash(t: string) {
    forall i :: 0 <= i < |t| - 1 ==> !DoubleDashAt(t, i)
  }

  /** A well-formed slug: lower-case letters, digits and single dashes, with no dash at
      either end. */
  predicate IsSlug(t: string) {
    && (forall i :: 0 <= i < |t| ==> SlugChar(t[i]))
    && NoDoubleDash(t)
    && (|t| == 0 || (t[0] != '-' && t[|t| - 1] != '-'))
  }

  /** `s` with its leading run of characters outside `[a-z0-9]` removed. */
  function DropRun(s: string): (r: string)
    ensures |r| <= |s| && r == s[|s| - |r|..]
    ensures |s| > 0 && !IsLowerAlnum(s[0]) ==> |r| < |s|
    ensures |r| == 0 || IsLowerAlnum(r[0])
    ensures forall i :: 0 <= i < |s| - |r| ==> !IsLowerAlnum(s[i])
  {
    if |s| > 0 && !IsLowerAlnum(s[0]) then DropRun(s[1..]) else s
  }

  /** `replace(/[^a-z0-9]+/g, '-')`: every maximal run outside `[a-z0-9]` becomes one dash. */
  function Collapse(s: string): (r: string)
    ensures |r| == 0 <==> |s| == 0
    ensures |s| > 0 ==> (r[0] == '-' <==> !IsLowerAlnum(s[0]))
    ensures forall i :: 0 <= i < |r| ==> SlugChar(r[i])
    ensures NoDoubleDash(r)
    decreases |s|
  {
    if |s| == 0 then []
    else if IsLowerAlnum(s[0]) then
      var rest := Collapse(s[1..]);
      ConsNoDoubleDash(s[0], rest);
      [s[0]] + rest
    else
      var rest := Collapse(DropRun(s));
      ConsNoDoubleDash('-', rest);
      ['-'] + rest
  }

  lemma ConsNoDoubleDash(c: char, rest: string)
    requires NoDoubleDash(rest) && (c != '-' || |rest| == 0 || rest[0] != '-')
    ensures NoDoubleDash([c] + rest)
  {
    var t := [c] + rest;
    forall i | 0 <= i < |t| - 1
      ensures !DoubleDashAt(t, i)
    {
      if i > 0 {
        assert t[i] == rest[i - 1] && t[i + 1] == rest[i];
        assert !DoubleDashAt(rest, i - 1);
      } else {
        assert t[0] == c && t[1] == rest[0];
      }
    }
  }

  lemma SliceNoDoubleDash(t: string, a: nat, b: nat)
    requires NoDoubleDash(t) && a <= b <= |t|
    ensures NoDoubleDash(t[a..b])
  {
    forall i | 0 <= i < b - a - 1
      ensures !DoubleDashAt(t[a..b], i)
    {
      assert !DoubleDashAt(t, a + i);
    }
  }

  /** `replace(/(^-|-$)/g, '')`: one dash is cut from each end. */
  function StripDashes(t: string): (r: string)
    ensures |r| <= |t|
  {
    var a := if |t| > 0 && t[0] == '-' then t[1..] else t;
    if |a| > 0 && a[|a| - 1] == '-' then a[..|a| - 1] else a
  }

  /** The slug of a title or name. */
  function Slugify(s: string): (r: string)
    ensures IsSlug(r)
  {
    var c := Collapse(Lower(s));
    StripMakesSlug(c);
    StripDashes(c)
  }

  /** `(body.slug || name)` normalised: the category and apartment endpoints normalise a
      given slug just as they normalise one derived from the name. */
  function SlugOf(given: Option<string>, name: string): (slug: string)
    ensures IsSlug(slug)
    ensures Slugify(slug) == slug
  {
    var slug := Slugify(OrElse(given, name));
    SlugFixedPoints(slug);
    slug
  }

  /** Cutting the edge dashes off a collapsed string leaves a slug. */
  lemma StripMakesSlug(c: string)
    requires forall i :: 0 <= i < |c| ==> SlugChar(c[i])
    requires NoDoubleDash(c)
    ensures IsSlug(StripDashes(c))
  {
    var a := if |c| > 0 && c[0] == '-' then 1 else 0;
    var b := if |c| - a > 0 && c[|c| - 1] == '-' then |c| - 1 else |c|;
    var r := StripDashes(c);
    assert r == c[a..b];
    SliceNoDoubleDash(c, a, b);
    assert forall i :: 0 <= i < |r| ==> r[i] == c[a + i];
    assert |r| > 0 && a == 1 ==> !DoubleDashAt(c, 0);
    assert |r| > 0 && b == |c| - 1 ==> !DoubleDashAt(c, |c| - 2);
  }

  /** A string made of slug characters without doubled dashes survives the collapse. */
  lemma {:induction false} CollapseFixed(t: string)
    requires forall i :: 0 <= i < |t| ==> SlugChar(t[i])
    requires forall i :: 0 <= i < |t| - 1 ==> !DoubleDashAt(t, i)
    ensures Collapse(t) == t
    decreases |t|
  {
    if |t| > 0 {
      SliceNoDoubleDash(t, 1, |t|);
      assert t[1..|t|] == t[1..];
      CollapseFixed(t[1..]);
      if !IsLowerAlnum(t[0]) {
        assert |t| > 1 ==> !DoubleDashAt(t, 0) && SlugChar(t[1]);
        assert DropRun(t) == t[1..];
      }
    }
  }

  /** The slugs are exactly the strings that normalise to themselves. */
  lemma SlugFixedPoints(t: string)
    ensures Slugify(t) == t <==> IsSlug(t)
  {
    if IsSlug(t) {
      LowerFixed(t);
      CollapseFixed(t);
    }
  }

  /** Normalising twice is normalising once. */
  lemma SlugifyIdempotent(s: string)
    ensures Slugify(Slugify(s)) == Slugify(s)
  {
    SlugFixedPoints(Slugify(s));
  }

  function IsLetterOrDigit(c: char): bool {
    IsLowerAlnum(c)
  }

  /** Dropping a run outside `[a-z0-9]` loses no letter or digit. */
  lemma {:induction false} DropRunKeeps(s: string)
    ensures Seqs.Filter(DropRun(s), IsLetterOrDigit) == Seqs.Filter(s, IsLetterOrDigit)
  {
    if |s| > 0 && !IsLowerAlnum(s[0]) {
      DropRunKeeps(s[1..]);
    }
  }

  /** The collapse keeps every letter and digit, in order. */
  lemma {:induction false} CollapseKeeps(s: string)
    ensures Seqs.Filter(Collapse(s), IsLetterOrDigit) == Seqs.Filter(s, IsLetterOrDigit)
    decreases |s|
  {
    if |s| > 0 {
      if IsLowerAlnum(s[0]) {
        CollapseKeeps(s[1..]);
        Seqs.FilterCons(s[0], Collapse(s[1..]), IsLetterOrDigit);
      } else {
        CollapseKeeps(DropRun(s));
        DropRunKeeps(s);
        Seqs.FilterCons('-', Collapse(DropRun(s)), IsLetterOrDigit);
        Seqs.FilterCons(s[0], s[1..], IsLetterOrDigit);
        assert DropRun(s) == DropRun(s[1..]);
        DropRunKeeps(s[1..]);
      }
    }
  }

  /** Cutting edge dashes loses no letter or digit. */
  lemma StripKeeps(t: string)
    ensures Seqs.Filter(StripDashes(t), IsLetterOrDigit) == Seqs.Filter(t, IsLetterOrDigit)
  {
    var a := if |t| > 0 && t[0] == '-' then t[1..] else t;
    if |t| > 0 && t[0] == '-' {
      Seqs.FilterCons('-', t[1..], IsLetterOrDigit);
      assert t == ['-'] + t[1..];
    }
    if |a| > 0 && a[|a| - 1] == '-' {
      Seqs.FilterAppend(a[..|a| - 1], ['-'], IsLetterOrDigit);
      assert a == a[..|a| - 1] + ['-'];
    }
  }

  /** The slug holds exactly the ASCII letters (lower-cased) and digits of the input, in
      order. */
  lemma SlugKeepsLettersAndDigits(s: string)
    ensures Seqs.Filter(Slugify(s), IsLetterOrDigit) == Seqs.Filter(Lower(s), IsLetterOrDigit)
  {
    StripKeeps(Collapse(Lower(s)));
    CollapseKeeps(Lower(s));
  }
}

=== FILE: storage_url.dfy ===
/** `fixFirebaseStorageUrl`: turns a Firebase Storage link into a public download link by
    making sure it carries `alt=media`, rebuilding it canonically when the bucket and
    object path can be read from it. */
module StorageUrl {
  import opened Wrappers
  import opened Strings

  const Host: string := "firebasestorage.googleapis.com"

  /** The literal part of the pattern before the bucket. */
  const Lead: string := Host + "/v0/b/"

  const AltMedia: string := "alt=media"

  /** The characters the regular-expression `.` does not match. */
  predicate IsLineTerminator(c: char) {
    c == '\n' || c == '\r' || c == '\U{2028}' || c == '\U{2029}'
  }

  /** `https://firebasestorage.googleapis.com/v0/b/${bucket}/o/${objectPath}?alt=media`. */
  function Canonical(bucket: string, path: string): string {
    "https://" + Lead + bucket + "/o/" + path + "?" + AltMedia
  }

  /** Every character is one the regular-expression `.` matches. */
  predicate NoBreak(s: string) {
    forall k :: 0 <= k < |s| ==> !IsLineTerminator(s[k])
  }

  /** The pattern `firebasestorage\.googleapis\.com\/v0\/b\/([^\/]+)\/o\/(.+?)(\?|$)`
      matches at `i` with these groups: the literal lead, a non-empty bucket without `/`,
      `/o/`, and a non-empty path of `.`-characters with no `?` after its first character,
      followed by a `?` or by the end of the URL. */
  predicate Shaped(url: string, i: nat, bucket: string, path: string) {
    var b := i + |Lead|;
    var e := b + |bucket|;
    var p := e + 3;
    var q := p + |path|;
    && bucket != "" && '/' !in bucket && path != "" && '?' !in path[1..] && NoBreak(path)
    && q <= |url|
    && url[i..b] == Lead && url[b..e] == bucket && url[e..p] == "/o/" && url[p..q] == path
    && (q == |url| || url[q] == '?')
  }

  /** The pattern tried at index `i`: the literal lead, then the bucket and the path. */
  function MatchAt(url: string, i: nat): Option<(string, string)> {
    if i + |Lead| <= |url| && url[i..i + |Lead|] == Lead then MatchBucket(url, i + |Lead|)
    else None
  }

  /** The bucket runs from `b` up to the next `/`, which must start `/o/`. */
  function MatchBucket(url: string, b: nat): Option<(string, string)>
    requires b <= |url|
  {
    var e := BucketEnd(url, b);
    if e != b && e + 3 <= |url| && url[e..e + 3] == "/o/" then MatchPath(url, b, e)
    else None
  }

  /** The lazy path runs from after `/o/` up to the first `?` after its first character,
      or to the end; every character of it must be one `.` matches. */
  function MatchPath(url: string, b: nat, e: nat): Option<(string, string)>
    requires b <= e && e + 3 <= |url|
  {
    var p := e + 3;
    if p >= |url| then None
    else
      var q := PathEnd(url, p);
      if NoBreak(url[p..q]) then Some((url[b..e], url[p..q])) else None
  }

  /** `[^\/]+` is greedy: the bucket ends at the first `/` from `b` on, or at the end. */
  function BucketEnd(url: string, b: nat): (e: nat)
    requires b <= |url|
    ensures b <= e <= |url| && '/' !in url[b..e]
    ensures e < |url| ==> url[e] == '/'
  {
    var n := Find(url[b..], '/');
    assert url[b..b + n] == url[b..][..n];
    b + n
  }

  /** `(.+?)(\?|$)` is lazy: the path takes one character, then ends at the first `?`
      or at the end. */
  function PathEnd(url: string, p: nat): (q: nat)
    requires p < |url|
    ensures p < q <= |url| && '?' !in url[p + 1..q]
    ensures q < |url| ==> url[q] == '?'
  {
    var n := Find(url[p + 1..], '?');
    assert url[p + 1..p + 1 + n] == url[p + 1..][..n];
    p + 1 + n
  }

  /** A match at `i` has the shape the pattern describes, with the groups reported. */
  lemma MatchAtSound(url: string, i: nat)
    requires MatchAt(url, i).Some?
    ensures Shaped(url, i, MatchAt(url, i).value.0, MatchAt(url, i).value.1)
  {
    var b := i + |Lead|;
    var e := BucketEnd(url, b);
    var p := e + 3;
    var q := PathEnd(url, p);
    assert MatchAt(url, i) == MatchBucket(url, b) == MatchPath(url, b, e);
    assert url[p..q][1..] == url[p + 1..q];
  }

  /** Conversely, a URL of that shape at `i` is matched there with exactly those groups. */
  lemma MatchAtComplete(url: string, i: nat, bucket: string, path: string)
    requires Shaped(url, i, bucket, path)
    ensures MatchAt(url, i) == Some((bucket, path))
  {
    var b := i + |Lead|;
    var e := b + |bucket|;
    var p := e + 3;
    BucketEndAt(url, b, e);
    assert url[p + 1..p + |path|] == path[1..];
    PathEndAt(url, p, p + |path|);
    assert MatchPath(url, b, e) == Some((bucket, path));
    assert MatchBucket(url, b) == MatchPath(url, b, e);
  }

  /** The bucket end is the only position the greedy bucket can stop at. */
  lemma BucketEndAt(url: string, b: nat, e: nat)
    requires b <= e <= |url| && '/' !in url[b..e]
    requires e == |url| || url[e] == '/'
    ensures BucketEnd(url, b) == e
  {
    FindBefore(url, b, e - b, '/');
  }

  /** The path end is the only position the lazy path can stop at. */
  lemma PathEndAt(url: string, p: nat, q: nat)
    requires p < q <= |url| && '?' !in url[p + 1..q]
    requires q == |url| || url[q] == '?'
    ensures PathEnd(url, p) == q
  {
    FindBefore(url, p + 1, q - p - 1, '?');
  }

  /** In `url[k..]`, a stretch of `n` characters other than `c` followed by a `c` or by
      the end of the string puts the first `c` at `n`. */
  lemma FindBefore(url: string, k: nat, n: nat, c: char)
    requires k + n <= |url| && c !in url[k..k + n]
    requires k + n == |url| || url[k + n] == c
    ensures Find(url[k..], c) == n
  {
    assert url[k..] == url[k..k + n] + url[k + n..];
    assert k + n < |url| ==> url[k + n..][0] == c;
    FindAppend(url[k..k + n], url[k + n..], c);
  }

  /** The first of `f(i), f(i + 1), ..., f(n)` that holds a value. */
  function Leftmost<T>(f: nat -> Option<T>, i: nat, n: nat): Option<T>
    decreases n - i
  {
    if i > n then None
    else if f(i).Some? then f(i)
    else Leftmost(f, i + 1, n)
  }

  function MatcherOf(url: string): nat -> Option<(string, string)> {
    (j: nat) => MatchAt(url, j)
  }

  /** `url.match(pattern)`: the leftmost position, from `i` on, where the pattern matches. */
  function FirstMatch(url: string, i: nat): Option<(string, string)> {
    Leftmost(MatcherOf(url), i, |url|)
  }

  /** `fixFirebaseStorageUrl`: an empty URL, a URL not on the storage host and a URL that
      already has `alt=media` are returned as they are; a URL the pattern matches is
      rebuilt canonically; any other URL gets `alt=media` appended as a further
      parameter (`&`) or as the query (`?`). */
  function Fix(url: string): (r: string)
    ensures r == url <==> url == "" || !Contains(url, Host) || Contains(url, AltMedia)
    ensures Contains(url, Host) ==> Contains(r, Host) && Contains(r, AltMedia)
  {
    if url == "" || !Contains(url, Host) || Contains(url, AltMedia) then url
    else
      match FirstMatch(url, 0)
      case Some((bucket, path)) =>
        CanonicalContains(bucket, path);
        Canonical(bucket, path)
      case None =>
        var sep := if '?' in url then '&' else '?';
        var r := url + [sep] + AltMedia;
        ContainsSuffix(url + [sep], AltMedia);
        ContainsAppend(url, Host, [sep] + AltMedia);
        assert url + [sep] + AltMedia == url + ([sep] + AltMedia);
        r
  }

  lemma CanonicalContains(bucket: string, path: string)
    ensures Contains(Canonical(bucket, path), Host)
    ensures Contains(Canonical(bucket, path), AltMedia)
  {
    var tail := "/v0/b/" + bucket + "/o/" + path + "?" + AltMedia;
    assert Canonical(bucket, path) == "https://" + (Host + tail);
    assert OccursAt(Host + tail, Host, 0);
    ContainsPrepend("https://", Host + tail, Host);
    assert Canonical(bucket, path) == ("https://" + Lead + bucket + "/o/" + path + "?") + AltMedia;
    ContainsSuffix("https://" + Lead + bucket + "/o/" + path + "?", AltMedia);
  }

  /** Fixing a fixed URL changes nothing. */
  lemma FixIdempotent(url: string)
    ensures Fix(Fix(url)) == Fix(url)
  {
    if url != "" && Contains(url, Host) && !Contains(url, AltMedia) {
      assert Fix(url) != "" by {
        assert Contains(Fix(url), AltMedia);
      }
    }
  }

  /** A storage link with a bucket and an object path, and no parameters at all, becomes
      the canonical download link for that object. */
  lemma PlainObjectLink(bucket: string, path: string)
    requires bucket != "" && '/' !in bucket && path != "" && '?' !in path && NoBreak(path)
    requires !Contains("https://" + Lead + bucket + "/o/" + path, AltMedia)
    ensures Fix("https://" + Lead + bucket + "/o/" + path) == Canonical(bucket, path)
  {
    LinkMatches(bucket, path);
    LinkHasHost(bucket, path);
  }

  /** Any link the pattern matches is rebuilt from its leftmost match alone, wherever
      that match lies: whatever precedes it and whatever follows the path, a query
      such as `?token=...` included, is dropped. */
  lemma MatchedLinkRebuilt(url: string, j: nat, bucket: string, path: string)
    requires Contains(url, Host) && !Contains(url, AltMedia)
    requires Shaped(url, j, bucket, path)
    requires forall k :: 0 <= k < j ==> MatchAt(url, k).None?
    ensures Fix(url) == Canonical(bucket, path)
  {
    MatchAtComplete(url, j, bucket, path);
    FirstMatchAt(url, 0, j);
  }

  /** A download link with a query of its own (an access token, say) but no
      `alt=media` loses that query. */
  lemma QueryDropped(bucket: string, path: string, query: string)
    requires bucket != "" && '/' !in bucket && path != "" && '?' !in path && NoBreak(path)
    requires !Contains("https://" + Lead + bucket + "/o/" + path + "?" + query, AltMedia)
    ensures Fix("https://" + Lead + bucket + "/o/" + path + "?" + query) == Canonical(bucket, path)
  {
    var base := "https://" + Lead + bucket + "/o/" + path;
    var url := base + "?" + query;
    LinkShape(bucket, path);
    assert url[..|base|] == base;
    assert url[|base|] == '?';
    assert Shaped(url, 8, bucket, path) by {
      var b := 8 + |Lead|;
      var q := b + |bucket| + 3 + |path|;
      assert q == |base|;
      assert url[8..q] == base[8..q];
    }
    assert url[8..8 + |Host|] == Lead[..|Host|] == Host;
    assert OccursAt(url, Host, 8);
    NoEarlierMatch(url);
    MatchedLinkRebuilt(url, 8, bucket, path);
  }

  lemma LinkMatches(bucket: string, path: string)
    requires bucket != "" && '/' !in bucket && path != "" && '?' !in path && NoBreak(path)
    ensures FirstMatch("https://" + Lead + bucket + "/o/" + path, 0) == Some((bucket, path))
  {
    var url := "https://" + Lead + bucket + "/o/" + path;
    LinkShape(bucket, path);
    MatchAtComplete(url, 8, bucket, path);
    NoEarlierMatch(url);
    FirstMatchAt(url, 0, 8);
  }

  lemma LinkHasHost(bucket: string, path: string)
    ensures Contains("https://" + Lead + bucket + "/o/" + path, Host)
  {
    var url := "https://" + Lead + bucket + "/o/" + path;
    assert url[8..8 + |Host|] == Lead[..|Host|] == Host;
    assert OccursAt(url, Host, 8);
  }

  lemma LinkShape(bucket: string, path: string)
    requires bucket != "" && '/' !in bucket && path != "" && '?' !in path && NoBreak(path)
    ensures Shaped("https://" + Lead + bucket + "/o/" + path, 8, bucket, path)
  {
    var url := "https://" + Lead + bucket + "/o/" + path;
    var b := 8 + |Lead|;
    var e := b + |bucket|;
    assert url[8..b] == Lead;
    assert url[b..e] == bucket;
    assert url[e..e + 3] == "/o/";
    assert url[e + 3..] == path;
    assert forall k :: 1 <= k < |path| ==> path[1..][k - 1] == path[k];
  }

  /** The pattern cannot match inside the scheme `https://`. */
  lemma NoEarlierMatch(url: string)
    requires |url| >= 8 && url[..8] == "https://"
    ensures forall j :: 0 <= j < 8 ==> MatchAt(url, j).None?
  {
    forall j | 0 <= j < 8
      ensures MatchAt(url, j).None?
    {
      assert url[j] == "https://"[j];
      assert url[j] != Lead[0];
    }
  }

  lemma {:induction false} LeftmostNone<T>(f: nat -> Option<T>, i: nat, n: nat)
    ensures Leftmost(f, i, n).None? <==> forall j :: i <= j <= n ==> f(j).None?
    decreases n - i
  {
    if i <= n && f(i).None? {
      LeftmostNone(f, i + 1, n);
    }
  }

  lemma {:induction false} LeftmostFound<T>(f: nat -> Option<T>, i: nat, n: nat) returns (j: nat)
    requires Leftmost(f, i, n).Some?
    ensures i <= j <= n && f(j) == Leftmost(f, i, n)
    ensures forall k :: i <= k < j ==> f(k).None?
    decreases n - i
  {
    if f(i).Some? {
      j := i;
    } else {
      j := LeftmostFound(f, i + 1, n);
    }
  }

  lemma {:induction false} LeftmostAt<T>(f: nat -> Option<T>, i: nat, j: nat, n: nat)
    requires i <= j <= n && f(j).Some?
    requires forall k :: i <= k < j ==> f(k).None?
    ensures Leftmost(f, i, n) == f(j)
    decreases j - i
  {
    if i < j {
      assert f(i).None?;
      LeftmostAt(f, i + 1, j, n);
    }
  }

  /** `FirstMatch` reports no match exactly when the pattern matches nowhere from `i` on. */
  lemma FirstMatchNone(url: string, i: nat)
    ensures FirstMatch(url, i).None? <==> forall j :: i <= j <= |url| ==> MatchAt(url, j).None?
  {
    LeftmostNone(MatcherOf(url), i, |url|);
    assert forall j :: MatcherOf(url)(j) == MatchAt(url, j);
  }

  /** A match `FirstMatch` reports is the pattern's match at some position, and the
      pattern matches at no earlier position. */
  lemma FirstMatchLeftmost(url: string, i: nat)
    ensures FirstMatch(url, i).Some? ==>
      exists j :: i <= j <= |url| && MatchAt(url, j) == FirstMatch(url, i) &&
        forall k :: i <= k < j ==> MatchAt(url, k).None?
  {
    if FirstMatch(url, i).Some? {
      var j := LeftmostFound(MatcherOf(url), i, |url|);
      assert forall k :: MatcherOf(url)(k) == MatchAt(url, k);
      assert MatchAt(url, j) == FirstMatch(url, i);
    }
  }

  /** The leftmost match is found when nothing matches before it. */
  lemma FirstMatchAt(url: string, i: nat, j: nat)
    requires i <= j <= |url| && MatchAt(url, j).Some?
    requires forall k :: i <= k < j ==> MatchAt(url, k).None?
    ensures FirstMatch(url, i) == MatchAt(url, j)
  {
    assert forall k :: MatcherOf(url)(k) == MatchAt(url, k);
    LeftmostAt(MatcherOf(url), i, j, |url|);
  }
}

=== FILE: strings.dfy ===
/** The JavaScript string operations the route handlers rely on: `toLowerCase`,
    `includes`, `trim`, `split` and `substring`, over `seq<char>`. */
module Strings {

  predicate IsUpper(c: char) {
    'A' <= c <= 'Z'
  }

  /** The character class `[a-z0-9]` of the slug regular expressions. */
  predicate IsLowerAlnum(c: char) {
    'a' <= c <= 'z' || '0' <= c <= '9'
  }

  function LowerChar(c: char): char {
    if IsUpper(c) then (c as int + 32) as char else c
  }

  /** `toLowerCase`, for the ASCII letters. */
  function Lower(s: string): (r: string)
    ensures |r| == |s|
    ensures forall i :: 0 <= i < |r| ==> r[i] == LowerChar(s[i])
    ensures forall i :: 0 <= i < |r| ==> !IsUpper(r[i])
  {
    if |s| == 0 then [] else [LowerChar(s[0])] + Lower(s[1..])
  }

  /** Lowering twice is lowering once. */
  lemma LowerIdempotent(s: string)
    ensures Lower(Lower(s)) == Lower(s)
  {
  }

  /** A string with no upper-case letter is its own lower-case form. */
  lemma LowerFixed(s: string)
    requires forall i :: 0 <= i < |s| ==> !IsUpper(s[i])
    ensures Lower(s) == s
  {
  }

  /** `t` occurs in `s` starting at index `i`. */
  predicate OccursAt(s: string, t: string, i: int) {
    0 <= i <= |s| - |t| && s[i..i + |t|] == t
  }

  /** `s.includes(t)`: `t` occurs in `s` at some position. */
  predicate Contains(s: string, t: string) {
    exists i | 0 <= i <= |s| - |t| :: OccursAt(s, t, i)
  }

  /** An occurrence survives appending text on the right. */
  lemma ContainsAppend(s: string, t: string, u: string)
    requires Contains(s, t)
    ensures Contains(s + u, t)
  {
    var i :| 0 <= i <= |s| - |t| && OccursAt(s, t, i);
    assert (s + u)[i..i + |t|] == s[i..i + |t|];
    assert OccursAt(s + u, t, i);
  }

  /** A string contains every suffix it ends with. */
  lemma ContainsSuffix(u: string, t: string)
    ensures Contains(u + t, t)
  {
    assert (u + t)[|u|..|u| + |t|] == t;
    assert OccursAt(u + t, t, |u|);
  }

  /** An occurrence survives prepending text on the left. */
  lemma ContainsPrepend(u: string, s: string, t: string)
    requires Contains(s, t)
    ensures Contains(u + s, t)
  {
    var i :| 0 <= i <= |s| - |t| && OccursAt(s, t, i);
    assert (u + s)[|u| + i..|u| + i + |t|] == s[i..i + |t|];
    assert OccursAt(u + s, t, |u| + i);
  }

  /** The white space `trim` removes: the ECMAScript WhiteSpace and LineTerminator characters. */
  predicate IsSpace(c: char) {
    || c == '\t' || c == '\n' || c == '\U{000B}' || c == '\U{000C}' || c == '\r' || c == ' '
    || c == '\U{00A0}' || c == '\U{1680}' || ('\U{2000}' <= c <= '\U{200A}')
    || c == '\U{2028}' || c == '\U{2029}' || c == '\U{202F}' || c == '\U{205F}'
    || c == '\U{3000}' || c == '\U{FEFF}'
  }

  function TrimStart(s: string): (r: string)
    ensures |r| <= |s| && r == s[|s| - |r|..]
    ensures |r| == 0 || !IsSpace(r[0])
  {
    if |s| > 0 && IsSpace(s[0]) then TrimStart(s[1..]) else s
  }

  function TrimEnd(s: string): (r: string)
    ensures |r| <= |s| && r == s[..|r|]
    ensures |r| == 0 || !IsSpace(r[|r| - 1])
  {
    if |s| > 0 && IsSpace(s[|s| - 1]) then TrimEnd(s[..|s| - 1]) else s
  }

  /** `TrimStart` cuts off white space only. */
  lemma {:induction false} TrimStartCut(s: string)
    ensures forall i :: 0 <= i < |s| - |TrimStart(s)| ==> IsSpace(s[i])
  {
    if |s| > 0 && IsSpace(s[0]) {
      TrimStartCut(s[1..]);
      assert forall i :: 1 <= i < |s| ==> s[i] == s[1..][i - 1];
    }
  }

  /** `TrimEnd` cuts off white space only. */
  lemma {:induction false} TrimEndCut(s: string)
    ensures forall i :: |TrimEnd(s)| <= i < |s| ==> IsSpace(s[i])
  {
    if |s| > 0 && IsSpace(s[|s| - 1]) {
      TrimEndCut(s[..|s| - 1]);
      assert forall i :: 0 <= i < |s| - 1 ==> s[i] == s[..|s| - 1][i];
    }
  }

  /** Every character of `s` is white space. */
  predicate AllSpace(s: string) {
    forall k :: 0 <= k < |s| ==> IsSpace(s[k])
  }

  /** `trim`: `s` with its leading and trailing white space cut off; what remains
      neither starts nor ends with white space. */
  function Trim(s: string): (r: string)
    ensures |r| == 0 || (!IsSpace(r[0]) && !IsSpace(r[|r| - 1]))
  {
    TrimEnd(TrimStart(s))
  }

  /** What `trim` cuts off is white space on both sides of the result. */
  lemma TrimPieces(s: string)
    ensures exists lead, trail :: s == lead + Trim(s) + trail && AllSpace(lead) && AllSpace(trail)
  {
    var a := TrimStart(s);
    var r := TrimEnd(a);
    var lead := s[..|s| - |a|];
    var trail := a[|r|..];
    TrimStartCut(s);
    TrimEndCut(a);
    LeadPiece(s, a);
    TrailPiece(a, r);
    TrimJoin(s, a, r);
    assert s == lead + r + trail && AllSpace(lead) && AllSpace(trail);
  }

  lemma TrimJoin(s: string, a: string, r: string)
    requires |a| <= |s| && s == s[..|s| - |a|] + a
    requires |r| <= |a| && a == r + a[|r|..]
    ensures s == s[..|s| - |a|] + r + a[|r|..]
  {
  }

  lemma LeadPiece(s: string, a: string)
    requires |a| <= |s| && a == s[|s| - |a|..]
    requires forall i :: 0 <= i < |s| - |a| ==> IsSpace(s[i])
    ensures s == s[..|s| - |a|] + a
    ensures AllSpace(s[..|s| - |a|])
  {
    var n := |s| - |a|;
    assert s == s[..n] + s[n..];
    forall k | 0 <= k < n
      ensures IsSpace(s[..n][k])
    {
      assert s[..n][k] == s[k];
    }
  }

  lemma TrailPiece(a: string, r: string)
    requires |r| <= |a| && r == a[..|r|]
    requires forall i :: |r| <= i < |a| ==> IsSpace(a[i])
    ensures a == r + a[|r|..]
    ensures AllSpace(a[|r|..])
    ensures |r| == 0 || |a| == 0 || r[0] == a[0]
  {
    var n := |r|;
    assert a == a[..n] + a[n..];
    forall k | 0 <= k < |a| - n
      ensures IsSpace(a[n..][k])
    {
      assert a[n..][k] == a[n + k];
    }
  }

  /** `s.trim().length === 0` holds exactly when `s` is all white space. */
  lemma TrimEmptyIffBlank(s: string)
    ensures |Trim(s)| == 0 <==> AllSpace(s)
  {
    var r := Trim(s);
    TrimPieces(s);
    var lead, trail :| s == lead + r + trail && AllSpace(lead) && AllSpace(trail);
    if |r| > 0 {
      assert s[|lead|] == r[0];
    } else {
      assert s == lead + trail;
      assert forall k :: 0 <= k < |s| ==> s[k] == if k < |lead| then lead[k] else trail[k - |lead|];
    }
  }

  /** Trimming is idempotent. */
  lemma TrimIdempotent(s: string)
    ensures Trim(Trim(s)) == Trim(s)
  {
    var r := Trim(s);
    assert TrimStart(r) == r;
    assert TrimEnd(r) == r;
  }

  /** `s.substring(0, n)` for a non-negative `n`. */
  function Take(s: string, n: nat): (r: string)
    ensures |r| == if n < |s| then n else |s|
    ensures r <= s
  {
    if n < |s| then s[..n] else s
  }

  /** Number of occurrences of `c` in `s`. */
  function Count(s: string, c: char): nat {
    if |s| == 0 then 0 else (if s[0] == c then 1 else 0) + Count(s[1..], c)
  }

  /** `Boolean` as a filter over strings: kept exactly when non-empty. */
  function NonEmpty(t: string): bool {
    t != ""
  }

  /** `s.split(sep)` for a one-character separator: the pieces between separators,
      empty pieces included. */
  function Split(s: string, sep: char): (parts: seq<string>)
    ensures |parts| >= 1
    ensures forall i :: 0 <= i < |parts| ==> sep !in parts[i]
  {
    if |s| == 0 then [""]
    else if s[0] == sep then [""] + Split(s[1..], sep)
    else
      var rest := Split(s[1..], sep);
      [[s[0]] + rest[0]] + rest[1..]
  }

  /** `parts.join(sep)`, the inverse of `Split`. */
  function Join(parts: seq<string>, sep: char): string {
    if |parts| == 0 then ""
    else if |parts| == 1 then parts[0]
    else parts[0] + [sep] + Join(parts[1..], sep)
  }

  /** Splitting and joining back gives the original string. */
  lemma {:induction false} JoinSplit(s: string, sep: char)
    ensures Join(Split(s, sep), sep) == s
  {
    if |s| == 0 {
    } else if s[0] == sep {
      JoinSplit(s[1..], sep);
      assert s == [sep] + s[1..];
    } else {
      var rest := Split(s[1..], sep);
      JoinSplit(s[1..], sep);
      if |rest| == 1 {
        assert s == [s[0]] + rest[0];
      } else {
        assert rest == [rest[0]] + rest[1..];
        assert Join(rest, sep) == rest[0] + [sep] + Join(rest[1..], sep);
        assert s == [s[0]] + s[1..];
      }
    }
  }

  /** Joining pieces that hold no separator and splitting again gives the pieces back. */
  lemma {:induction false} SplitJoin(parts: seq<string>, sep: char)
    requires |parts| >= 1
    requires forall i :: 0 <= i < |parts| ==> sep !in parts[i]
    ensures Split(Join(parts, sep), sep) == parts
  {
    if |parts| == 1 {
      SplitNoSep(parts[0], sep);
    } else {
      SplitJoin(parts[1..], sep);
      SplitPrefix(parts[0], Join(parts[1..], sep), sep);
    }
  }

  /** A string without the separator splits into itself. */
  lemma {:induction false} SplitNoSep(s: string, sep: char)
    requires sep !in s
    ensures Split(s, sep) == [s]
  {
    if |s| > 0 {
      SplitNoSep(s[1..], sep);
      assert [s[0]] + s[1..] == s;
    }
  }

  /** Splitting `p + sep + t` where `p` holds no separator puts `p` first. */
  lemma {:induction false} SplitPrefix(p: string, t: string, sep: char)
    requires sep !in p
    ensures Split(p + [sep] + t, sep) == [p] + Split(t, sep)
  {
    if |p| == 0 {
      assert p + [sep] + t == [sep] + t;
    } else {
      SplitPrefix(p[1..], t, sep);
      assert (p + [sep] + t)[1..] == p[1..] + [sep] + t;
      assert [p[0]] + p[1..] == p;
    }
  }

  /** `split` yields one more piece than there are separators. */
  lemma {:induction false} SplitLength(s: string, sep: char)
    ensures |Split(s, sep)| == Count(s, sep) + 1
  {
    if |s| > 0 {
      SplitLength(s[1..], sep);
    }
  }

  /** The index of the first `c` in `s`, or `|s|` when there is none. */
  function Find(s: string, c: char): (i: nat)
    ensures i <= |s|
    ensures c !in s[..i]
    ensures i < |s| ==> s[i] == c
  {
    if |s| == 0 || s[0] == c then 0 else 1 + Find(s[1..], c)
  }

  /** Searching past a prefix without `c` shifts the index by the prefix length. */
  lemma {:induction false} FindAppend(a: string, b: string, c: char)
    requires c !in a
    ensures Find(a + b, c) == |a| + Find(b, c)
  {
    if |a| > 0 {
      assert (a + b)[1..] == a[1..] + b;
      FindAppend(a[1..], b, c);
    } else {
      assert a + b == b;
    }
  }
}

=== FILE: wrappers.dfy ===
/** Optional values and store reachability, shared by every module of the model. */
module Wrappers {

  /** A value that may be absent: an `undefined` field, a `null` lookup result. */
  datatype Option<+T> = None | Some(value: T) {

    /** The value, or `default` when absent (the `??` operator of the source). */
    function GetOr(default: T): T {
      match this
      case Some(v) => v
      case None => default
    }
  }

  /** The document store as a caller sees it: reachable with its current contents,
      or unreachable, in which case every read and write throws an error with the
      given message. */
  datatype Db<+T> = Up(value: T) | Down(reason: string)

  /** JavaScript truthiness of an optional string: present and non-empty. */
  predicate Truthy(o: Option<string>) {
    o.Some? && o.value != ""
  }

  /** `o || fallback` for an optional string. */
  function OrElse(o: Option<string>, fallback: string): string {
    if Truthy(o) then o.value else fallback
  }

  /** `o || fallback` for an optional number: zero is falsy too. */
  function NumOr(o: Option<int>, fallback: int): int {
    if o.Some? && o.value != 0 then o.value else fallback
  }
}
